=== FILE: README.md ===
# jupyterlite-pyodide-lock, modelled in Dafny

This project models the data and text transformations at the core of
`jupyterlite-pyodide-lock`. That is the JupyterLite addon which solves a
`pyodide-lock.json` for a site and can make the site work offline. The
model covers:

- **the offline addon** (`Offline`, `Closure`, `Names`). Include and
  exclude patterns are applied to package names. The dependency closure
  is computed by a worklist loop that tolerates cycles. The lock is pruned
  to the kept names, and each remote `file_name` is rewritten to a path
  inside the site, with its `sha256` corrected.
- **the browser locker** (`Collect` for the older package, `Browser` for
  the newer one, `Binary` for the binary lookup):
  - URLs the page reports map back to files on disk;
  - lock entries point at a file under the root, a copy beside the lock,
    or the CDN;
  - the `micropip` arguments are assembled;
  - the browser command line is built, with the newer package's table
    aliased as the code aliases it;
  - temporary profiles and cleanup are handled.
- **the locker's web server** (`Cacher`, `Routes`, `Mime`, `Freezer`):
  - caching proxies: a cache hit, a miss, body rewrites, and the
    retry-with-backoff fetch;
  - the route tables and which handler each route builds;
  - MIME selection by the first matching pattern;
  - the submission handler that writes the solved lock.
- **HTML config rewriting** (`FixHtml`). It rewrites relative URLs in a
  page's `jupyter-config-data` JSON tree, and redirects links to missing
  files.
- **the locker registry** (`Registry`). Entry points are de-duplicated,
  the first registration wins, and the keys are sorted.
- **the lock addon's own actions** (`LockAddon`):
  - running the locker;
  - patching `loadPyodideOptions`;
  - turning requirements into fetch and copy tasks;
  - choosing one wheel per project.
- **small utilities** (`Urls`, `Dates`): the wheel file name of a URL, and
  converting upload dates to and from epochs.
- **the development scripts** (`Splice`, `Tasks`, `Deps`): the marker
  splice of `replace-between.py` and `dodo.py`, the renaming of tasks in
  `fix-tasks.py`, and the pin replacement of `fix-deps.py`.

The supporting modules are:

- `Py` holds Python's exceptions, `Option`/`Result`, and truthiness.
- `Strings` holds find, split, join, replace-all, `startswith`,
  `endswith`, last segment, string order and sorting. These are generic
  over `seq<T>`, so bytes and strings share them.
- `Paths` joins paths with `/` and takes the final component.
- `Dicts` models insertion-ordered dicts as sequences of pairs.
- `Json` holds the JSON value datatype.

Conventions:

- **Files:** a file system is a `map` from path to bytes, or a `set` of
  existing paths.
- **Parameters:** regular expressions (`re.match`, `re.search`,
  `re.sub`), hashing, `shutil.which`, the Windows registry, `strptime`
  and `strftime`, and JSON dumping are all function parameters.
- **Exceptions:** every Python exception the code can raise is an `Err`
  of a `Result`.
- **Quirks kept as written:**
  - `str.replace` replaces every occurrence;
  - the newer argv builder mutates `BROWSERS` through the list it gets
    back.
  - the registry fallback calls `QueryValue` with one argument, so on
    Windows it raises `TypeError` at the first key that exists; the
    value-reading loop is kept as the corrected variant (see the findings).

Where the repository's prose and its code disagree, the model follows the
code:

- `MicropipFreeze.post` sets the halt flag only after `json.loads` and
  the `"packages" in` test succeed. A malformed body raises first, so the
  halt flag is left as it was (`Freezer.Post`).
- `_fix_all_html_config` of `FixHtmlAddon` returns `True` only when
  `rewrite_missing` is non-empty. With the default empty dict every page
  raises before anything is written (see the findings).

## Model

| member | source | states |
|---|---|---|
| Names.CanonIsCanonical | py/jupyterlite-pyodide-lock/src/jupyterlite_pyodide_lock/addons/offline.py:276 | every `canonicalize_name` result is in PEP 503 normal form: no upper case, no `_` or `.`, no repeated `-` |
| Names.CanonicalIsFixed | py/jupyterlite-pyodide-lock/src/jupyterlite_pyodide_lock/addons/offline.py:276 | a name already in normal form is its own normalisation |
| Names.CanonIdempotent | py/jupyterlite-pyodide-lock/src/jupyterlite_pyodide_lock/addons/offline.py:276 | normalising twice gives the same name as normalising once |
| Names.Canon | py/jupyterlite-pyodide-lock/src/jupyterlite_pyodide_lock/addons/offline.py:276 | the normal form is empty exactly when the name is, and starts with `-` exactly when the name starts with a separator |
| Closure.Close | py/jupyterlite-pyodide-lock/src/jupyterlite_pyodide_lock/addons/offline.py:290-302 | on success: the dependency set is disjoint from the leaves and made of keys; it holds exactly the names reachable from the first worklist without passing a leaf; it covers the first worklist; it is closed under edges. On failure: a `KeyError` for a reachable name with no entry. If every reachable name has an entry, the loop succeeds; it ends on cyclic graphs too |
| Closure.ReachableInClosed | py/jupyterlite-pyodide-lock/src/jupyterlite_pyodide_lock/addons/offline.py:292-300 | any set that holds the start and is closed under edges holds every reachable name, so the loop adds nothing extra |
| Closure.NothingFromEmpty | py/jupyterlite-pyodide-lock/src/jupyterlite_pyodide_lock/addons/offline.py:281-292 | with an empty first worklist nothing is reachable |
| Closure.ChainReach | py/jupyterlite-pyodide-lock/src/jupyterlite_pyodide_lock/addons/offline.py:292-300 | in the chain `a -> b -> c` with leaf `a`, the worklist reaches exactly `b` and `c` |
| Offline.AllIncludes | py/jupyterlite-pyodide-lock/src/jupyterlite_pyodide_lock/addons/offline.py:105-112 | the include patterns are sorted and duplicate-free, and are exactly the configured, extra and preloaded ones |
| Offline.AllExcludes | py/jupyterlite-pyodide-lock/src/jupyterlite_pyodide_lock/addons/offline.py:114-117 | the exclude patterns are sorted and duplicate-free, and are exactly the configured and extra ones |
| Offline.AnyMatch | py/jupyterlite-pyodide-lock/src/jupyterlite_pyodide_lock/addons/offline.py:308-313 | `any(re.match(...))` holds exactly when some pattern matches |
| Offline.IsIncluded | py/jupyterlite-pyodide-lock/src/jupyterlite_pyodide_lock/addons/offline.py:304-314 | a name is included exactly when some include pattern matches it and no exclude pattern does |
| Offline.ExcludeWins | py/jupyterlite-pyodide-lock/src/jupyterlite_pyodide_lock/addons/offline.py:308-309 | a matching exclusion rules the name out, whatever the includes say |
| Offline.NoIncludesNothing | py/jupyterlite-pyodide-lock/src/jupyterlite_pyodide_lock/addons/offline.py:311-312 | with no include patterns nothing is included |
| Offline.LeafNames | py/jupyterlite-pyodide-lock/src/jupyterlite_pyodide_lock/addons/offline.py:275-280 | the normal form of every included raw name is a leaf |
| Offline.LeafNamesMember | py/jupyterlite-pyodide-lock/src/jupyterlite_pyodide_lock/addons/offline.py:275-280 | every leaf is the normal form of some included raw name |
| Offline.InitialDeps | py/jupyterlite-pyodide-lock/src/jupyterlite_pyodide_lock/addons/offline.py:281 | the normalised `depends` of every included package are queued first |
| Offline.InitialDepsMember | py/jupyterlite-pyodide-lock/src/jupyterlite_pyodide_lock/addons/offline.py:281 | every queued name is a normalised dependency of an included package, and of nothing else |
| Offline.CanonSet | py/jupyterlite-pyodide-lock/src/jupyterlite_pyodide_lock/addons/offline.py:281 | `{*map(canonicalize_name, names)}` holds each name's normal form and is no larger than the list |
| Offline.DepGraph | py/jupyterlite-pyodide-lock/src/jupyterlite_pyodide_lock/addons/offline.py:296-300 | the lock read as a graph has one node per key, with edges to the normalised dependencies |
| Offline.GetIncludedNames | py/jupyterlite-pyodide-lock/src/jupyterlite_pyodide_lock/addons/offline.py:264-302 | on success: the leaves are the included names and are disjoint from the dependency set; the dependency set is made of keys and is exactly what the worklist reaches; it holds the first worklist and is closed under `depends`. A failure is a `KeyError` on a missing key, and cannot happen when every reachable name has an entry |
| Offline.CanonicalKeysClosed | py/jupyterlite-pyodide-lock/src/jupyterlite_pyodide_lock/addons/offline.py:292-300 | when the keys are normal forms, the kept names are keys and the kept entries' dependencies are all kept |
| Offline.ChainFromA | py/jupyterlite-pyodide-lock/src/jupyterlite_pyodide_lock/addons/offline.py:264-302 | for `{a:[b], b:[c], c:[]}` and `^a$`, the leaf is `{a}` and the worklist reaches `b` and `c` |
| Offline.ChainFromNothing | py/jupyterlite-pyodide-lock/src/jupyterlite_pyodide_lock/addons/offline.py:264-302 | for the same lock and `^Z$`, there are no leaves, no first worklist and nothing reachable |
| Offline.ChainGraph | py/jupyterlite-pyodide-lock/src/jupyterlite_pyodide_lock/addons/offline.py:296-300 | the lock `{a:[b], b:[c], c:[]}` read as a graph is the chain `a -> b -> c` |
| Offline.ChainOnlyA | py/jupyterlite-pyodide-lock/src/jupyterlite_pyodide_lock/addons/offline.py:304-314 | of that lock's names, `^a$` includes `a` alone |
| Offline.ChainLeaf | py/jupyterlite-pyodide-lock/src/jupyterlite_pyodide_lock/addons/offline.py:275-280 | including `^a$` makes `a` the only leaf |
| Offline.ChainInit | py/jupyterlite-pyodide-lock/src/jupyterlite_pyodide_lock/addons/offline.py:281 | including `^a$` queues only `b`, the dependency of `a` |
| Offline.ChainNoneIncluded | py/jupyterlite-pyodide-lock/src/jupyterlite_pyodide_lock/addons/offline.py:304-314 | `^Z$` includes none of that lock's names |
| Offline.GetPrunedPackages | py/jupyterlite-pyodide-lock/src/jupyterlite_pyodide_lock/addons/offline.py:235-262 | with `prune` the keys are exactly the kept names that are keys; without it, every key is kept; kept entries are unchanged, and the input is not touched |
| Offline.Destination | py/jupyterlite-pyodide-lock/src/jupyterlite_pyodide_lock/addons/offline.py:207-216 | the wheel is served from the site's pyodide folder exactly when it is missing beside the lock and present in that folder; otherwise from beside the lock |
| Offline.WheelOf | py/jupyterlite-pyodide-lock/src/jupyterlite_pyodide_lock/addons/offline.py:205-206 | the stored wheel name is the slash-free last segment of the URL path, and a URL `urlparse` rejects is a `ValueError` |
| Offline.Place | py/jupyterlite-pyodide-lock/src/jupyterlite_pyodide_lock/addons/offline.py:216-220 | no existing file changes, and only the destination and the package cache can be added |
| Offline.ResolveOneOffline | py/jupyterlite-pyodide-lock/src/jupyterlite_pyodide_lock/addons/offline.py:190-233 | an unknown name is a `KeyError`; a non-remote entry leaves everything as it was; keys, the other entries and the existing files are preserved; a remote entry is placed, gets the site-relative path of where it was placed, and its `sha256` becomes the digest of the placed bytes; only a bad URL fails otherwise |
| Offline.ResolvedBytes | py/jupyterlite-pyodide-lock/src/jupyterlite_pyodide_lock/addons/offline.py:216-233 | after a remote entry is resolved, only the destination and the cache can be new files, the destination holds the existing, cached or fetched bytes in that order of preference, and an entry whose digest already matched changes only its `file_name` |
| Offline.ResolvedIsLocal | py/jupyterlite-pyodide-lock/src/jupyterlite_pyodide_lock/addons/offline.py:222 | a remote pattern that no `../../static/` path satisfies no longer matches the resolved entry |
| Offline.ResolveStep | py/jupyterlite-pyodide-lock/src/jupyterlite_pyodide_lock/addons/offline.py:184 | one step keeps the keys, the other entries and the files, and leaves the entry local; a remote entry ends up pointing at its wheel in the output, with that file's digest |
| Offline.ResolvedSettled | py/jupyterlite-pyodide-lock/src/jupyterlite_pyodide_lock/addons/offline.py:198-233 | after resolving a remote entry, its `file_name` names its wheel under the lock or pyodide folder, that wheel is among the output files, and the entry's `sha256` is that file's digest |
| Offline.ResolveAll | py/jupyterlite-pyodide-lock/src/jupyterlite_pyodide_lock/addons/offline.py:183-184 | resolving every name in turn keeps the keys and files and leaves unlisted entries alone; every listed remote entry points at a wheel in the output with that file's digest; under a local-only remote pattern no listed entry stays remote; the first failure is propagated |
| Offline.KeptNames | py/jupyterlite-pyodide-lock/src/jupyterlite_pyodide_lock/addons/offline.py:172 | on success the leaves are exactly the requested names and the dependency set is exactly the names reachable from them in the lock; the dependency names are keys, and the leaves too when the keys are normal forms; a failure means some reachable name has no entry |
| Offline.ResolveOffline | py/jupyterlite-pyodide-lock/src/jupyterlite_pyodide_lock/addons/offline.py:166-188 | with `prune` the offline lock's keys are exactly the lock keys that are leaves or reachable dependencies; entries outside that set are unchanged; every kept entry with a remote `file_name` now points at a wheel file that is in the output and whose digest is its `sha256`; the offline lock's keys are lock keys, all of them without `prune`; dependencies and metadata are kept; existing files are kept; failures are `KeyError` or `ValueError`, a `KeyError` meaning a reachable name has no entry; with `prune` and a remote pattern no local path satisfies, no kept entry stays remote |
| Collect.BaseUrl | py/jupyterlite-pyodide-lock/src/jupyterlite_pyodide_lock/lockers/browser.py:162-165 | the origin starts with `protocol://` and ends with `:port` |
| Collect.FoundPath | py/jupyterlite-pyodide-lock/src/jupyterlite_pyodide_lock/lockers/browser.py:193-203 | a URL maps to a path exactly when it starts with the origin, and the path lies under the cache or the output directory |
| Collect.FoundServedFile | py/jupyterlite-pyodide-lock/src/jupyterlite_pyodide_lock/lockers/browser.py:197-203 | a URL served from the output directory maps back to the file it came from |
| Collect.FoundProxiedFile | py/jupyterlite-pyodide-lock/src/jupyterlite_pyodide_lock/lockers/browser.py:199-201 | a URL served through `_proxy` maps to the cached file |
| Collect.FoundInOutput | py/jupyterlite-pyodide-lock/src/jupyterlite_pyodide_lock/lockers/browser.py:198-203 | a remainder that does not start with `_proxy` maps under the output directory |
| Collect.InnerOriginRemoved | py/jupyterlite-pyodide-lock/src/jupyterlite_pyodide_lock/lockers/browser.py:198 | `replace` removes every occurrence of the origin, not only the leading one: `u/x/u/y` maps to `out/x/y` |
| Collect.CollectOnePackage | py/jupyterlite-pyodide-lock/src/jupyterlite_pyodide_lock/lockers/browser.py:193-208 | at most one entry, keyed by the final name of an existing file; empty exactly when the URL is outside the origin or the mapped file is missing |
| Collect.CollectEntry | py/jupyterlite-pyodide-lock/src/jupyterlite_pyodide_lock/lockers/browser.py:184-189 | an entry without a string `file_name` contributes nothing; anything found is an existing file under its own name |
| Collect.CollectAll | py/jupyterlite-pyodide-lock/src/jupyterlite_pyodide_lock/lockers/browser.py:177-191 | every collected value is an existing file under its own name, and whatever an entry contributes is collected, the last contribution winning |
| Collect.CollectAllOnlyContributed | py/jupyterlite-pyodide-lock/src/jupyterlite_pyodide_lock/lockers/browser.py:184-187 | nothing is collected that no entry contributes |
| Collect.MergeLast | py/jupyterlite-pyodide-lock/src/jupyterlite_pyodide_lock/lockers/browser.py:187 | `found.update` keeps the value of the last entry that contributes a name |
| Collect.MergeFrom | py/jupyterlite-pyodide-lock/src/jupyterlite_pyodide_lock/lockers/browser.py:184-187 | every merged name comes from some entry, with that entry's value |
| Collect.FixOnePackage | py/jupyterlite-pyodide-lock/src/jupyterlite_pyodide_lock/lockers/browser.py:241-269 | a file found under the root is referred to by its path with every occurrence of the root replaced by `../..`, with no copy; a file found elsewhere is copied beside the lock and referred to there; a missing file points at the CDN |
| Collect.FixUnderRoot | py/jupyterlite-pyodide-lock/src/jupyterlite_pyodide_lock/lockers/browser.py:253-255 | a file under the root becomes `../..` plus its path below the root |
| Collect.WithFileName | py/jupyterlite-pyodide-lock/src/jupyterlite_pyodide_lock/lockers/browser.py:269 | only `file_name` changes; every other field of the entry stays |
| Collect.FoundFor | py/jupyterlite-pyodide-lock/src/jupyterlite_pyodide_lock/lockers/browser.py:236 | a file is looked up by the last `/`-segment of `file_name` |
| Collect.FixEntry | py/jupyterlite-pyodide-lock/src/jupyterlite_pyodide_lock/lockers/browser.py:231-237 | an entry without a string `file_name` raises; otherwise it is fixed as `FixOnePackage` says, with the file found by its last segment |
| Collect.FixLock | py/jupyterlite-pyodide-lock/src/jupyterlite_pyodide_lock/lockers/browser.py:210-239 | the lock is fixed exactly when every entry has a string `file_name`, otherwise a `KeyError` or `AttributeError`; every entry is fixed in place and the entry count is kept |
| Collect.Requirements | py/jupyterlite-pyodide-lock/src/jupyterlite_pyodide_lock/lockers/browser.py:360-364 | one requirement per package, with the first occurrence of the output directory replaced by the origin, then the specs unchanged |
| Collect.RequirementUnderOutput | py/jupyterlite-pyodide-lock/src/jupyterlite_pyodide_lock/lockers/browser.py:362 | a package under the output directory is requested from the same place on the origin |
| Collect.MicropipArgs | py/jupyterlite-pyodide-lock/src/jupyterlite_pyodide_lock/lockers/browser.py:351-371 | the defaults are overridden by the extra arguments, while `requirements` and `index_urls` always win; no other key appears |
| Collect.LegacyArgv | py/jupyterlite-pyodide-lock/src/jupyterlite_pyodide_lock/lockers/browser.py:330-345 | an unknown browser is a `KeyError`; otherwise the binary is what `shutil.which` finds for the launch command, or for it with `.exe`; the arguments are the rest of the launch list, then the headless, private-mode and new-profile groups in that order, each only when switched on |
| Collect.LegacyFirefoxAll | py/jupyterlite-pyodide-lock/src/jupyterlite_pyodide_lock/lockers/browser.py:51-70 | firefox with every switch on gets `--headless`, `--private-window`, then the new profile in the working directory |
| Collect.LegacyFlagsOnlyWhenOn | py/jupyterlite-pyodide-lock/src/jupyterlite_pyodide_lock/lockers/browser.py:336-343 | each flag group appears exactly when its switch is on, for both browsers |
| Browser.BrowserCliArg | src/jupyterlite_pyodide_lock/lockers/browser.py:159-169 | an unknown browser is a `KeyError`; a group the browser lacks gives `[]`; otherwise the table's own list is returned |
| Browser.ChromiumNotHeadless | src/jupyterlite_pyodide_lock/lockers/browser.py:21-27 | chromium has no `headless` group, while firefox's is `--headless` |
| Browser.EnsureTempProfile | src/jupyterlite_pyodide_lock/lockers/browser.py:144-157 | a recorded path is returned with no effects; otherwise the new path is recorded under `cache_dir/.browser/<browser>`; an existing path is an error; a baseline is copied exactly when one is given |
| Browser.EnsureTempProfileTwice | src/jupyterlite_pyodide_lock/lockers/browser.py:149-157 | after one success, a second call returns the same path and does nothing |
| Browser.Cleanup | src/jupyterlite_pyodide_lock/lockers/browser.py:65-83 | both handles become None; the process is killed exactly when it is still running; the profile is removed exactly when one is recorded and exists |
| Browser.CleanupTwice | src/jupyterlite_pyodide_lock/lockers/browser.py:65-83 | a second cleanup has no effect |
| Browser.WithLaunch | src/jupyterlite_pyodide_lock/lockers/browser.py:110-115 | the aliased `launch` list becomes the argv, and nothing else in the table changes |
| Browser.ProfileArgs | src/jupyterlite_pyodide_lock/lockers/browser.py:130-134 | each profile argument has every `{PROFILE_DIR}` replaced by the path |
| Browser.ProfileStep | src/jupyterlite_pyodide_lock/lockers/browser.py:117-128 | a temporary profile is made exactly when `profile` or `temp_profile` is set, and otherwise nothing happens |
| Browser.DefaultBrowserArgv | src/jupyterlite_pyodide_lock/lockers/browser.py:108-141 | an unknown browser is a `KeyError`; the argv is the binary and the launch arguments, then headless, profile and private-mode groups; the table is updated through the alias; the locker state is the profile step's; an empty launch group is an `IndexError` and a failed binary lookup leaves the table unchanged, both with the locker untouched; a failed profile step leaves the launch list holding the binary, launch and headless arguments |
| Browser.Group | src/jupyterlite_pyodide_lock/lockers/browser.py:114-137 | a group contributes its arguments only when its switch is on and the browser has it |
| Browser.Profile | src/jupyterlite_pyodide_lock/lockers/browser.py:130-134 | profile arguments appear only when a temporary profile path is recorded |
| Browser.SecondBuildRepeatsFlags | src/jupyterlite_pyodide_lock/lockers/browser.py:110-115 | because `BROWSERS` is aliased, a second build starts from the first argv and repeats its flags |
| Browser.PlainBuild | src/jupyterlite_pyodide_lock/lockers/browser.py:108-141 | headless and private firefox with no profile is the launch list, `--headless`, `--private-window` |
| Browser.FirefoxTempProfile | src/jupyterlite_pyodide_lock/lockers/browser.py:14-20 | firefox with a temporary profile gets `--new-instance --profile <path>` between the headless and private flags |
| Browser.FirefoxGroups | src/jupyterlite_pyodide_lock/lockers/browser.py:14-20 | firefox's table entry has exactly the launch, headless, private-mode and profile groups, with their flags |
| Browser.FirefoxProfileArgs | src/jupyterlite_pyodide_lock/lockers/browser.py:19 | firefox's profile group becomes `--new-instance`, `--profile`, path |
| Browser.FirefoxProfileValue | src/jupyterlite_pyodide_lock/lockers/browser.py:19 | firefox's profile group is `--new-instance`, `--profile` and the `{PROFILE_DIR}` placeholder |
| Browser.ChromiumProfileArgs | src/jupyterlite_pyodide_lock/lockers/browser.py:26 | chromium's profile group becomes `--user-data-dir=<path>` |
| Browser.ProfileWins | src/jupyterlite_pyodide_lock/lockers/browser.py:117-128 | with both `profile` and `temp_profile` set, the configured profile is copied |
| Binary.Extensions | py/jupyterlite-pyodide-lock/src/jupyterlite_pyodide_lock/utils.py:73-76 | the empty suffix first, then `.exe` and `.bat` on Windows only |
| Binary.Bases | py/jupyterlite-pyodide-lock/src/jupyterlite_pyodide_lock/utils.py:79 | the empty name, the binary, then its aliases |
| Binary.Candidates | py/jupyterlite-pyodide-lock/src/jupyterlite_pyodide_lock/utils.py:79-81 | one candidate per base and extension |
| Binary.CandidateAt | py/jupyterlite-pyodide-lock/src/jupyterlite_pyodide_lock/utils.py:79-81 | candidates go base by base, each with every extension in order |
| Binary.PosixCandidates | py/jupyterlite-pyodide-lock/src/jupyterlite_pyodide_lock/utils.py:73-81 | without extensions the candidates are the bases themselves |
| Binary.ForBreak | py/jupyterlite-pyodide-lock/src/jupyterlite_pyodide_lock/utils.py:83-92 | a `for ... break` leaves the first accepted value, else the last one tried, else the start |
| Binary.Checked | py/jupyterlite-pyodide-lock/src/jupyterlite_pyodide_lock/utils.py:108-113 | the result is the value when it names an existing file, else `ValueError` |
| Binary.FindBrowserBinary | py/jupyterlite-pyodide-lock/src/jupyterlite_pyodide_lock/utils.py:66-113 | a found binary is an existing file and came from the search path or the environment, never the registry; a failure is the `ValueError`, or on Windows either the `FileNotFoundError` of a registry key that does not exist or the `TypeError` of the one-argument `QueryValue` at a key that does; off Windows it is always the `ValueError` |
| Binary.AfterRegistry | py/jupyterlite-pyodide-lock/src/jupyterlite_pyodide_lock/utils.py:94-106 | the registry is tried only on Windows and only when `exe` is None; otherwise `exe` passes through unchanged |
| Binary.RegistryScan | py/jupyterlite-pyodide-lock/src/jupyterlite_pyodide_lock/utils.py:96-106 | as written the loop succeeds only with no key to try, leaving `exe`; otherwise the first key raises, with `FileNotFoundError` when it does not exist and with the `TypeError` of `QueryValue(reg)` when it does |
| Binary.RegistryScanAgrees | py/jupyterlite-pyodide-lock/src/jupyterlite_pyodide_lock/utils.py:103-104 | the written loop and the value-reading one agree exactly when there is no key or the first key does not exist |
| Binary.RegistryScanIntended | py/jupyterlite-pyodide-lock/src/jupyterlite_pyodide_lock/utils.py:96-106 | reading each value as `QueryValue(reg, None)` would, the loop fails exactly when it opens a missing key before reading a usable value, and then with that key's `FileNotFoundError` |
| Binary.AfterRegistryIntended | py/jupyterlite-pyodide-lock/src/jupyterlite_pyodide_lock/utils.py:94-106 | the value-reading registry loop runs under the same condition as the written one |
| Binary.RegistryScanPresent | py/jupyterlite-pyodide-lock/src/jupyterlite_pyodide_lock/utils.py:96-106 | when every key exists, the value-reading loop is the `for ... break` over the values read |
| Binary.RegistryScanHit | py/jupyterlite-pyodide-lock/src/jupyterlite_pyodide_lock/utils.py:96-106 | the value-reading loop returns the first usable value when every earlier key existed, whatever the later keys are |
| Binary.MissingKeyRaises | py/jupyterlite-pyodide-lock/src/jupyterlite_pyodide_lock/utils.py:94-106 | on Windows with nothing on the search path and a missing registry key, both lookups raise `FileNotFoundError` for that key |
| Binary.FirstCandidateWins | py/jupyterlite-pyodide-lock/src/jupyterlite_pyodide_lock/utils.py:83-86 | the first candidate `shutil.which` finds is returned |
| Binary.EnvFallbackWins | py/jupyterlite-pyodide-lock/src/jupyterlite_pyodide_lock/utils.py:88-92 | when nothing is on the search path, the first usable environment value is returned |
| Binary.NothingOnPath | py/jupyterlite-pyodide-lock/src/jupyterlite_pyodide_lock/utils.py:83-86 | when `shutil.which` finds no candidate, the scan leaves None |
| Binary.StaleEnvAsWritten | py/jupyterlite-pyodide-lock/src/jupyterlite_pyodide_lock/utils.py:88-106 | as written, a stale environment value blocks the registry, so the binary is not found |
| Binary.FindBrowserBinaryIntended | py/jupyterlite-pyodide-lock/src/jupyterlite_pyodide_lock/utils.py:88-106 | with the registry consulted when the environment gave nothing usable, and each registry value read, a found binary is still an existing file, and a failure is the `ValueError` or a missing key's `FileNotFoundError` |
| Binary.AfterEnvIntended | py/jupyterlite-pyodide-lock/src/jupyterlite_pyodide_lock/utils.py:88-92 | an environment scan that finds nothing usable leaves None |
| Binary.RegistryFallbackWins | py/jupyterlite-pyodide-lock/src/jupyterlite_pyodide_lock/utils.py:94-106 | with the corrected lookup on Windows, when neither the path nor the environment helps, the first usable registry value is returned, provided every key before it exists |
| Binary.StaleEnvIntended | py/jupyterlite-pyodide-lock/src/jupyterlite_pyodide_lock/utils.py:88-106 | the stale-environment machine finds the registry's binary with the corrected lookup |
| Binary.StaleEnvLoopFixOnly | py/jupyterlite-pyodide-lock/src/jupyterlite_pyodide_lock/utils.py:88-106 | on the stale-environment machine, fixing only the loop variable reaches the registry, where `QueryValue(reg)` raises `TypeError` |
| Binary.RegistryOnlyRaises | py/jupyterlite-pyodide-lock/src/jupyterlite_pyodide_lock/utils.py:94-106 | on Windows with nothing on the path or in the environment and a present key naming an existing file, the written lookup raises `TypeError` while the corrected one returns that file |
| Binary.StaleEnvNotOnPath | py/jupyterlite-pyodide-lock/src/jupyterlite_pyodide_lock/utils.py:83-86 | in the stale-environment machine `shutil.which` finds nothing |
| Binary.StaleEnvSkipsRegistry | py/jupyterlite-pyodide-lock/src/jupyterlite_pyodide_lock/utils.py:88-106 | the as-written lookup fails on the stale-environment machine, while the corrected one finds `C:/firefox.exe` |
| Urls.UrlParse | py/jupyterlite-pyodide-lock/src/jupyterlite_pyodide_lock/utils.py:179 | the parsed path holds no query or fragment, and no `;` parameters in its last segment for schemes that use them; an unbalanced bracket is a `ValueError` |
| Urls.UrlWheelFilename | py/jupyterlite-pyodide-lock/src/jupyterlite_pyodide_lock/utils.py:177-182 | None exactly when the parsed path does not end with `.whl`; otherwise a slash-free name ending with `.whl` that ends the path |
| Urls.WheelName | py/jupyterlite-pyodide-lock/src/jupyterlite_pyodide_lock/utils.py:180-181 | a path names a wheel exactly when it ends with `.whl`, and the name is its slash-free ending |
| Urls.WheelSegment | py/jupyterlite-pyodide-lock/src/jupyterlite_pyodide_lock/utils.py:180-181 | a path ending with `.whl` has a last segment ending with `.whl` |
| Urls.SplitParams | py/jupyterlite-pyodide-lock/src/jupyterlite_pyodide_lock/utils.py:179 | the path without `;` parameters is the whole path, or the path cut at a `;`, and leaves no `;` in the last segment |
| Dates.FirstParse | src/jupyterlite_pyodide_lock/utils.py:7-15 | the first format in order that parses the text is used, and none is found exactly when none parses |
| Dates.DateToEpoch | py/jupyterlite-pyodide-lock/src/jupyterlite_pyodide_lock/utils.py:42-56 | a `ValueError` whose message names the text and the formats tried, exactly when no format parses; otherwise the truncated timestamp of the first parse |
| Dates.Truncate | py/jupyterlite-pyodide-lock/src/jupyterlite_pyodide_lock/utils.py:47-51 | `int()` truncates the timestamp toward zero |
| Dates.TruncateMonotone | py/jupyterlite-pyodide-lock/src/jupyterlite_pyodide_lock/utils.py:47-51 | later instants never give smaller epochs |
| Dates.FractionDropped | src/jupyterlite_pyodide_lock/utils.py:9-13 | fractional seconds are dropped after 1970 |
| Dates.NegativeTowardZero | src/jupyterlite_pyodide_lock/utils.py:9-13 | before 1970 the fraction is dropped toward zero, not down |
| Dates.EpochRoundTrip | py/jupyterlite-pyodide-lock/src/jupyterlite_pyodide_lock/utils.py:42-63 | formatting an epoch and parsing it back gives the epoch, when the output format is an accepted one and no earlier format misreads it |
| Cacher.ApplyRule | py/jupyterlite-pyodide-lock/src/jupyterlite_pyodide_lock/lockers/handlers/cacher.py:63-74 | a body without the marker is unchanged; bytes replace every occurrence; where callables are accepted a callable transforms the whole body and anything else is `NotImplementedError`; where they are not, both are a `TypeError` |
| Cacher.ApplyRulesAppend | py/jupyterlite-pyodide-lock/src/jupyterlite_pyodide_lock/lockers/handlers/cacher.py:59-74 | rules apply in sequence, each to the previous result |
| Cacher.InertRules | src/jupyterlite_pyodide_lock/lockers/handlers/cacher.py:57-60 | rules whose markers are absent leave the body unchanged |
| Cacher.NothingApplies | py/jupyterlite-pyodide-lock/src/jupyterlite_pyodide_lock/lockers/handlers/cacher.py:57-76 | with no applicable rule, the cached bytes are the fetched bytes |
| Cacher.UnmatchedPatterns | py/jupyterlite-pyodide-lock/src/jupyterlite_pyodide_lock/lockers/handlers/cacher.py:59-62 | rules under a pattern that does not search the path never apply |
| Cacher.FetchFrom | py/jupyterlite-pyodide-lock/src/jupyterlite_pyodide_lock/lockers/handlers/cacher.py:78-98 | at most `retries` requests; the sleep before attempt k is 2^k; every request but the last timed out; a body is the last answer; a failure propagates; attempts stop early only on a non-timeout |
| Cacher.TimeoutsThenBody | py/jupyterlite-pyodide-lock/src/jupyterlite_pyodide_lock/lockers/handlers/cacher.py:85-93 | n timeouts then a body succeed with that body after exactly n+1 requests |
| Cacher.StopsAtFirstNonTimeout | py/jupyterlite-pyodide-lock/src/jupyterlite_pyodide_lock/lockers/handlers/cacher.py:87-93 | the requests stop at the first answer that is not a timeout |
| Cacher.RecoversAfterTimeouts | py/jupyterlite-pyodide-lock/src/jupyterlite_pyodide_lock/lockers/handlers/cacher.py:85-93 | with the default five attempts, fewer than five timeouts and then a body succeed after n+1 requests |
| Cacher.AllTimeouts | py/jupyterlite-pyodide-lock/src/jupyterlite_pyodide_lock/lockers/handlers/cacher.py:84-98 | when every attempt times out, the timeout is raised after `retries` requests |
| Cacher.NoAttempts | py/jupyterlite-pyodide-lock/src/jupyterlite_pyodide_lock/lockers/handlers/cacher.py:84-98 | with no attempts, `raise None` is a `TypeError` |
| Cacher.FailureStops | py/jupyterlite-pyodide-lock/src/jupyterlite_pyodide_lock/lockers/handlers/cacher.py:87-91 | any other error propagates at once, with no further request |
| Cacher.SleepTotal | py/jupyterlite-pyodide-lock/src/jupyterlite_pyodide_lock/lockers/handlers/cacher.py:85-86 | sleeps of 2^a .. 2^(a+n-1) add up to 2^(a+n) - 2^a |
| Cacher.TotalSleep | py/jupyterlite-pyodide-lock/src/jupyterlite_pyodide_lock/lockers/handlers/cacher.py:85-86 | the sleeps of a whole fetch add up to 2^n - 1 seconds for n requests |
| Cacher.FetchOnce | src/jupyterlite_pyodide_lock/lockers/handlers/cacher.py:49 | the variants without retry make one request and no sleep, and return its body or raise its error |
| Cacher.FetchOnceIsOneAttempt | src/jupyterlite_pyodide_lock/lockers/handlers/cacher.py:47-49 | the single request behaves as the retrying fetch allowed one attempt |
| Cacher.Get | py/jupyterlite-pyodide-lock/src/jupyterlite_pyodide_lock/lockers/handlers/cacher.py:42-76 | a cache hit fetches and writes nothing, and touches the file in the variants that do; a miss requests `remote/path` once, or up to five times when retrying, and writes exactly when nothing was raised; a failed fetch raises its error; a fetched body is written after the rewrite rules, or the rewrite's error is raised |
| Cacher.MissWritesFetched | src/jupyterlite_pyodide_lock/lockers/handlers/cacher.py:42-71 | a miss with no applicable rule writes the fetched bytes |
| Cacher.RetryingMissRecovers | py/jupyterlite-pyodide-lock/src/jupyterlite_pyodide_lock/lockers/handlers/cacher.py:42-98 | the retrying handler writes the body it finally gets after fewer than five timeouts |
| Routes.MakeProxy | src/jupyterlite_pyodide_lock/lockers/handlers/__init__.py:46-61 | a proxy route defaults to `^/_proxy/<name>/(.*)$` unless a route is given; its cache is `cache_dir/<name>`; its extra configuration passes through (the older `handlers.py` at lines 62-75 does the same) |
| Routes.MakeHandlers | src/jupyterlite_pyodide_lock/lockers/handlers/__init__.py:16-43 | six routes: the submission is bound to `MicropipFreeze` with the locker, and the `output_dir` fallback comes last |
| Routes.RouteOrder | src/jupyterlite_pyodide_lock/lockers/handlers/__init__.py:31-43 | the order is page, submission, log, pythonhosted proxy, pypi proxy, fallback |
| Routes.MakeHandlersOld | py/jupyterlite-pyodide-lock/src/jupyterlite_pyodide_lock/lockers/handlers.py:22-59 | six or seven routes, with the `lockfile`-only lock route second and the static fallback last |
| Routes.OldRouteOrder | py/jupyterlite-pyodide-lock/src/jupyterlite_pyodide_lock/lockers/handlers.py:42-59 | page, submission, log, pythonhosted, pypi, the optional pyodide proxy, then the fallback |
| Routes.PyodideProxyIff | py/jupyterlite-pyodide-lock/src/jupyterlite_pyodide_lock/lockers/handlers.py:36-40 | the pyodide proxy is present exactly when the site's pyodide folder does not exist |
| Routes.PypiJsonRewrite | py/jupyterlite-pyodide-lock/src/jupyterlite_pyodide_lock/lockers/handlers.py:23-28 | on a `/json` path every occurrence of the wheel CDN becomes `<base_url>/_proxy/pythonhosted`; other paths are unchanged |
| Routes.Initialize | py/jupyterlite-pyodide-lock/src/jupyterlite_pyodide_lock/lockers/handlers.py:209-212 | a handler is built exactly when it gets all its required arguments and nothing it does not accept; a missing parameter is a `TypeError` before the body runs; the solver page given its context but no `log` fails with `KeyError("log")` |
| Routes.SubmissionInitializes | src/jupyterlite_pyodide_lock/lockers/handlers/__init__.py:35 | the newer submission route builds its handler |
| Routes.ProxyInitializes | py/jupyterlite-pyodide-lock/src/jupyterlite_pyodide_lock/lockers/handlers.py:91-97 | every proxy route builds its handler |
| Routes.OldLockRouteFails | py/jupyterlite-pyodide-lock/src/jupyterlite_pyodide_lock/lockers/handlers.py:30-32 | as written, the older lock route lacks `log`, so building its handler is a `TypeError` |
| Routes.MakeHandlersOldIntended | py/jupyterlite-pyodide-lock/src/jupyterlite_pyodide_lock/lockers/handlers.py:30-59 | the older table with `log` passed to the lock route, and every other route the same |
| Routes.OldLockRouteIntended | py/jupyterlite-pyodide-lock/src/jupyterlite_pyodide_lock/lockers/handlers.py:209-212 | with `log` passed, the older lock route builds its handler |
| Mime.Overlay | src/jupyterlite_pyodide_lock/lockers/handlers/mime.py:19-22 | the effective map has the default patterns first, in order, plus the supplied ones |
| Mime.OverlayTypes | src/jupyterlite_pyodide_lock/lockers/handlers/mime.py:21-22 | a supplied pattern has its supplied type, and any other keeps its default |
| Mime.FirstMatch | src/jupyterlite_pyodide_lock/lockers/handlers/mime.py:31-35 | the first pattern in map order that searches the path, or none exactly when none does |
| Mime.ContentType | src/jupyterlite_pyodide_lock/lockers/handlers/mime.py:25-44 | with no path, or no matching pattern, the parent's type; otherwise the type of a matching pattern |
| Mime.FirstPatternWins | src/jupyterlite_pyodide_lock/lockers/handlers/mime.py:30-35 | the first matching pattern's type is served when it is not empty |
| Mime.ContentTypeFirstHit | py/jupyterlite-pyodide-lock/src/jupyterlite_pyodide_lock/lockers/handlers.py:106-111 | the older handler serves the parent's type when there is no path or no matching pattern, and otherwise the first matching pattern's type, even when it is empty |
| Mime.EmptyMatchDiffers | py/jupyterlite-pyodide-lock/src/jupyterlite_pyodide_lock/lockers/handlers.py:106-111 | an empty first match is served as the empty type by the older handler, while the newer one falls back to the parent's type |
| Mime.HandlersAgree | py/jupyterlite-pyodide-lock/src/jupyterlite_pyodide_lock/lockers/handlers.py:106-111 | the two handlers serve the same type whenever no type in the map is empty |
| Freezer.JsonIn | src/jupyterlite_pyodide_lock/lockers/handlers/freezer.py:24 | Python's `in` on a parsed JSON value: a key of an object, an item of an array, a substring of a string, and a `TypeError` otherwise |
| Freezer.Post | src/jupyterlite_pyodide_lock/lockers/handlers/freezer.py:20-36 | the lock is written exactly when the payload parses and has `packages`, with the parsed payload; the solve halts after every post that raises nothing; a raise writes nothing |
| Freezer.ObjectPayload | src/jupyterlite_pyodide_lock/lockers/handlers/freezer.py:24-34 | an object payload is written exactly when it has a `packages` key, and the solve halts either way |
| Freezer.RepostSame | src/jupyterlite_pyodide_lock/lockers/handlers/freezer.py:23-27 | posting the same payload twice writes the same lock |
| Freezer.PostOld | py/jupyterlite-pyodide-lock/src/jupyterlite_pyodide_lock/lockers/handlers.py:214-224 | the older handler never touches the halt flag |
| Freezer.HandlersWriteAlike | py/jupyterlite-pyodide-lock/src/jupyterlite_pyodide_lock/lockers/handlers.py:214-224 | both handlers write the same lock and raise the same errors |
| FixHtml.Relative | py/jupyterlite-pyodide-lock/src/jupyterlite_pyodide_lock/addons/fix_html.py:165-170 | a `./` URL becomes the prefix plus the rest, and any other string is unchanged |
| FixHtml.RelativeAtRoot | py/jupyterlite-pyodide-lock/src/jupyterlite_pyodide_lock/addons/fix_html.py:165-170 | with the prefix `./` a string is unchanged |
| FixHtml.RelativeTwice | py/jupyterlite-pyodide-lock/src/jupyterlite_pyodide_lock/addons/fix_html.py:165-170 | with a prefix that does not start with `./`, rewriting twice is rewriting once |
| FixHtml.FixList | py/jupyterlite-pyodide-lock/src/jupyterlite_pyodide_lock/addons/fix_html.py:171-174 | a `*Urls` list is rewritten element-wise with its length kept, and fails exactly when some element is not a string |
| FixHtml.FixValue | py/jupyterlite-pyodide-lock/src/jupyterlite_pyodide_lock/addons/fix_html.py:159-174 | an ignored key, or a null, boolean or number, is kept; a `*Url` string is rewritten; a list under a key not ending `Urls` is kept, and one under a `*Urls` key is rewritten element by element; an object is rewritten entry by entry; failures only raise the missing-`startswith` error |
| FixHtml.FixObject | py/jupyterlite-pyodide-lock/src/jupyterlite_pyodide_lock/addons/fix_html.py:159-164 | a config object keeps its key set, and fails exactly when some entry fails |
| FixHtml.FixKeepsShape | py/jupyterlite-pyodide-lock/src/jupyterlite_pyodide_lock/addons/fix_html.py:159-174 | the rewrite only changes strings: every nested object keeps its keys and every array its length |
| FixHtml.FixObjectKeepsShape | py/jupyterlite-pyodide-lock/src/jupyterlite_pyodide_lock/addons/fix_html_config.py:121-136 | nested objects keep their key sets |
| FixHtml.FixFailsIffBad | py/jupyterlite-pyodide-lock/src/jupyterlite_pyodide_lock/addons/fix_html.py:171-174 | the rewrite fails exactly when a non-ignored `*Urls` list somewhere in the tree holds a non-string |
| FixHtml.FixObjectFailsIffBad | py/jupyterlite-pyodide-lock/src/jupyterlite_pyodide_lock/addons/fix_html_config.py:133-136 | the same for a whole config object |
| FixHtml.FixAtRoot | py/jupyterlite-pyodide-lock/src/jupyterlite_pyodide_lock/addons/fix_html.py:165-174 | a page at the output root (prefix `./`) is left unchanged |
| FixHtml.FixObjectAtRoot | py/jupyterlite-pyodide-lock/src/jupyterlite_pyodide_lock/addons/fix_html_config.py:127-136 | the same for a whole config object |
| FixHtml.FixTwiceIsFixOnce | py/jupyterlite-pyodide-lock/src/jupyterlite_pyodide_lock/addons/fix_html.py:165-174 | with a prefix that does not start with `./`, a second rewrite changes nothing |
| FixHtml.FixObjectTwice | py/jupyterlite-pyodide-lock/src/jupyterlite_pyodide_lock/addons/fix_html_config.py:127-136 | the same for a whole config object |
| FixHtml.IgnoreSet | py/jupyterlite-pyodide-lock/src/jupyterlite_pyodide_lock/addons/fix_html.py:158 | the set written as `{tuple, tuple}` holds the two tuples and no string |
| FixHtml.IgnoreSetIgnoresNothing | py/jupyterlite-pyodide-lock/src/jupyterlite_pyodide_lock/addons/fix_html.py:158-161 | as written, the ignore set skips no key: the rewrite equals the one with nothing ignored |
| FixHtml.IgnoreSetIgnoresNothingObject | py/jupyterlite-pyodide-lock/src/jupyterlite_pyodide_lock/addons/fix_html_config.py:120-123 | the same for a whole config object |
| FixHtml.DefaultIgnoreNotHonoured | py/jupyterlite-pyodide-lock/src/jupyterlite_pyodide_lock/addons/fix_html.py:62-66 | the declared default `licensesUrl` is rewritten anyway |
| FixHtml.IgnoreSetIntended | py/jupyterlite-pyodide-lock/src/jupyterlite_pyodide_lock/addons/fix_html.py:62-77 | the intended set holds exactly the listed attribute names |
| FixHtml.IgnoredKeysKept | py/jupyterlite-pyodide-lock/src/jupyterlite_pyodide_lock/addons/fix_html.py:158-161 | with the intended set, every listed attribute keeps its value |
| FixHtml.DefaultIgnoreHonoured | py/jupyterlite-pyodide-lock/src/jupyterlite_pyodide_lock/addons/fix_html.py:62-66 | with the intended set, `licensesUrl` is left as it was |
| FixHtml.FixSingle | py/jupyterlite-pyodide-lock/src/jupyterlite_pyodide_lock/addons/fix_html.py:159 | a one-entry object is rewritten as its entry is |
| FixHtml.ConfigReplacement | py/jupyterlite-pyodide-lock/src/jupyterlite_pyodide_lock/addons/fix_html.py:114-120 | a config script fails exactly when its JSON does not parse, is not an object, or holds a bad `*Urls` list |
| FixHtml.FixSegment | py/jupyterlite-pyodide-lock/src/jupyterlite_pyodide_lock/addons/fix_html.py:122 | text outside config scripts is kept, and a config script becomes its replacement |
| FixHtml.ConfigPass | py/jupyterlite-pyodide-lock/src/jupyterlite_pyodide_lock/addons/fix_html.py:122 | the config pass succeeds exactly when every script does, keeps the segment count, and otherwise fails with some script's error |
| FixHtml.NewPath | py/jupyterlite-pyodide-lock/src/jupyterlite_pyodide_lock/addons/fix_html.py:129-143 | an existing target keeps `./path`; a missing one takes the first matching `rewrite_missing` rule's substitution after the prefix; with no match it keeps `./path` |
| FixHtml.LinkReplacement | py/jupyterlite-pyodide-lock/src/jupyterlite_pyodide_lock/addons/fix_html.py:144 | each attribute is emitted with its new target and a trailing space |
| FixHtml.KeptLinkGrows | py/jupyterlite-pyodide-lock/src/jupyterlite_pyodide_lock/addons/fix_html.py:144 | even a kept link grows by the `./` and a space, so the rewrite is not idempotent |
| FixHtml.LinkPass | py/jupyterlite-pyodide-lock/src/jupyterlite_pyodide_lock/addons/fix_html.py:146 | every relative link is replaced, and nothing can fail |
| FixHtml.FixOneHtml | py/jupyterlite-pyodide-lock/src/jupyterlite_pyodide_lock/addons/fix_html.py:109-149 | a config failure propagates; otherwise, with no `rewrite_missing` rules, the page raises `UnboundLocalError`, and with rules the result is the rendered page after the config pass and then the link pass |
| FixHtml.FixOneHtmlIntended | py/jupyterlite-pyodide-lock/src/jupyterlite_pyodide_lock/addons/fix_html.py:124-146 | fails exactly when the config pass fails, and equals the as-written fix whenever there are rules |
| FixHtml.FixOneHtmlConfig | py/jupyterlite-pyodide-lock/src/jupyterlite_pyodide_lock/addons/fix_html_config.py:98-113 | the config-only addon fails exactly when its config pass fails |
| FixHtml.NoRulesIsConfigOnly | py/jupyterlite-pyodide-lock/src/jupyterlite_pyodide_lock/addons/fix_html.py:124-146 | without rules, the intended page fix is the config-only addon's |
| FixHtml.FixEach | py/jupyterlite-pyodide-lock/src/jupyterlite_pyodide_lock/addons/fix_html.py:98 | pages are fixed in order up to the first one that raises, and that exception is kept |
| FixHtml.FixAll | py/jupyterlite-pyodide-lock/src/jupyterlite_pyodide_lock/addons/fix_html.py:91-107 | `False` exactly when there are no pages; `True` exactly when there are pages and all are fixed; otherwise the first page's exception, with the earlier pages written; the config-only addon in `fix_html_config.py` at lines 80-96 runs the same loop with its own page fix |
| FixHtml.DefaultRewriteMissingFails | py/jupyterlite-pyodide-lock/src/jupyterlite_pyodide_lock/addons/fix_html.py:124-146 | with the default empty `rewrite_missing`, any run over pages fails and writes no page |
| FixHtml.NoRulesFixesAll | py/jupyterlite-pyodide-lock/src/jupyterlite_pyodide_lock/addons/fix_html.py:91-107 | with the corrected page fix and no rules, pages that fix cleanly give `True` and their rewritten text |
| Registry.Names | py/jupyterlite-pyodide-lock/src/jupyterlite_pyodide_lock/lockers/__init__.py:33-34 | the distinct names of the entry points |
| Registry.Register | py/jupyterlite-pyodide-lock/src/jupyterlite_pyodide_lock/lockers/__init__.py:32-38 | the keys are exactly the names, each value is filed under its own name, and each name holds its first registration |
| Registry.RegisterStep | py/jupyterlite-pyodide-lock/src/jupyterlite_pyodide_lock/lockers/__init__.py:33-38 | one more entry point keeps the first-wins table: a taken name is skipped and a new one is added |
| Registry.EntryPoints | py/jupyterlite-pyodide-lock/src/jupyterlite_pyodide_lock/lockers/__init__.py:26-39 | the result's keys are exactly the distinct names, strictly ascending; each value's name is its key; each name maps to its first registration; the newer package's copy at lines 11-24 of its `lockers/__init__.py` is the same function |
| Registry.SortedKeys | py/jupyterlite-pyodide-lock/src/jupyterlite_pyodide_lock/lockers/__init__.py:39 | sorting the items by name keeps the keys and makes them ascending |
| Registry.DuplicateIgnored | src/jupyterlite_pyodide_lock/lockers/__init__.py:19-23 | a later registration under a taken name changes nothing |
| Registry.Loaded | py/jupyterlite-pyodide-lock/src/jupyterlite_pyodide_lock/lockers/__init__.py:17-23 | the implementations' keys are among the entry points' keys |
| Registry.LoadedGet | py/jupyterlite-pyodide-lock/src/jupyterlite_pyodide_lock/lockers/__init__.py:18-22 | a name has its implementation exactly when its load succeeds |
| Registry.LoadedAscending | py/jupyterlite-pyodide-lock/src/jupyterlite_pyodide_lock/lockers/__init__.py:17-23 | the implementations keep the sorted order |
| Registry.Implementations | py/jupyterlite-pyodide-lock/src/jupyterlite_pyodide_lock/lockers/__init__.py:11-23 | distinct, ascending keys among the names; failing loads are dropped and all others are kept |
| LockAddon.Lock | src/jupyterlite_pyodide_lock/addons/lock.py:285-309 | `False` for an unknown or unloadable locker; `True` exactly when the locker loads and writes a fresh lockfile, because a stale one is removed first; a raise propagates |
| LockAddon.LockOld | py/jupyterlite-pyodide-lock/src/jupyterlite_pyodide_lock/addons/lock.py:243-262 | `False` for an unknown or unloadable locker; a raise propagates |
| LockAddon.StaleLockfileReported | py/jupyterlite-pyodide-lock/src/jupyterlite_pyodide_lock/addons/lock.py:261-262 | the older action reports success from a stale lockfile when the locker writes nothing; the newer one does not |
| LockAddon.FreshBuildsAgree | src/jupyterlite_pyodide_lock/addons/lock.py:306-309 | without a stale lockfile the two actions agree |
| LockAddon.LockFileUrl | src/jupyterlite_pyodide_lock/addons/lock.py:316-328 | the lockfile URL starts with `./` and ends with the digest |
| LockAddon.PackagesOf | src/jupyterlite_pyodide_lock/addons/lock.py:321 | what `*option` unpacks: a string list's items (failing on a non-string), a string's characters, an object's keys; a null, boolean or number fails |
| LockAddon.PatchConfig | src/jupyterlite_pyodide_lock/addons/lock.py:311-334 | `packages` becomes the sorted, duplicate-free union of the existing, preloaded and extra packages; `lockFileURL` is set; every other option and setting is kept; a non-object option or unusable `packages` raises; the older package's `patch_config` at lines 264-283 of its `addons/lock.py` does the same |
| LockAddon.WheelSuffix | src/jupyterlite_pyodide_lock/addons/lock.py:434-436 | a name has the `.whl` suffix exactly when it ends with `.whl` after at least one other character |
| LockAddon.CachedName | src/jupyterlite_pyodide_lock/addons/lock.py:414-417 | a URL requirement is cached under the slash-free last segment of its path, and an unparsable URL raises |
| LockAddon.CopyWheel | src/jupyterlite_pyodide_lock/addons/lock.py:444-454 | no task when the wheel is already its destination; otherwise one copy to the lock output folder |
| LockAddon.CopyAll | src/jupyterlite_pyodide_lock/addons/lock.py:430-431 | every task copies one of the wheels to its place |
| LockAddon.ResolveOne | src/jupyterlite_pyodide_lock/addons/lock.py:410-442 | a URL is fetched into the cache unless present, then copied; a folder has its wheels copied; a file is copied only when it is a wheel; a missing path is a `FileNotFoundError` |
| LockAddon.ResolveUrlOld | py/jupyterlite-pyodide-lock/src/jupyterlite_pyodide_lock/addons/lock.py:334-345 | the older URL branch makes at most one fetch of the requirement, and fails exactly when the URL does not parse |
| LockAddon.UrlBranchesAgree | py/jupyterlite-pyodide-lock/src/jupyterlite_pyodide_lock/addons/lock.py:334-338 | the newer URL branch is the older one's fetch followed by the copy beside the lock |
| LockAddon.ByProject | src/jupyterlite_pyodide_lock/addons/lock.py:467-471 | one wheel per project, filed under its own project, and the last wheel seen for a project wins |
| LockAddon.GetPackages | src/jupyterlite_pyodide_lock/addons/lock.py:456-473 | every result is a found wheel with at most one per project; each project keeps a wheel whose file name is not smaller than any of its others; the result is sorted as paths |
| LockAddon.PackagesFacts | src/jupyterlite_pyodide_lock/addons/lock.py:469-473 | sorting the per-project wheels keeps them found wheels, one per project, in path order |
| LockAddon.KeptFor | src/jupyterlite_pyodide_lock/addons/lock.py:467-473 | the project of any found wheel keeps a wheel whose file name is not smaller |
| Splice.Marker | _scripts/replace-between.py:16 | the default marker is the non-empty `### <name> ###` |
| Splice.Splice | _scripts/replace-between.py:25-29 | fails with `IndexError` exactly when the destination has fewer than two markers; otherwise the result is the destination's head, the marker, the source's middle chunk, the marker and the destination's third chunk |
| Splice.SplicedChunks | _scripts/replace-between.py:25-29 | with two markers in the destination and at least two in the source, the result splits back into the destination's head, the source's middle and the destination's tail |
| Splice.SpliceIdempotent | _scripts/replace-between.py:25-30 | splicing again from the same source changes nothing |
| Splice.PatternOr | _scripts/replace-between.py:16 | an absent or empty pattern means the default marker |
| Splice.ReplaceBetween | _scripts/replace-between.py:14-31 | a marker missing from either file returns 1 and writes nothing; a destination with only one marker is an `IndexError`; otherwise the splice is written, and the return is 1 as well |
| Splice.ReturnIndistinct | _scripts/replace-between.py:21-31 | the return value is the same when the file is written as when a marker is missing |
| Splice.ReplaceBetweenIntended | _scripts/replace-between.py:14-31 | 0 exactly when written, 1 otherwise, and the same text written |
| Splice.NamesOr | _scripts/dodo.py:383 | the given names, or the sources' file names when none are given |
| Splice.Pairs | _scripts/dodo.py:384-385 | the non-strict `zip` stops at the shorter list |
| Splice.SpliceEach | _scripts/dodo.py:384-400 | sources apply in turn to the updated destination; `True` means every source held its marker; `False` names the first pair with a missing marker |
| Splice.SpliceEachTail | _scripts/dodo.py:384-399 | what holds of the sources after the first holds of all of them once the first splice succeeds |
| Splice.ReplaceBetweenAll | _scripts/dodo.py:378-400 | `True` means every zipped source held its marker; with no sources the destination is unchanged and the result is `True` |
| Splice.HelperAgreesWithScript | _scripts/dodo.py:378-400 | for one source, the helper writes what the script writes |
| Splice.ZipTruncates | _scripts/dodo.py:384 | extra names or extra sources are ignored |
| Tasks.Text | _scripts/fix-tasks.py:37-40 | only a string has `replace`, and anything else is an `AttributeError` |
| Tasks.Elements | _scripts/fix-tasks.py:46 | iterating yields an array's items, a string's characters or a table's keys; other values raise |
| Tasks.MapText | _scripts/fix-tasks.py:44-56 | each element is rewritten and the length kept, failing exactly when some element is not a string |
| Tasks.Lookup | _scripts/fix-tasks.py:37-40 | a missing key is a `KeyError`, and a non-string an `AttributeError` |
| Tasks.ListFor | _scripts/fix-tasks.py:43-56 | an absent key gives nothing to assign, and a present one that rewrites gives its list |
| Tasks.Assign | _scripts/fix-tasks.py:35-56 | the copy keeps the keys in order, and every key holds its rewritten value and no other |
| Tasks.OneTask | _scripts/fix-tasks.py:30-57 | `description` and `cmd` must be present strings; every `test-max` in the name becomes the epoch; the description and cmd are rewritten; `depends-on`, `inputs` and `outputs` are rewritten when present; all other keys are copied unchanged |
| Tasks.MapTextSame | _scripts/fix-tasks.py:44-56 | strings the rewrite leaves alone give the list back |
| Tasks.BaseRewritesSame | _scripts/fix-tasks.py:40-56 | for the base epoch, the dependency, path and cmd rewrites are the identity |
| Tasks.BaseEpochKeepsTask | _scripts/fix-tasks.py:30-57 | renaming to the base epoch keeps the name, the cmd and the lists |
| Deps.Head | _scripts/fix-deps.py:33 | `spec.split(" ")[0]` is a space-free prefix followed by a space or the end |
| Deps.HeadIs | _scripts/fix-deps.py:33 | the leading token is the name exactly when the spec is the name, or the name and a space |
| Deps.FirstMatch | _scripts/fix-deps.py:32-34 | the first dependency whose leading token is the name |
| Deps.FixDeps | _scripts/fix-deps.py:21-40 | 0 exactly when some dependency is named after the project, else 1 with nothing written; a write replaces that first dependency by the pin when it differs; no write means the pin is there |
| Deps.OnlyFirstReplaced | _scripts/fix-deps.py:32-36 | exactly one dependency changes, the first named after the project |
| Deps.RerunWritesNothing | _scripts/fix-deps.py:35-38 | running again on what was written writes nothing and returns 0 |

## Left out

- Process and network plumbing is left out: `resolve_sync`, `resolve_async`, `fetch` polling, `subprocess`, `atexit`, Tornado serving, `AsyncHTTPClient`, and the solver page and its JavaScript. These are concurrency and I/O, not data logic.
- Reading and writing files is modelled as maps or sets of paths. `pathlib` normalisation, `resolve()` and `relpath` are not modelled; paths are plain `/`-joined strings, and relative prefixes are parameters.
- Regular-expression semantics are left out: `re.match`, `re.search`, `re.sub` and `re.findall` are predicates or functions given as parameters. `FixHtml` takes the page as already split into config scripts, links and other text.
- SHA-256, `json.dumps`, `json.loads`, `strptime`, `strftime`, `shutil.which`, the Windows registry (a key that does not exist answers None, one that does answers its default value), `pkginfo.get_metadata`, `list_packages` and `glob` are parameters. These are foreign calls whose results the code only passes on. The one exception is `winreg.QueryValue`: it is called with one argument, which Python rejects before the registry is read, so the model gives the `TypeError` (see Findings).
- The format constants (`WAREHOUSE_UPLOAD_FORMAT`, `WAREHOUSE_UPLOAD_FORMAT_ANY`, `ENV_VARS_BROWSER_BINS`, `BROWSER_BIN_ALIASES`, `WIN_BROWSER_REG_KEYS`) live in a constants module that is not part of this model. They are parameters here. `WAREHOUSE_UPLOAD_FORMAT_ANY` is taken to be a tuple of strings, which is how the `ValueError` message renders it.
- Dates.EpochToDate: has no contract of its own, because `strftime` is a parameter; the round trip is stated by `Dates.EpochRoundTrip` under an assumption about the formats.
- Dates.EpochToDate: does not model the `OverflowError` or `OSError` that `datetime.fromtimestamp` raises for a timestamp outside the platform's range; every epoch converts.
- Urls.UrlParse: models the scheme, netloc, bracket balance, query, fragment and `;` parameter splits of `urlsplit`, and not the rest. It does not strip leading C0 control characters and spaces, does not remove `\t`, `\r` and `\n`, and does not run `_check_bracketed_host` (the IPv6 or IPvFuture check of a bracketed host) or `_checknetloc` (the NFKC check of the netloc), so URLs those steps change or reject are parsed as written.
- Names.Canon: lower-cases ASCII letters only; `str.lower` also lowers other Unicode letters (`Ä` to `ä`, and a few into two characters), which the model leaves unchanged, because case mapping tables are outside this model.
- Collect.FixLock: starts from the lock entries as they stand after the wheel merge. Copying the cached lock and the found wheels into a temporary directory, `pyodide_lock.utils.add_wheels_to_spec` (a library call that is not part of this model) and the JSON round trip through that directory are left out.
- LockAddon.PackagesOf: fails on any list with a non-string item. When no other preload packages are configured, Python's `sorted(set(...))` also accepts an option list of numbers, of booleans, or of numbers and booleans mixed (`True == 1` and they compare), and writes it back sorted; the model fails on all such lists.
- Json: has no floating-point numbers; a float in a lock or config is outside this model. An object is a `map`, so the key order `json.dumps` writes back (for example in `LockAddon.PatchConfig`) is not modelled.
- Deps.FixDeps: takes the project name, version and dependency list already read; the `KeyError` that a table without `project`, `version`, `name` or `dependencies` raises is not modelled.
- LockAddon.GetPackages: sorts `Path` objects by their text with `/` mapped to `\0`, which matches component-wise comparison only for paths without NUL characters.
- LockAddon.LockOld: states the error and `False` cases but not the `True` case as an if-and-only-if, because with a stale lockfile the result does not depend on the locker; `LockAddon.StaleLockfileReported` states that case.
- Cacher.Get: the file `touch` on a cache hit is a flag, and `super().get` serving is not modelled.
- Binary.FindBrowserBinary: a missing registry key raises `FileNotFoundError` carrying the key, not the Windows message; other `OSError`s of `winreg`, such as a denied access, are not modelled. The `TypeError` of `QueryValue(reg)` carries CPython's argument-count message, written out as a constant.
- Offline.Place: the copy from the pyodide distribution and the fetch are a map update; file modes and directory creation are not modelled. A URL whose path ends in `/` gives an empty wheel name; Python then copies onto the directory itself and fails with `IsADirectoryError`, while the model stores a file at the directory's path followed by `/`.
- Splice.SpliceEach: on an `IndexError` only the exception is returned; the destination file then holds the text the earlier pairs wrote, which the model does not report.
- Dates.DateToEpoch: the message renders the formats as `repr` does for strings without quotes or backslashes; a format holding either would be escaped differently.
- Logging, warnings and `print` output are left out.
- `fix-tasks.py` `main()` (the `tomlkit` load and dump and the diff) and the TOML loading of `fix-deps.py` are left out; the model takes the parsed tables. They are I/O around the modelled functions.
- The traitlets defaults, doit task generators, entry-point loading itself, both `app.py` files, and the webdriver and uv lockers are left out as framework glue.
- Floating-point timestamps are modelled as whole seconds and microseconds; float rounding is left out.

## Findings

| source | as written | input that shows it | evidently intended | confidence | as-written member | corrected member |
|---|---|---|---|---|---|---|
| py/jupyterlite-pyodide-lock/src/jupyterlite_pyodide_lock/utils.py:88-106 | the environment loop reuses `exe` as its loop variable, so a value that names no existing file stays in `exe` and the `exe is None` registry fallback is skipped | Windows, nothing on the search path, the environment names `C:/old/firefox.exe` (missing), the registry names the existing `C:/firefox.exe` (`Binary.StaleEnv`) | the registry is consulted whenever the environment gave nothing usable, and `C:/firefox.exe` is found; this needs the `QueryValue` fix of the next row too, since with the loop fixed alone the registry raises `TypeError` (`Binary.StaleEnvLoopFixOnly`) | not executed | Binary.StaleEnvAsWritten | Binary.FindBrowserBinaryIntended |
| py/jupyterlite-pyodide-lock/src/jupyterlite_pyodide_lock/utils.py:104 | `QueryValue(reg)` passes one argument, but `winreg.QueryValue(key, sub_key, /)` requires two, so Python raises `TypeError` whenever `OpenKey` succeeds and no registry value is ever read | Windows, nothing on the search path, no environment value, and the key `Firefox` exists naming the existing `C:/firefox.exe` (`Binary.RegistryOnly`) | the key's default value is read, as `QueryValue(reg, None)` does, and `C:/firefox.exe` is found | not executed | Binary.RegistryOnlyRaises | Binary.RegistryFallbackWins |
| py/jupyterlite-pyodide-lock/src/jupyterlite_pyodide_lock/lockers/handlers.py:30-32 | `lock_kwargs` holds only `lockfile`, while `PyodideLock.initialize` also requires `log` | any submission to the older locker's `^/pyodide-lock.json$` route | the lock route is given `log` as the other routes are | not executed | Routes.OldLockRouteFails | Routes.MakeHandlersOldIntended |
| py/jupyterlite-pyodide-lock/src/jupyterlite_pyodide_lock/addons/fix_html.py:158 | `{self.ignore_attributes, self.extra_ignore_attributes}` is a set of two tuples, so `key in ignore_attributes` never holds for a string key | the page config `{"licensesUrl": "./licenses"}` one folder down is rewritten to `../licenses`, though `licensesUrl` is a declared default to ignore | the set of all listed attribute names, so listed keys keep their values | not executed | FixHtml.DefaultIgnoreNotHonoured | FixHtml.IgnoredKeysKept |
| py/jupyterlite-pyodide-lock/src/jupyterlite_pyodide_lock/addons/fix_html.py:124-146 | `_missing_link_replacer` is defined only inside `if self.rewrite_missing:`, but line 146 uses it unconditionally | the default `rewrite_missing = {}` and any page whose config fixes cleanly: `UnboundLocalError` | the link pass runs only when there are rules | not executed | FixHtml.DefaultRewriteMissingFails | FixHtml.NoRulesFixesAll |
| _scripts/replace-between.py:21-31 | success returns `True`, which equals the failure code 1 of the `int` result | a destination and source that both hold the marker twice: the file is written and the return is 1, the same as when a marker is missing | 0 on success, 1 on a missing marker | not executed | Splice.ReturnIndistinct | Splice.ReplaceBetweenIntended |

=== FILE: binary.dfy ===
/**
  `find_browser_binary`: the candidate names tried on the search path, the
  well-known environment variables and, on Windows, the registry, in that
  order, and the error when none of them yields an existing file.

  The search path, `shutil.which`, the environment and the registry are
  parameters: `Search` holds what they answer. A registry key that does not
  exist answers None, and opening it raises `FileNotFoundError`; a key that
  exists answers the value its `QueryValue(reg, None)` would read.

  As written, the registry value is read with `QueryValue(reg)`, one
  argument short of the two `winreg.QueryValue` requires, so Python raises
  `TypeError` as soon as a key opens. `RegistryScan` models that;
  `RegistryScanIntended` models the loop with the value read.
 */
module Binary {
  import opened Py

  /** What the lookup can see of the machine. */
  datatype Search = Search(
    win: bool,
    which: Which,
    existing: set<string>,
    aliases: map<string, seq<string>>,
    envBins: map<string, seq<Option<string>>>,
    regKeys: map<string, seq<string>>,
    query: string -> Option<string>
  )

  /** The suffixes tried on every base name: none, and on Windows `.exe` and `.bat`. */
  function Extensions(win: bool): (r: seq<string>)
    ensures |r| > 0 && r[0] == "" && (win <==> |r| == 3) && (!win <==> |r| == 1)
  {
    if win then ["", ".exe", ".bat"] else [""]
  }

  /** The base names: the empty name, the binary itself, then its aliases. */
  function Bases(binary: string, aliases: map<string, seq<string>>): (r: seq<string>)
    ensures |r| >= 2 && r[0] == "" && r[1] == binary
    ensures binary in aliases ==> r[2..] == aliases[binary]
    ensures binary !in aliases ==> |r| == 2
  {
    ["", binary] + if binary in aliases then aliases[binary] else []
  }

  /** Every base name with every extension, base by base. */
  function Candidates(bases: seq<string>, exts: seq<string>): (r: seq<string>)
    ensures |r| == |bases| * |exts|
  {
    if |bases| == 0 then []
    else Suffixed(bases[0], exts) + Candidates(bases[1..], exts)
  }

  function Suffixed(base: string, exts: seq<string>): (r: seq<string>)
    ensures |r| == |exts| && forall j :: 0 <= j < |exts| ==> r[j] == base + exts[j]
  {
    seq(|exts|, j requires 0 <= j < |exts| => base + exts[j])
  }

  /** Candidate `i * |exts| + j` is base `i` with extension `j`. */
  lemma {:induction false} CandidateAt(bases: seq<string>, exts: seq<string>, i: nat, j: nat)
    requires i < |bases| && j < |exts|
    ensures i * |exts| + j < |bases| * |exts|
    ensures Candidates(bases, exts)[i * |exts| + j] == bases[i] + exts[j]
  {
    var n := |exts|;
    var rest := Candidates(bases[1..], exts);
    assert Candidates(bases, exts) == Suffixed(bases[0], exts) + rest;
    if i > 0 {
      CandidateAt(bases[1..], exts, i - 1, j);
      assert i * n + j == n + ((i - 1) * n + j);
    }
  }

  /** Without extensions to add, the candidates are the base names themselves. */
  lemma {:induction false} PosixCandidates(bases: seq<string>)
    ensures Candidates(bases, [""]) == bases
  {
    if |bases| > 0 {
      PosixCandidates(bases[1..]);
      assert bases[0] + "" == bases[0];
      assert Suffixed(bases[0], [""]) == [bases[0]];
    }
  }

  /**
    `for x in values: if accept(x): break`, with the loop variable read
    afterwards: the first accepted value, else the last value, else (no
    iteration at all) what the variable held before.
   */
  function ForBreak(start: Option<string>, values: seq<Option<string>>, accept: Option<string> -> bool): (r: Option<string>)
    ensures |values| == 0 ==> r == start
    ensures forall i :: 0 <= i < |values| && accept(values[i]) && (forall j :: 0 <= j < i ==> !accept(values[j]))
              ==> r == values[i]
    ensures |values| > 0 && (forall i :: 0 <= i < |values| ==> !accept(values[i])) ==> r == values[|values| - 1]
    decreases |values|
  {
    if |values| == 0 then start
    else if accept(values[0]) then values[0]
    else ForBreak(values[0], values[1..], accept)
  }

  /** `shutil.which` asked about every candidate, or the registry read under every key. */
  function Lookups(cands: seq<string>, which: Which): (r: seq<Option<string>>)
    ensures |r| == |cands| && forall i :: 0 <= i < |cands| ==> r[i] == which(cands[i])
  {
    seq(|cands|, i requires 0 <= i < |cands| => which(cands[i]))
  }

  /** `exe and Path(exe).exists()`. */
  predicate Usable(exe: Option<string>, existing: set<string>) {
    Truthy(exe) && exe.value in existing
  }

  /** The candidates, in the order they are tried. */
  function CandidatesOf(binary: string, s: Search): seq<string> {
    Candidates(Bases(binary, s.aliases), Extensions(s.win))
  }

  /** The result of the scan of the search path. */
  function PathHit(binary: string, s: Search): Option<string> {
    ForBreak(None, Lookups(CandidatesOf(binary, s), s.which), Truthy)
  }

  /** `exe` after the environment-variable fallback, which runs only when the scan gave None. */
  function AfterEnv(binary: string, s: Search, exe: Option<string>): Option<string> {
    if exe.None? && binary in s.envBins then
      ForBreak(exe, s.envBins[binary], (v: Option<string>) => Usable(v, s.existing))
    else exe
  }

  /** The `TypeError` Python raises for `QueryValue(reg)`, which leaves out the required `sub_key`. */
  function QueryArity(): Exception {
    TypeError("QueryValue expected 2 arguments, got 1")
  }

  /**
    The registry loop as written: the first key is opened, and either it
    does not exist and `OpenKey` raises `FileNotFoundError`, or it does and
    the one-argument `QueryValue` raises `TypeError`. No value is read, so
    the loop leaves `exe` as it was only when there is no key to try.
   */
  function RegistryScan(exe: Option<string>, keys: seq<string>, query: string -> Option<string>): (r: Result<Option<string>>)
    ensures r.Ok? <==> |keys| == 0
    ensures r.Ok? ==> r.value == exe
    ensures r.Err? && query(keys[0]).None? ==> r.error == FileNotFoundError(keys[0])
    ensures r.Err? && query(keys[0]).Some? ==> r.error == QueryArity()
  {
    if |keys| == 0 then Ok(exe)
    else if query(keys[0]).None? then Err(FileNotFoundError(keys[0]))
    else Err(QueryArity())
  }

  /**
    The scan as written agrees with the intended one exactly when there is
    no key, or the first key does not exist: a present first key is where
    the intended loop reads a value and the written one raises.
   */
  lemma RegistryScanAgrees(exe: Option<string>, keys: seq<string>, query: string -> Option<string>,
                           existing: set<string>)
    ensures RegistryScan(exe, keys, query) == RegistryScanIntended(exe, keys, query, existing)
            <==> |keys| == 0 || query(keys[0]).None?
  {
    if |keys| > 0 && query(keys[0]).Some? {
      var r := RegistryScanIntended(exe, keys, query, existing);
      assert r.Err? ==> r.error.FileNotFoundError?;
    }
  }

  /**
    The registry loop as intended, reading each value with
    `QueryValue(reg, None)`: each key is opened in turn and its value read
    into `exe`, up to the first value that names an existing file; a key
    that does not exist raises `FileNotFoundError` and ends the lookup.
   */
  function RegistryScanIntended(exe: Option<string>, keys: seq<string>, query: string -> Option<string>,
                                existing: set<string>): (r: Result<Option<string>>)
    ensures r.Err? <==> exists i :: 0 <= i < |keys| && query(keys[i]).None?
                                    && forall j :: 0 <= j < i ==> !Usable(query(keys[j]), existing)
    ensures r.Err? ==> exists i :: 0 <= i < |keys| && query(keys[i]).None? && r.error == FileNotFoundError(keys[i])
    decreases |keys|
  {
    if |keys| == 0 then Ok(exe)
    else
      match query(keys[0])
      case None => Err(FileNotFoundError(keys[0]))
      case Some(v) =>
        if Usable(Some(v), existing) then Ok(Some(v))
        else
          var r := RegistryScanIntended(Some(v), keys[1..], query, existing);
          RegistryScanTail(keys, query, existing, r);
          assert r.Err? ==> exists i :: 0 <= i < |keys| && query(keys[i]).None? && r.error == FileNotFoundError(keys[i]) by {
            if r.Err? {
              var i :| 0 <= i < |keys[1..]| && query(keys[1..][i]).None? && r.error == FileNotFoundError(keys[1..][i]);
              assert keys[1..][i] == keys[i + 1];
            }
          }
          r
  }

  /** `exe and Path(exe).exists()`, as the loop's test. */
  function UsableIn(existing: set<string>): Option<string> -> bool {
    (v: Option<string>) => Usable(v, existing)
  }

  /** With every key present, the intended registry loop is a plain `for ... break` over the values read. */
  lemma {:induction false} RegistryScanPresent(exe: Option<string>, keys: seq<string>, query: string -> Option<string>,
                                               existing: set<string>)
    requires forall i :: 0 <= i < |keys| ==> query(keys[i]).Some?
    ensures RegistryScanIntended(exe, keys, query, existing) == Ok(ForBreak(exe, Lookups(keys, query), UsableIn(existing)))
    decreases |keys|
  {
    if |keys| > 0 {
      assert Lookups(keys, query)[1..] == Lookups(keys[1..], query);
      assert forall i :: 0 <= i < |keys[1..]| ==> query(keys[1..][i]).Some? by {
        forall i | 0 <= i < |keys[1..]| ensures query(keys[1..][i]).Some? {
          assert keys[1..][i] == keys[i + 1];
        }
      }
      RegistryScanPresent(query(keys[0]), keys[1..], query, existing);
    }
  }

  /** The contract of `RegistryScanIntended` on `keys`, from the one on `keys[1..]` after a present, unusable first key. */
  lemma RegistryScanTail(keys: seq<string>, query: string -> Option<string>, existing: set<string>,
                         r: Result<Option<string>>)
    requires |keys| > 0 && query(keys[0]).Some? && !Usable(query(keys[0]), existing)
    requires r.Err? <==> exists i :: 0 <= i < |keys[1..]| && query(keys[1..][i]).None?
                                     && forall j :: 0 <= j < i ==> !Usable(query(keys[1..][j]), existing)
    ensures r.Err? <==> exists i :: 0 <= i < |keys| && query(keys[i]).None?
                                    && forall j :: 0 <= j < i ==> !Usable(query(keys[j]), existing)
  {
    if r.Err? {
      var i :| 0 <= i < |keys[1..]| && query(keys[1..][i]).None?
               && forall j :: 0 <= j < i ==> !Usable(query(keys[1..][j]), existing);
      assert forall j :: 0 <= j < i + 1 ==> !Usable(query(keys[j]), existing) by {
        forall j | 1 <= j < i + 1 ensures !Usable(query(keys[j]), existing) {
          assert keys[1..][j - 1] == keys[j];
        }
      }
    } else {
      forall i | 0 <= i < |keys| && query(keys[i]).None?
        ensures exists j :: 0 <= j < i && Usable(query(keys[j]), existing)
      {
        assert i > 0 && keys[1..][i - 1] == keys[i];
        var k :| 0 <= k < i - 1 && Usable(query(keys[1..][k]), existing);
        assert keys[1..][k] == keys[k + 1];
      }
    }
  }

  /** The registry keys of the browser, on Windows only. */
  function RegKeys(binary: string, s: Search): seq<string> {
    if binary in s.regKeys then s.regKeys[binary] else []
  }

  /** The registry fallback as written, which runs on Windows only, when `exe` is None. */
  function AfterRegistry(binary: string, s: Search, exe: Option<string>): (r: Result<Option<string>>)
    ensures !(exe.None? && s.win) ==> r == Ok(exe)
    ensures exe.None? && s.win ==> r == RegistryScan(exe, RegKeys(binary, s), s.query)
  {
    if exe.None? && s.win then RegistryScan(exe, RegKeys(binary, s), s.query)
    else Ok(exe)
  }

  /** The registry fallback with each value read, under the same condition. */
  function AfterRegistryIntended(binary: string, s: Search, exe: Option<string>): (r: Result<Option<string>>)
    ensures !(exe.None? && s.win) ==> r == Ok(exe)
    ensures exe.None? && s.win ==> r == RegistryScanIntended(exe, RegKeys(binary, s), s.query, s.existing)
  {
    if exe.None? && s.win then RegistryScanIntended(exe, RegKeys(binary, s), s.query, s.existing)
    else Ok(exe)
  }

  /** A missing registry key opened before a usable value was read. */
  ghost predicate MissingKey(binary: string, s: Search, e: Exception) {
    s.win && exists i :: 0 <= i < |RegKeys(binary, s)| && s.query(RegKeys(binary, s)[i]).None?
                         && e == FileNotFoundError(RegKeys(binary, s)[i])
  }

  /** The `TypeError` of the one-argument `QueryValue`, once the first registry key of the browser opened. */
  ghost predicate PresentKey(binary: string, s: Search, e: Exception) {
    s.win && |RegKeys(binary, s)| > 0 && s.query(RegKeys(binary, s)[0]).Some? && e == QueryArity()
  }

  /** The error for a browser that was not found. */
  function NotFound(binary: string): Exception {
    ValueError("No browser found for '" + binary + "'")
  }

  /** The final check: a value that names an existing file, or the error. */
  function Checked(binary: string, exe: Option<string>, existing: set<string>): (r: Result<string>)
    ensures r.Ok? <==> exe.Some? && exe.value in existing
    ensures r.Ok? ==> r.value == exe.value
    ensures r.Err? ==> r.error == NotFound(binary)
  {
    if exe.None? || exe.value !in existing then Err(NotFound(binary)) else Ok(exe.value)
  }

  /** `find_browser_binary`, as written. */
  function FindBrowserBinary(binary: string, s: Search): (r: Result<string>)
    ensures r.Ok? ==> r.value in s.existing
    ensures r.Err? ==> r.error == NotFound(binary) || MissingKey(binary, s, r.error) || PresentKey(binary, s, r.error)
    ensures r.Ok? ==> AfterEnv(binary, s, PathHit(binary, s)) == Some(r.value)
    ensures !s.win && r.Err? ==> r.error == NotFound(binary)
  {
    var exe :- AfterRegistry(binary, s, AfterEnv(binary, s, PathHit(binary, s)));
    Checked(binary, exe, s.existing)
  }

  /**
    The first candidate `shutil.which` finds wins, as long as that file
    exists: neither the environment nor the registry is consulted.
   */
  lemma FirstCandidateWins(binary: string, s: Search, i: nat)
    requires i < |CandidatesOf(binary, s)|
    requires Truthy(s.which(CandidatesOf(binary, s)[i]))
    requires forall j :: 0 <= j < i ==> !Truthy(s.which(CandidatesOf(binary, s)[j]))
    requires s.which(CandidatesOf(binary, s)[i]).value in s.existing
    ensures FindBrowserBinary(binary, s) == Ok(s.which(CandidatesOf(binary, s)[i]).value)
  {
    var looks := Lookups(CandidatesOf(binary, s), s.which);
    assert forall j :: 0 <= j < i ==> !Truthy(looks[j]);
  }

  /**
    When no candidate is on the search path, the first environment value
    that names an existing file wins.
   */
  lemma EnvFallbackWins(binary: string, s: Search, i: nat)
    requires forall c :: c in CandidatesOf(binary, s) ==> s.which(c).None?
    requires binary in s.envBins && i < |s.envBins[binary]|
    requires Usable(s.envBins[binary][i], s.existing)
    requires forall j :: 0 <= j < i ==> !Usable(s.envBins[binary][j], s.existing)
    ensures FindBrowserBinary(binary, s) == Ok(s.envBins[binary][i].value)
  {
    NothingOnPath(binary, s);
  }

  /**
    `exe` after the environment fallback, as intended: a value that does not
    name an existing file leaves the lookup unresolved.
   */
  function AfterEnvIntended(binary: string, s: Search, exe: Option<string>): (r: Option<string>)
    ensures exe.None? && binary in s.envBins && !Usable(r, s.existing) ==> r.None?
    ensures exe.Some? ==> r == exe
  {
    var found := AfterEnv(binary, s, exe);
    if exe.None? && !Usable(found, s.existing) then None else found
  }

  /**
    `find_browser_binary` with the registry consulted whenever the
    environment gave nothing usable, and each registry value read.
   */
  function FindBrowserBinaryIntended(binary: string, s: Search): (r: Result<string>)
    ensures r.Ok? ==> r.value in s.existing
    ensures r.Err? ==> r.error == NotFound(binary) || MissingKey(binary, s, r.error)
    ensures !s.win && r.Err? ==> r.error == NotFound(binary)
  {
    var exe :- AfterRegistryIntended(binary, s, AfterEnvIntended(binary, s, PathHit(binary, s)));
    Checked(binary, exe, s.existing)
  }

  /**
    With the intended fallback, on Windows, when neither the search path nor
    the environment names an existing file, the first registry value that
    does wins.
   */
  lemma RegistryFallbackWins(binary: string, s: Search, i: nat)
    requires s.win
    requires forall c :: c in CandidatesOf(binary, s) ==> s.which(c).None?
    requires binary in s.envBins ==> forall v :: v in s.envBins[binary] ==> !Usable(v, s.existing)
    requires binary in s.regKeys && i < |s.regKeys[binary]|
    requires Usable(s.query(s.regKeys[binary][i]), s.existing)
    requires forall j :: 0 <= j < i ==> s.query(s.regKeys[binary][j]).Some?
    requires forall j :: 0 <= j < i ==> !Usable(s.query(s.regKeys[binary][j]), s.existing)
    ensures FindBrowserBinaryIntended(binary, s) == Ok(s.query(s.regKeys[binary][i]).value)
  {
    NothingOnPath(binary, s);
    var env := AfterEnv(binary, s, None);
    if binary in s.envBins && |s.envBins[binary]| > 0 {
      var vs := s.envBins[binary];
      assert vs[|vs| - 1] in vs;
    }
    assert AfterEnvIntended(binary, s, None) == None;
    RegistryScanHit(None, s.regKeys[binary], s.query, s.existing, i);
  }

  /** The loop stops at the first key whose value names an existing file, once every earlier key was present. */
  lemma {:induction false} RegistryScanHit(exe: Option<string>, keys: seq<string>, query: string -> Option<string>,
                                           existing: set<string>, i: nat)
    requires i < |keys| && Usable(query(keys[i]), existing)
    requires forall j :: 0 <= j < i ==> query(keys[j]).Some? && !Usable(query(keys[j]), existing)
    ensures RegistryScanIntended(exe, keys, query, existing) == Ok(query(keys[i]))
    decreases i
  {
    if i > 0 {
      assert forall j :: 0 <= j < i - 1 ==> keys[1..][j] == keys[j + 1];
      RegistryScanHit(query(keys[0]), keys[1..], query, existing, i - 1);
    }
  }

  /** A machine where `FIREFOX_BINARY`-style variables name a stale file and the registry a real one. */
  function StaleEnv(): Search {
    Search(true, (c: string) => None, {"C:/firefox.exe"}, map[],
           map["firefox" := [Some("C:/old/firefox.exe")]],
           map["firefox" := ["Firefox"]], (k: string) => Some("C:/firefox.exe"))
  }

  /**
    As written, a stale environment value is kept in `exe`, so the registry
    is skipped and the binary is not found; the intended lookup finds it.
   */
  lemma StaleEnvSkipsRegistry()
    ensures FindBrowserBinary("firefox", StaleEnv()) == Err(NotFound("firefox"))
    ensures FindBrowserBinaryIntended("firefox", StaleEnv()) == Ok("C:/firefox.exe")
  {
    StaleEnvAsWritten();
    StaleEnvIntended();
  }

  lemma StaleEnvAsWritten()
    ensures FindBrowserBinary("firefox", StaleEnv()) == Err(NotFound("firefox"))
  {
    StaleEnvNotOnPath();
    assert AfterEnv("firefox", StaleEnv(), None) == Some("C:/old/firefox.exe");
  }

  lemma StaleEnvIntended()
    ensures FindBrowserBinaryIntended("firefox", StaleEnv()) == Ok("C:/firefox.exe")
  {
    NothingOnPath("firefox", StaleEnv());
    RegistryFallbackWins("firefox", StaleEnv(), 0);
  }

  lemma StaleEnvNotOnPath()
    ensures PathHit("firefox", StaleEnv()) == None
  {
    NothingOnPath("firefox", StaleEnv());
  }

  /**
    Fixing the loop variable alone is not enough: the stale environment
    value no longer skips the registry, but the one-argument `QueryValue`
    then raises `TypeError` at the present key.
   */
  lemma StaleEnvLoopFixOnly()
    ensures AfterRegistry("firefox", StaleEnv(), AfterEnvIntended("firefox", StaleEnv(), PathHit("firefox", StaleEnv())))
            == Err(QueryArity())
  {
    StaleEnvNotOnPath();
    assert AfterEnvIntended("firefox", StaleEnv(), None) == None;
  }

  /** A Windows machine where only the registry names the browser, and the file exists. */
  function RegistryOnly(): Search {
    Search(true, (c: string) => None, {"C:/firefox.exe"}, map[], map[],
           map["firefox" := ["Firefox"]], (k: string) => Some("C:/firefox.exe"))
  }

  /** As written, the present key makes `QueryValue(reg)` raise; reading its value finds the browser. */
  lemma RegistryOnlyRaises()
    ensures FindBrowserBinary("firefox", RegistryOnly()) == Err(QueryArity())
    ensures FindBrowserBinaryIntended("firefox", RegistryOnly()) == Ok("C:/firefox.exe")
  {
    NothingOnPath("firefox", RegistryOnly());
    RegistryFallbackWins("firefox", RegistryOnly(), 0);
  }

  /** A Windows machine where nothing is on the search path and the browser's registry key does not exist. */
  function NoRegistryKey(): Search {
    Search(true, (c: string) => None, {}, map[], map[], map["firefox" := ["Firefox"]], (k: string) => None)
  }

  /** Opening the missing key raises `FileNotFoundError`, which both lookups pass on. */
  lemma MissingKeyRaises()
    ensures FindBrowserBinary("firefox", NoRegistryKey()) == Err(FileNotFoundError("Firefox"))
    ensures FindBrowserBinaryIntended("firefox", NoRegistryKey()) == Err(FileNotFoundError("Firefox"))
  {
    NothingOnPath("firefox", NoRegistryKey());
  }

  /** When `shutil.which` finds no candidate, the scan leaves None. */
  lemma NothingOnPath(binary: string, s: Search)
    requires forall c :: c in CandidatesOf(binary, s) ==> s.which(c).None?
    ensures PathHit(binary, s) == None
  {
    var cands := CandidatesOf(binary, s);
    assert cands[|cands| - 1] in cands;
  }
}

=== FILE: browser.dfy ===
/**
  The table-driven browser locker: the `BROWSERS` table of command-line
  argument groups, the command line assembled from it, the temporary profile
  it may create, and the cleanup of the browser process and that profile.

  The argument lists of the table are shared, not copied: the command line
  is built in the table's own `launch` list, so building it changes the
  table. `Run.table` is the table afterwards.
 */
module Browser {
  import opened Py
  import opened Strings
  import opened Paths

  /** One browser's argument groups, keyed by the setting each group serves. */
  type Groups = map<string, seq<string>>

  type Table = map<string, Groups>

  /** The placeholder a profile argument carries for the profile directory. */
  const ProfileDir: string := "{PROFILE_DIR}"

  const FirefoxProfile: seq<string> := ["--new-instance", "--profile", ProfileDir]

  const ChromiumProfile: seq<string> := ["--user-data-dir=" + ProfileDir]

  const Firefox: Groups := map[
    "launch" := ["firefox"],
    "headless" := ["--headless"],
    "private_mode" := ["--private-window"],
    "profile" := FirefoxProfile
  ]

  const Chromium: Groups := map[
    "launch" := ["chromium-browser", "--new-window"],
    "private_mode" := ["--incognito"],
    "profile" := ChromiumProfile
  ]

  /** `BROWSERS`: chromium has no `headless` group. */
  const Browsers: Table := map["firefox" := Firefox, "chromium" := Chromium]

  /**
    `browser_cli_arg`: the table's own list for the group, or a fresh empty
    list when the browser has no such group; an unknown browser is a KeyError.
   */
  function BrowserCliArg(table: Table, browser: string, group: string): (r: Result<seq<string>>)
    ensures r.Err? <==> browser !in table
    ensures r.Err? ==> r.error == KeyError(browser)
    ensures r.Ok? && group in table[browser] ==> r.value == table[browser][group]
    ensures r.Ok? && group !in table[browser] ==> r.value == []
  {
    if browser !in table then Err(KeyError(browser))
    else if group !in table[browser] then Ok([])
    else Ok(table[browser][group])
  }

  /** Chromium asked to run headless gets no flag for it. */
  lemma ChromiumNotHeadless()
    ensures BrowserCliArg(Browsers, "chromium", "headless") == Ok([])
    ensures BrowserCliArg(Browsers, "firefox", "headless") == Ok(["--headless"])
  {
  }

  // ---------------------------------------------------------------------
  // The locker's runtime state and its effects on the file system.

  /** A browser process; `returncode` is None while it runs. */
  datatype Process = Process(returncode: Option<int>)

  /** `_temp_profile_path` and `_browser_process`. */
  datatype Locker = Locker(tempProfilePath: Option<string>, browserProcess: Option<Process>)

  /** What a step does outside the locker. */
  datatype Action =
    | MakeDirs(path: string)
    | CopyTree(src: string, dst: string)
    | Kill
    | RemoveTree(path: string)

  /** The outcome of `ensure_temp_profile`: the path or the error, the new state, and the effects. */
  datatype Step = Step(path: Result<string>, locker: Locker, actions: seq<Action>)

  /** Where a temporary profile lives: `cache_dir/.browser/<browser>`. */
  function TempProfileHome(cacheDir: string, browser: string): string {
    Child(Child(cacheDir, ".browser"), browser)
  }

  /**
    `ensure_temp_profile`: a profile path already recorded is returned as it
    is, and nothing is created. Otherwise the profile home is created, as a
    copy of `baseline` when that is a directory (which fails when the home
    already exists) or else as an empty directory.
   */
  function EnsureTempProfile(locker: Locker, cacheDir: string, browser: string, baseline: Option<string>,
                             dirs: set<string>, existing: set<string>): (r: Step)
    ensures locker.tempProfilePath.Some? ==> r == Step(Ok(locker.tempProfilePath.value), locker, [])
    ensures locker.tempProfilePath.None? && r.path.Ok? ==>
              r.path.value == TempProfileHome(cacheDir, browser)
              && r.locker == locker.(tempProfilePath := Some(r.path.value))
    ensures r.path.Err? <==>
              locker.tempProfilePath.None? && baseline.Some? && baseline.value in dirs
              && TempProfileHome(cacheDir, browser) in existing
    ensures r.path.Err? ==>
              r.path.error == FileExistsError(TempProfileHome(cacheDir, browser)) && r.locker == locker
    ensures (exists a :: a in r.actions && a.CopyTree?) <==>
              locker.tempProfilePath.None? && baseline.Some? && baseline.value in dirs
              && TempProfileHome(cacheDir, browser) !in existing
    ensures forall a :: a in r.actions && a.CopyTree? ==>
              a == CopyTree(baseline.value, TempProfileHome(cacheDir, browser))
  {
    if locker.tempProfilePath.Some? then
      Step(Ok(locker.tempProfilePath.value), locker, [])
    else
      var path := TempProfileHome(cacheDir, browser);
      if baseline.Some? && baseline.value in dirs then
        var parent := [MakeDirs(Child(cacheDir, ".browser"))];
        if path in existing then
          Step(Err(FileExistsError(path)), locker, parent)
        else
          var actions := parent + [CopyTree(baseline.value, path)];
          assert actions[1] in actions;
          Step(Ok(path), locker.(tempProfilePath := Some(path)), actions)
      else
        Step(Ok(path), locker.(tempProfilePath := Some(path)), [MakeDirs(path)])
  }

  /** A second `ensure_temp_profile` after a first that succeeded changes nothing. */
  lemma EnsureTempProfileTwice(locker: Locker, cacheDir: string, browser: string, baseline: Option<string>,
                               dirs: set<string>, existing: set<string>,
                               cacheDir': string, browser': string, baseline': Option<string>,
                               dirs': set<string>, existing': set<string>)
    requires EnsureTempProfile(locker, cacheDir, browser, baseline, dirs, existing).path.Ok?
    ensures var first := EnsureTempProfile(locker, cacheDir, browser, baseline, dirs, existing);
            EnsureTempProfile(first.locker, cacheDir', browser', baseline', dirs', existing')
              == Step(first.path, first.locker, [])
  {
  }

  /**
    `cleanup`: the process is killed only while it still runs, the profile is
    removed only if it exists, and both handles are dropped either way.
   */
  function Cleanup(locker: Locker, existing: set<string>): (r: (Locker, seq<Action>))
    ensures r.0 == Locker(None, None)
    ensures Kill in r.1 <==> locker.browserProcess.Some? && locker.browserProcess.value.returncode.None?
    ensures (exists a :: a in r.1 && a.RemoveTree?) <==>
              locker.tempProfilePath.Some? && locker.tempProfilePath.value in existing
    ensures forall a :: a in r.1 ==> a == Kill || (locker.tempProfilePath.Some? && a == RemoveTree(locker.tempProfilePath.value))
  {
    var kill := if locker.browserProcess.Some? && locker.browserProcess.value.returncode.None? then [Kill] else [];
    var remove := if locker.tempProfilePath.Some? && locker.tempProfilePath.value in existing
                  then [RemoveTree(locker.tempProfilePath.value)] else [];
    var actions := kill + remove;
    assert |remove| > 0 ==> actions[|kill|] in actions;
    (Locker(None, None), actions)
  }

  /** A second `cleanup` has nothing left to do. */
  lemma CleanupTwice(locker: Locker, existing: set<string>, existing': set<string>)
    ensures Cleanup(Cleanup(locker, existing).0, existing') == (Locker(None, None), [])
  {
  }

  // ---------------------------------------------------------------------
  // The default command line.

  /** The settings the command line depends on. */
  datatype Config = Config(
    browser: string,
    headless: bool,
    privateMode: bool,
    profile: Option<string>,
    tempProfile: bool
  )

  /**
    What the command line depends on outside the locker: the cache and site
    directories, which paths are directories and which exist, and the binary
    lookup `find_browser_binary`, which may fail.
   */
  datatype Host = Host(
    cacheDir: string,
    liteDir: string,
    dirs: set<string>,
    existing: set<string>,
    findBinary: string -> Result<string>
  )

  /** The command line or the error raised, the table and state afterwards, and the effects. */
  datatype Run = Run(argv: Result<seq<string>>, table: Table, locker: Locker, actions: seq<Action>)

  /** The table once the browser's `launch` list has become `argv`. */
  function WithLaunch(table: Table, browser: string, argv: seq<string>): (r: Table)
    requires browser in table
    ensures r.Keys == table.Keys && r[browser].Keys == table[browser].Keys + {"launch"}
    ensures r[browser]["launch"] == argv
    ensures forall b :: b in table && b != browser ==> r[b] == table[b]
    ensures forall g :: g in table[browser] && g != "launch" ==> r[browser][g] == table[browser][g]
  {
    table[browser := table[browser]["launch" := argv]]
  }

  /** The profile group with every placeholder replaced by the profile path. */
  function ProfileArgs(args: seq<string>, path: string): (r: seq<string>)
    ensures |r| == |args|
    ensures forall i :: 0 <= i < |args| ==> r[i] == ReplaceAll(args[i], ProfileDir, path)
  {
    seq(|args|, i requires 0 <= i < |args| => ReplaceAll(args[i], ProfileDir, path))
  }

  /** The profile to copy: the configured `profile`, relative to the site directory. */
  function Baseline(cfg: Config, host: Host): Option<string> {
    if Truthy(cfg.profile) then Some(JoinPath(host.liteDir, cfg.profile.value)) else None
  }

  /**
    The temporary-profile step of the command line: a configured `profile`
    is copied and wins over `temp_profile`; `temp_profile` alone makes an
    empty one; with neither the state is left as it is.
   */
  function ProfileStep(cfg: Config, locker: Locker, host: Host): (r: Step)
    ensures Truthy(cfg.profile) || cfg.tempProfile ==>
              r == EnsureTempProfile(locker, host.cacheDir, cfg.browser, Baseline(cfg, host), host.dirs, host.existing)
    ensures !Truthy(cfg.profile) && !cfg.tempProfile ==> r.path.Ok? && r.locker == locker && r.actions == []
  {
    if Truthy(cfg.profile) || cfg.tempProfile then
      EnsureTempProfile(locker, host.cacheDir, cfg.browser, Baseline(cfg, host), host.dirs, host.existing)
    else
      Step(Ok(""), locker, [])
  }

  /**
    `_default_browser_argv`: the launch group with its first word resolved
    to a binary, then the headless group, the profile group (only when a
    temporary profile path is recorded) and the private-mode group. The
    command line is built in the table's `launch` list, so on success that
    list is the command line, and on a failure of the profile step it holds
    what was built so far. An empty launch group is an `IndexError`, and a
    failed binary lookup leaves the table as it was.
   */
  function DefaultBrowserArgv(cfg: Config, table: Table, locker: Locker, host: Host): (r: Run)
    ensures cfg.browser !in table ==> r == Run(Err(KeyError(cfg.browser)), table, locker, [])
    ensures r.argv.Ok? ==> cfg.browser in table && r.table == WithLaunch(table, cfg.browser, r.argv.value)
    ensures r.argv.Ok? ==>
              "launch" in table[cfg.browser] &&
              var launch := table[cfg.browser]["launch"];
              |launch| > 0 && host.findBinary(launch[0]).Ok?
              && r.argv.value == [host.findBinary(launch[0]).value] + launch[1..]
                                 + Group(table, cfg.browser, "headless", cfg.headless)
                                 + Profile(table, cfg.browser, r.locker)
                                 + Group(table, cfg.browser, "private_mode", cfg.privateMode)
    ensures r.argv.Ok? ==> r.locker == ProfileStep(cfg, locker, host).locker
    ensures cfg.browser in table && |BrowserCliArg(table, cfg.browser, "launch").value| == 0 ==>
              r == Run(Err(IndexError), table, locker, [])
    ensures cfg.browser in table ==>
              var launch := BrowserCliArg(table, cfg.browser, "launch").value;
              |launch| > 0 && host.findBinary(launch[0]).Err? ==>
                r == Run(Err(host.findBinary(launch[0]).error), table, locker, [])
    ensures cfg.browser in table ==>
              var launch := BrowserCliArg(table, cfg.browser, "launch").value;
              var step := ProfileStep(cfg, locker, host);
              |launch| > 0 && host.findBinary(launch[0]).Ok? && step.path.Err? ==>
                && r.argv == Err(step.path.error)
                && r.locker == step.locker
                && r.table == WithLaunch(table, cfg.browser, [host.findBinary(launch[0]).value] + launch[1..]
                                                              + Group(table, cfg.browser, "headless", cfg.headless))
    ensures r.table != table ==> r.table.Keys == table.Keys && cfg.browser in table
  {
    var b := cfg.browser;
    match BrowserCliArg(table, b, "launch")
    case Err(e) => Run(Err(e), table, locker, [])
    case Ok(launch) =>
      if |launch| == 0 then Run(Err(IndexError), table, locker, [])
      else
        match host.findBinary(launch[0])
        case Err(e) => Run(Err(e), table, locker, [])
        case Ok(binary) =>
          var argv := [binary] + launch[1..] + Group(table, b, "headless", cfg.headless);
          var step := ProfileStep(cfg, locker, host);
          if step.path.Err? then
            Run(Err(step.path.error), WithLaunch(table, b, argv), step.locker, step.actions)
          else
            var full := argv + Profile(table, b, step.locker) + Group(table, b, "private_mode", cfg.privateMode);
            Run(Ok(full), WithLaunch(table, b, full), step.locker, step.actions)
  }

  /** A group's arguments when its switch is on, nothing otherwise. */
  function Group(table: Table, browser: string, group: string, on: bool): (r: seq<string>)
    requires browser in table
    ensures on && group in table[browser] ==> r == table[browser][group]
    ensures !on || group !in table[browser] ==> r == []
  {
    if on then BrowserCliArg(table, browser, group).value else []
  }

  /** The profile arguments, present only when a temporary profile path is recorded. */
  function Profile(table: Table, browser: string, locker: Locker): (r: seq<string>)
    requires browser in table
    ensures locker.tempProfilePath.None? ==> r == []
  {
    match locker.tempProfilePath
    case None => []
    case Some(path) => ProfileArgs(BrowserCliArg(table, browser, "profile").value, path)
  }

  /** A binary lookup that succeeds with the word itself. */
  function Itself(word: string): Result<string> {
    Ok(word)
  }

  /** Firefox, headless and private, no profile. */
  const Plain: Config := Config("firefox", true, true, None, false)

  /**
    Building the command line twice from the shared table repeats the flags:
    the second build starts from the first build's command line.
   */
  lemma SecondBuildRepeatsFlags(host: Host)
    requires host.findBinary == Itself
    ensures var first := DefaultBrowserArgv(Plain, Browsers, Locker(None, None), host);
            && first.argv == Ok(["firefox", "--headless", "--private-window"])
            && DefaultBrowserArgv(Plain, first.table, first.locker, host).argv
               == Ok(["firefox", "--headless", "--private-window", "--headless", "--private-window"])
  {
    var once := ["firefox", "--headless", "--private-window"];
    FirefoxGroups();
    PlainBuild(Browsers, ["firefox"], host);
    assert ["firefox"] + ["--headless", "--private-window"] == once;
    var first := DefaultBrowserArgv(Plain, Browsers, Locker(None, None), host);
    assert first == Run(Ok(once), WithLaunch(Browsers, "firefox", once), Locker(None, None), []);
    PlainBuild(first.table, once, host);
    assert once + ["--headless", "--private-window"]
        == ["firefox", "--headless", "--private-window", "--headless", "--private-window"];
  }

  /**
    One build with `Plain` from a table whose firefox groups are those of
    `BROWSERS` except for `launch`: the launch list, then the two flags.
   */
  lemma PlainBuild(table: Table, launch: seq<string>, host: Host)
    requires host.findBinary == Itself
    requires "firefox" in table && table["firefox"].Keys == Firefox.Keys
    requires table["firefox"]["launch"] == launch && |launch| > 0
    requires table["firefox"]["headless"] == ["--headless"]
    requires table["firefox"]["private_mode"] == ["--private-window"]
    ensures var full := launch + ["--headless", "--private-window"];
            DefaultBrowserArgv(Plain, table, Locker(None, None), host)
              == Run(Ok(full), WithLaunch(table, "firefox", full), Locker(None, None), [])
  {
    var full := launch + ["--headless", "--private-window"];
    ArgvOfParts(Plain, table, Locker(None, None), host, launch, launch[0], Step(Ok(""), Locker(None, None), []));
    assert [launch[0]] + launch[1..] + ["--headless"] + [] + ["--private-window"] == full;
  }

  /** The firefox groups of `BROWSERS`. */
  lemma FirefoxGroups()
    ensures "firefox" in Browsers && Browsers["firefox"] == Firefox
    ensures Firefox.Keys == {"launch", "headless", "private_mode", "profile"}
    ensures Firefox["launch"] == ["firefox"]
    ensures Firefox["headless"] == ["--headless"]
    ensures Firefox["private_mode"] == ["--private-window"]
    ensures Firefox["profile"] == FirefoxProfile
  {
  }

  /** `_default_browser_argv` once the launch list, the binary and the profile step are known. */
  lemma ArgvOfParts(cfg: Config, table: Table, locker: Locker, host: Host,
                    launch: seq<string>, binary: string, step: Step)
    requires cfg.browser in table && "launch" in table[cfg.browser]
    requires table[cfg.browser]["launch"] == launch && |launch| > 0
    requires host.findBinary(launch[0]) == Ok(binary)
    requires ProfileStep(cfg, locker, host) == step && step.path.Ok?
    ensures var full := [binary] + launch[1..]
                        + Group(table, cfg.browser, "headless", cfg.headless)
                        + Profile(table, cfg.browser, step.locker)
                        + Group(table, cfg.browser, "private_mode", cfg.privateMode);
            DefaultBrowserArgv(cfg, table, locker, host)
              == Run(Ok(full), WithLaunch(table, cfg.browser, full), step.locker, step.actions)
  {
  }

  /** `replace` of the placeholder in each of the firefox profile arguments. */
  lemma FirefoxProfileArgs(path: string)
    ensures ProfileArgs(FirefoxProfile, path) == ["--new-instance", "--profile", path]
  {
    FirefoxFlagsKept(path);
    OnlyPlaceholder(path);
    ProfileArgsOfThree("--new-instance", "--profile", ProfileDir, path);
    FirefoxProfileValue();
  }

  lemma FirefoxProfileValue()
    ensures FirefoxProfile == ["--new-instance", "--profile", ProfileDir]
  {
  }

  lemma FirefoxFlagsKept(path: string)
    ensures ReplaceAll("--new-instance", ProfileDir, path) == "--new-instance"
    ensures ReplaceAll("--profile", ProfileDir, path) == "--profile"
  {
    NoPlaceholder("--new-instance", path);
    NoPlaceholder("--profile", path);
  }

  lemma ProfileArgsOfThree(a: string, b: string, c: string, path: string)
    ensures ProfileArgs([a, b, c], path)
            == [ReplaceAll(a, ProfileDir, path), ReplaceAll(b, ProfileDir, path), ReplaceAll(c, ProfileDir, path)]
  {
  }

  /** An argument without `{` is kept as it is. */
  lemma NoPlaceholder(arg: string, path: string)
    requires '{' !in arg
    ensures ReplaceAll(arg, ProfileDir, path) == arg
  {
    FreeOfHead(arg, ProfileDir);
    ReplaceAllFree(arg, ProfileDir, path);
  }

  /** The bare placeholder becomes the path. */
  lemma OnlyPlaceholder(path: string)
    ensures ReplaceAll(ProfileDir, ProfileDir, path) == path
  {
    ReplaceAtEnd([], ProfileDir, path);
    assert [] + ProfileDir == ProfileDir;
  }

  /** `replace` of the placeholder in the chromium profile argument. */
  lemma ChromiumProfileArgs(path: string)
    ensures ProfileArgs(ChromiumProfile, path) == ["--user-data-dir=" + path]
  {
    ReplaceAtEnd("--user-data-dir=", ProfileDir, path);
  }

  /**
    With a temporary profile asked for, the firefox command line carries the
    profile home in place of the placeholder, between headless and private.
   */
  lemma FirefoxTempProfile(host: Host)
    requires host.findBinary == Itself
    ensures var run := DefaultBrowserArgv(Config("firefox", true, true, None, true), Browsers, Locker(None, None), host);
            var home := TempProfileHome(host.cacheDir, "firefox");
            && run.argv == Ok(["firefox", "--headless", "--new-instance", "--profile", home, "--private-window"])
            && run.actions == [MakeDirs(home)]
  {
    var cfg := Config("firefox", true, true, None, true);
    var home := TempProfileHome(host.cacheDir, "firefox");
    var locker := Locker(Some(home), None);
    FirefoxGroups();
    assert ProfileStep(cfg, Locker(None, None), host) == Step(Ok(home), locker, [MakeDirs(home)]);
    ArgvOfParts(cfg, Browsers, Locker(None, None), host, ["firefox"], "firefox", Step(Ok(home), locker, [MakeDirs(home)]));
    FirefoxProfileArgs(home);
    assert Profile(Browsers, "firefox", locker) == ["--new-instance", "--profile", home];
    assert ["firefox"] + [] + ["--headless"] + ["--new-instance", "--profile", home] + ["--private-window"]
        == ["firefox", "--headless", "--new-instance", "--profile", home, "--private-window"];
  }

  /**
    A configured profile wins over `temp_profile`: the profile directory is
    copied into the profile home, whatever `temp_profile` says.
   */
  lemma ProfileWins(cfg: Config, host: Host)
    requires Truthy(cfg.profile)
    requires JoinPath(host.liteDir, cfg.profile.value) in host.dirs
    requires TempProfileHome(host.cacheDir, cfg.browser) !in host.existing
    ensures var step := ProfileStep(cfg, Locker(None, None), host);
            && step.path == Ok(TempProfileHome(host.cacheDir, cfg.browser))
            && CopyTree(JoinPath(host.liteDir, cfg.profile.value), TempProfileHome(host.cacheDir, cfg.browser)) in step.actions
  {
  }
}

=== FILE: cacher.dfy ===
/**
  The caching proxy handler `CachingRemoteFiles`: a request for a path that is
  not yet in the cache fetches `remote/path`, rewrites the body by the rules
  whose URL pattern matches the path, and writes the result to the cache.

  Three variants of the handler are modelled: the retrying one
  (py/.../handlers/cacher.py), the single-fetch one with callable rewrites
  (src/.../handlers/cacher.py), and the single-fetch one that only knows
  byte replacements (py/.../lockers/handlers.py).
 */
module Cacher {
  import opened Py
  import opened Strings
  import opened Paths

  // ---------------------------------------------------------------------
  // Body rewrites.

  /** A replacement: bytes that replace the marker, a callable on the whole body, or anything else. */
  datatype Replacer = Literal(bytes: Bytes) | Transform(apply: Bytes -> Bytes) | Unsupported

  /** A marker and what to do when the body contains it. */
  datatype Rule = Rule(marker: Bytes, replacer: Replacer)

  /** The `rewrites` dict in insertion order: a URL pattern and its rules. */
  type Rewrites = seq<(string, seq<Rule>)>

  /**
    How a variant treats a replacement: `Callables` knows bytes and
    callables and raises NotImplementedError otherwise; `BytesOnly` passes
    every replacement to `bytes.replace`, which refuses anything but bytes.
   */
  datatype Dialect = Callables | BytesOnly

  /** One rule against the current body; a body without the marker is left alone. */
  function ApplyRule(body: Bytes, rule: Rule, dialect: Dialect): (r: Result<Bytes>)
    ensures !Contains(body, rule.marker) ==> r == Ok(body)
    ensures Contains(body, rule.marker) && rule.replacer.Literal? ==>
              r == Ok(ReplaceAll(body, rule.marker, rule.replacer.bytes))
    ensures Contains(body, rule.marker) && rule.replacer.Transform? ==>
              r == if dialect == Callables then Ok(rule.replacer.apply(body))
                   else Err(TypeError("a bytes-like object is required"))
    ensures Contains(body, rule.marker) && rule.replacer.Unsupported? ==>
              r.Err? && r.error == if dialect == Callables then NotImplementedError
                                  else TypeError("a bytes-like object is required")
  {
    if !Contains(body, rule.marker) then Ok(body)
    else match rule.replacer
      case Literal(bytes) => Ok(ReplaceAll(body, rule.marker, bytes))
      case Transform(f) =>
        if dialect == Callables then Ok(f(body)) else Err(TypeError("a bytes-like object is required"))
      case Unsupported =>
        if dialect == Callables then Err(NotImplementedError) else Err(TypeError("a bytes-like object is required"))
  }

  /** The rules of one pattern in order, each seeing the previous result; an error stops the loop. */
  function ApplyRules(body: Bytes, rules: seq<Rule>, dialect: Dialect): (r: Result<Bytes>)
    decreases |rules|
  {
    if |rules| == 0 then Ok(body)
    else
      match ApplyRule(body, rules[0], dialect)
      case Err(e) => Err(e)
      case Ok(next) => ApplyRules(next, rules[1..], dialect)
  }

  /** Every pattern in order: the rules of a pattern apply only when it searches the path. */
  function Rewrite(path: string, body: Bytes, rewrites: Rewrites, search: Regex, dialect: Dialect): (r: Result<Bytes>)
    decreases |rewrites|
  {
    if |rewrites| == 0 then Ok(body)
    else if !search(rewrites[0].0, path) then Rewrite(path, body, rewrites[1..], search, dialect)
    else
      match ApplyRules(body, rewrites[0].1, dialect)
      case Err(e) => Err(e)
      case Ok(next) => Rewrite(path, next, rewrites[1..], search, dialect)
  }

  /** `a` then `b` is `a`, then `b` on what `a` produced. */
  lemma {:induction false} ApplyRulesAppend(body: Bytes, a: seq<Rule>, b: seq<Rule>, dialect: Dialect)
    ensures ApplyRules(body, a + b, dialect)
            == match ApplyRules(body, a, dialect)
               case Err(e) => Err(e)
               case Ok(next) => ApplyRules(next, b, dialect)
    decreases |a|
  {
    if |a| == 0 {
      assert a + b == b;
    } else {
      assert (a + b)[1..] == a[1..] + b;
      match ApplyRule(body, a[0], dialect)
      case Err(e) =>
      case Ok(next) => ApplyRulesAppend(next, a[1..], b, dialect);
    }
  }

  /** A rule is applicable to a body when the body contains its marker. */
  predicate Inert(body: Bytes, rules: seq<Rule>) {
    forall i :: 0 <= i < |rules| ==> !Contains(body, rules[i].marker)
  }

  /** Rules none of which is applicable leave the body as it is. */
  lemma {:induction false} InertRules(body: Bytes, rules: seq<Rule>, dialect: Dialect)
    requires Inert(body, rules)
    ensures ApplyRules(body, rules, dialect) == Ok(body)
  {
    if |rules| > 0 {
      assert !Contains(body, rules[0].marker);
      InertRules(body, rules[1..], dialect);
    }
  }

  /**
    With no applicable rule, where applicable means the pattern searches the
    path and the fetched body contains the marker, the cached bytes are the
    fetched bytes.
   */
  lemma {:induction false} NothingApplies(path: string, body: Bytes, rewrites: Rewrites, search: Regex, dialect: Dialect)
    requires forall i :: 0 <= i < |rewrites| && search(rewrites[i].0, path) ==> Inert(body, rewrites[i].1)
    ensures Rewrite(path, body, rewrites, search, dialect) == Ok(body)
  {
    if |rewrites| > 0 {
      if search(rewrites[0].0, path) {
        InertRules(body, rewrites[0].1, dialect);
      }
      NothingApplies(path, body, rewrites[1..], search, dialect);
    }
  }

  /** Rules under a pattern that does not search the path never apply. */
  lemma {:induction false} UnmatchedPatterns(path: string, body: Bytes, rewrites: Rewrites, search: Regex, dialect: Dialect)
    requires forall i :: 0 <= i < |rewrites| ==> !search(rewrites[i].0, path)
    ensures Rewrite(path, body, rewrites, search, dialect) == Ok(body)
  {
    if |rewrites| > 0 {
      UnmatchedPatterns(path, body, rewrites[1..], search, dialect);
    }
  }

  // ---------------------------------------------------------------------
  // Fetching.

  /** What the remote answers to one request. */
  datatype Outcome = Body(bytes: Bytes) | Timeout | Failure(error: Exception)

  /** The answers to the first, second, ... request for the URL. */
  type Remote = nat -> Outcome

  /** The body or the error, how many requests were made, and the sleeps before them in seconds. */
  datatype Fetched = Fetched(body: Result<Bytes>, fetches: nat, sleeps: seq<nat>)

  function Pow2(n: nat): (r: nat)
    ensures r >= 1
  {
    if n == 0 then 1 else 2 * Pow2(n - 1)
  }

  /** The default number of attempts. */
  const DefaultRetries: int := 5

  /** `raise last_error`: raising None is itself a TypeError. */
  function Raise(last: Option<Exception>): (r: Result<Bytes>)
    ensures r.Err?
  {
    match last
    case None => Err(TypeError("exceptions must derive from BaseException"))
    case Some(e) => Err(e)
  }

  /** The attempts from `attempt` on: sleep `2**attempt`, then fetch; only a timeout is retried. */
  function FetchFrom(remote: Remote, retries: int, attempt: nat, last: Option<Exception>): (r: Fetched)
    ensures r.fetches <= if retries > attempt then retries - attempt else 0
    ensures |r.sleeps| == r.fetches
    ensures forall i :: 0 <= i < r.fetches ==> r.sleeps[i] == Pow2(attempt + i)
    ensures forall k :: attempt <= k < attempt + r.fetches - 1 ==> remote(k).Timeout?
    ensures r.body.Ok? ==> r.fetches > 0 && remote(attempt + r.fetches - 1) == Body(r.body.value)
    ensures r.fetches > 0 && remote(attempt + r.fetches - 1).Body? ==>
              r.body == Ok(remote(attempt + r.fetches - 1).bytes)
    ensures r.fetches > 0 && remote(attempt + r.fetches - 1).Failure? ==>
              r.body == Err(remote(attempt + r.fetches - 1).error)
    ensures attempt + r.fetches < retries ==> r.fetches > 0 && !remote(attempt + r.fetches - 1).Timeout?
    decreases retries - attempt
  {
    if attempt >= retries then Fetched(Raise(last), 0, [])
    else
      match remote(attempt)
      case Body(bytes) => Fetched(Ok(bytes), 1, [Pow2(attempt)])
      case Failure(e) => Fetched(Err(e), 1, [Pow2(attempt)])
      case Timeout =>
        var rest := FetchFrom(remote, retries, attempt + 1, Some(HTTPTimeoutError));
        Fetched(rest.body, rest.fetches + 1, [Pow2(attempt)] + rest.sleeps)
  }

  /** `fetch_body_with_retries`. */
  function FetchBodyWithRetries(remote: Remote, retries: int): Fetched {
    FetchFrom(remote, retries, 0, None)
  }

  /** A remote that times out `n` times and then answers succeeds after exactly `n + 1` requests. */
  lemma TimeoutsThenBody(remote: Remote, retries: int, n: nat, attempt: nat, last: Option<Exception>)
    requires attempt <= n < retries
    requires forall k :: attempt <= k < n ==> remote(k).Timeout?
    requires remote(n).Body?
    ensures FetchFrom(remote, retries, attempt, last).body == Ok(remote(n).bytes)
    ensures FetchFrom(remote, retries, attempt, last).fetches == n + 1 - attempt
  {
    StopsAtFirstNonTimeout(remote, retries, n, attempt, last);
  }

  /** The attempts stop at the first answer that is not a timeout. */
  lemma StopsAtFirstNonTimeout(remote: Remote, retries: int, n: nat, attempt: nat, last: Option<Exception>)
    requires attempt <= n < retries
    requires forall k :: attempt <= k < n ==> remote(k).Timeout?
    requires !remote(n).Timeout?
    ensures FetchFrom(remote, retries, attempt, last).fetches == n + 1 - attempt
  {
    var f := FetchFrom(remote, retries, attempt, last);
    assert f.fetches > 0;
    var l := attempt + f.fetches - 1;
    assert l <= n;
    assert l >= n;
  }

  /** With the default of five attempts: `n < 5` timeouts, then a body, is `n + 1` requests. */
  lemma RecoversAfterTimeouts(remote: Remote, n: nat)
    requires n < 5
    requires forall k :: 0 <= k < n ==> remote(k).Timeout?
    requires remote(n).Body?
    ensures var f := FetchBodyWithRetries(remote, DefaultRetries);
            f.body == Ok(remote(n).bytes) && f.fetches == n + 1
  {
    TimeoutsThenBody(remote, DefaultRetries, n, 0, None);
  }

  /** When every attempt times out, the last timeout is raised after `retries` requests. */
  lemma {:induction false} AllTimeouts(remote: Remote, retries: int, attempt: nat, last: Option<Exception>)
    requires attempt < retries
    requires forall k :: attempt <= k < retries ==> remote(k).Timeout?
    ensures FetchFrom(remote, retries, attempt, last).body == Err(HTTPTimeoutError)
    ensures FetchFrom(remote, retries, attempt, last).fetches == retries - attempt
    decreases retries - attempt
  {
    if attempt + 1 < retries {
      AllTimeouts(remote, retries, attempt + 1, Some(HTTPTimeoutError));
    }
  }

  /** With no attempts at all, `last_error` is still None and raising it is a TypeError. */
  lemma NoAttempts(remote: Remote, retries: int)
    requires retries <= 0
    ensures FetchBodyWithRetries(remote, retries)
            == Fetched(Err(TypeError("exceptions must derive from BaseException")), 0, [])
  {
  }

  /** Any other error propagates at once: no further request is made. */
  lemma FailureStops(remote: Remote, retries: int, n: nat, attempt: nat, last: Option<Exception>)
    requires attempt <= n < retries
    requires forall k :: attempt <= k < n ==> remote(k).Timeout?
    requires remote(n).Failure?
    ensures FetchFrom(remote, retries, attempt, last).body == Err(remote(n).error)
    ensures FetchFrom(remote, retries, attempt, last).fetches == n + 1 - attempt
  {
    StopsAtFirstNonTimeout(remote, retries, n, attempt, last);
  }

  function Sum(s: seq<nat>): nat {
    if |s| == 0 then 0 else s[0] + Sum(s[1..])
  }

  /** The sleeps `2**a, ..., 2**(a+n-1)` add up to `2**(a+n) - 2**a`. */
  lemma {:induction false} SleepTotal(s: seq<nat>, a: nat)
    requires forall i :: 0 <= i < |s| ==> s[i] == Pow2(a + i)
    ensures Sum(s) + Pow2(a) == Pow2(a + |s|)
    decreases |s|
  {
    if |s| > 0 {
      SleepTotal(s[1..], a + 1);
    }
  }

  /** Before attempt `k` the handler has slept `2**(k+1) - 1` seconds in all, the first sleep included. */
  lemma TotalSleep(remote: Remote, retries: int)
    ensures var f := FetchBodyWithRetries(remote, retries);
            Sum(f.sleeps) == Pow2(f.fetches) - 1
  {
    SleepTotal(FetchBodyWithRetries(remote, retries).sleeps, 0);
  }

  /** The single request of the variants without retry. */
  function FetchOnce(remote: Remote): (r: Fetched)
    ensures r.fetches == 1 && r.sleeps == []
    ensures remote(0).Body? <==> r.body.Ok?
    ensures r.body.Ok? ==> r.body.value == remote(0).bytes
    ensures remote(0).Timeout? ==> r.body == Err(HTTPTimeoutError)
    ensures remote(0).Failure? ==> r.body == Err(remote(0).error)
  {
    match remote(0)
    case Body(bytes) => Fetched(Ok(bytes), 1, [])
    case Timeout => Fetched(Err(HTTPTimeoutError), 1, [])
    case Failure(e) => Fetched(Err(e), 1, [])
  }

  /** The single request answers as the retrying fetch does when it may try only once. */
  lemma FetchOnceIsOneAttempt(remote: Remote)
    ensures FetchOnce(remote).body == FetchBodyWithRetries(remote, 1).body
    ensures FetchOnce(remote).fetches == FetchBodyWithRetries(remote, 1).fetches
  {
  }

  // ---------------------------------------------------------------------
  // Serving.

  /** Which of the three handlers. */
  datatype Variant = Retrying | SingleFetch | BytesRewrites

  /** The handler's configuration: its cache root, remote root and rewrites. */
  datatype Proxy = Proxy(root: string, remote: string, rewrites: Rewrites)

  /**
    What a GET did before serving from the cache: the URL fetched (if any),
    the requests made, whether the cached file was touched, the bytes
    written to it, and the error raised instead of serving.
   */
  datatype Served = Served(url: Option<string>, fetches: nat, touched: bool, written: Option<Bytes>, error: Option<Exception>)

  /** `root / path`. */
  function CachePath(p: Proxy, path: string): string {
    JoinPath(p.root, path)
  }

  /** The fetch a handler makes on a miss: with retries for the retrying handler, a single request otherwise. */
  function FetchOf(v: Variant, remote: Remote): Fetched {
    if v == Retrying then FetchBodyWithRetries(remote, DefaultRetries) else FetchOnce(remote)
  }

  /** The rewrite dialect a handler accepts: callables too, except in the bytes-only handler. */
  function DialectOf(v: Variant): Dialect {
    if v == BytesRewrites then BytesOnly else Callables
  }

  /**
    `CachingRemoteFiles.get`: a cache hit is served as it is (and touched by
    the two `cacher.py` handlers); a miss fetches, rewrites and writes first.
   */
  function Get(v: Variant, p: Proxy, path: string, existing: set<string>, remote: Remote, search: Regex): (r: Served)
    ensures CachePath(p, path) in existing <==> r.url.None?
    ensures r.url.None? ==> r.fetches == 0 && r.written.None? && r.error.None? && (r.touched <==> v != BytesRewrites)
    ensures r.url.Some? ==> r.url.value == p.remote + "/" + path && !r.touched
    ensures r.url.Some? && v != Retrying ==> r.fetches == 1
    ensures r.url.Some? && v == Retrying ==> 1 <= r.fetches <= DefaultRetries
    ensures r.url.Some? ==> (r.written.Some? <==> r.error.None?)
    ensures r.url.Some? ==> r.fetches == FetchOf(v, remote).fetches
    ensures r.url.Some? && FetchOf(v, remote).body.Err? ==> r.error == Some(FetchOf(v, remote).body.error)
    ensures r.url.Some? && FetchOf(v, remote).body.Ok? ==>
              var rewritten := Rewrite(path, FetchOf(v, remote).body.value, p.rewrites, search, DialectOf(v));
              && (rewritten.Ok? ==> r.written == Some(rewritten.value))
              && (rewritten.Err? ==> r.error == Some(rewritten.error))
  {
    if CachePath(p, path) in existing then Served(None, 0, v != BytesRewrites, None, None)
    else
      var fetched := FetchOf(v, remote);
      var url := Some(p.remote + "/" + path);
      match fetched.body
      case Err(e) => Served(url, fetched.fetches, false, None, Some(e))
      case Ok(body) =>
        match Rewrite(path, body, p.rewrites, search, DialectOf(v))
        case Err(e) => Served(url, fetched.fetches, false, None, Some(e))
        case Ok(out) => Served(url, fetched.fetches, false, Some(out), None)
  }

  /**
    A miss whose fetch succeeds writes the rewritten body, and with no
    applicable rule the fetched body itself.
   */
  lemma MissWritesFetched(v: Variant, p: Proxy, path: string, existing: set<string>, remote: Remote, search: Regex)
    requires CachePath(p, path) !in existing && v != Retrying
    requires remote(0).Body?
    requires forall i :: 0 <= i < |p.rewrites| && search(p.rewrites[i].0, path) ==> Inert(remote(0).bytes, p.rewrites[i].1)
    ensures Get(v, p, path, existing, remote, search).written == Some(remote(0).bytes)
  {
    NothingApplies(path, remote(0).bytes, p.rewrites, search, DialectOf(v));
  }

  /** The retrying handler recovers from `n < 5` timeouts and writes the answer it finally gets. */
  lemma RetryingMissRecovers(p: Proxy, path: string, existing: set<string>, remote: Remote, search: Regex, n: nat)
    requires CachePath(p, path) !in existing
    requires n < 5 && (forall k :: 0 <= k < n ==> remote(k).Timeout?) && remote(n).Body?
    requires forall i :: 0 <= i < |p.rewrites| ==> !search(p.rewrites[i].0, path)
    ensures var r := Get(Retrying, p, path, existing, remote, search);
            r.fetches == n + 1 && r.written == Some(remote(n).bytes)
  {
    RecoversAfterTimeouts(remote, n);
    UnmatchedPatterns(path, remote(n).bytes, p.rewrites, search, Callables);
  }
}

=== FILE: closure.dfy ===
/**
  Reachability in a dependency graph whose edges are given per name, and the
  worklist that collects every name reachable from a first set without
  passing through a leaf. Cycles are allowed: a name is classified once.
 */
module Closure {
  import opened Py

  /** The successors of each name that has an entry; a name without one has no edges. */
  type Graph = map<string, set<string>>

  /**
    A trail the worklist can follow, newest first: it never passes through a
    leaf, each name is a successor of the name after it, and the oldest name
    was in the first worklist.
   */
  ghost predicate IsTrail(g: Graph, leaf: set<string>, init: set<string>, p: seq<string>)
    decreases |p|
  {
    && |p| > 0
    && p[0] !in leaf
    && if |p| == 1 then p[0] in init
       else p[1] in g && p[0] in g[p[1]] && IsTrail(g, leaf, init, p[1..])
  }

  /** The worklist can reach `n` from the first worklist without passing a leaf. */
  ghost predicate Reachable(g: Graph, leaf: set<string>, init: set<string>, n: string) {
    exists p :: IsTrail(g, leaf, init, p) && p[0] == n
  }

  /** Every name the worklist can reach has an entry of its own. */
  ghost predicate AllReachableHaveEntries(g: Graph, leaf: set<string>, init: set<string>) {
    forall n :: Reachable(g, leaf, init, n) ==> n in g
  }

  lemma StartReachable(g: Graph, leaf: set<string>, init: set<string>, n: string)
    requires n in init && n !in leaf
    ensures Reachable(g, leaf, init, n)
  {
    assert IsTrail(g, leaf, init, [n]);
  }

  lemma ExtendReachable(g: Graph, leaf: set<string>, init: set<string>, n: string, m: string)
    requires Reachable(g, leaf, init, n) && n in g && m in g[n] && m !in leaf
    ensures Reachable(g, leaf, init, m)
  {
    var p :| IsTrail(g, leaf, init, p) && p[0] == n;
    var q := [m] + p;
    assert q[1..] == p;
    assert IsTrail(g, leaf, init, q);
  }

  /** Every trail starts in the first worklist. */
  lemma {:induction false} TrailOrigin(g: Graph, leaf: set<string>, init: set<string>, p: seq<string>)
    requires IsTrail(g, leaf, init, p)
    ensures p[|p| - 1] in init
    decreases |p|
  {
    if |p| > 1 {
      TrailOrigin(g, leaf, init, p[1..]);
    }
  }

  /** From an empty first worklist nothing is reachable. */
  lemma NothingFromEmpty(g: Graph, leaf: set<string>)
    ensures forall n :: !Reachable(g, leaf, {}, n)
  {
    forall n | Reachable(g, leaf, {}, n)
      ensures false
    {
      var p :| IsTrail(g, leaf, {}, p) && p[0] == n;
      TrailOrigin(g, leaf, {}, p);
    }
  }

  /** A set that holds the start and is closed under the edges holds every trail's head. */
  lemma {:induction false} ClosedHoldsTrail(g: Graph, leaf: set<string>, init: set<string>,
                                           dep: set<string>, p: seq<string>)
    requires init <= dep + leaf
    requires forall n :: n in dep ==> n in g && g[n] <= dep + leaf
    requires IsTrail(g, leaf, init, p)
    ensures p[0] in dep
    decreases |p|
  {
    if |p| > 1 {
      ClosedHoldsTrail(g, leaf, init, dep, p[1..]);
    }
  }

  /** Every reachable name lies in a set that holds the start and is closed. */
  lemma ReachableInClosed(g: Graph, leaf: set<string>, init: set<string>, dep: set<string>)
    requires init <= dep + leaf
    requires forall n :: n in dep ==> n in g && g[n] <= dep + leaf
    ensures forall n :: Reachable(g, leaf, init, n) ==> n in dep
  {
    forall n | Reachable(g, leaf, init, n)
      ensures n in dep
    {
      var p :| IsTrail(g, leaf, init, p) && p[0] == n;
      ClosedHoldsTrail(g, leaf, init, dep, p);
    }
  }

  /** Every name some entry points at: a bound on what the worklist can hold. */
  function Targets(g: Graph): (r: set<string>)
    ensures forall n :: n in g ==> g[n] <= r
  {
    set n, m | n in g && m in g[n] :: m
  }

  /**
    The worklist: pop any name; skip it when it is a leaf or already
    classified; otherwise look up its entry (a missing one raises KeyError),
    classify it and queue its successors. Which name is popped next is left
    open.
   */
  method Close(g: Graph, leaf: set<string>, init: set<string>) returns (r: Result<set<string>>)
    ensures r.Ok? ==> leaf !! r.value && r.value <= g.Keys
    ensures r.Ok? ==> forall n :: n in r.value <==> Reachable(g, leaf, init, n)
    ensures r.Ok? ==> init <= leaf + r.value
    ensures r.Ok? ==> forall n :: n in r.value ==> g[n] <= leaf + r.value
    ensures r.Err? ==> r.error.KeyError? && r.error.key !in g && Reachable(g, leaf, init, r.error.key)
    ensures AllReachableHaveEntries(g, leaf, init) ==> r.Ok?
  {
    ghost var universe := init + Targets(g);
    var work := init;
    var dep: set<string> := {};
    // for each name the worklist has held, a trail leading to it
    ghost var trail: map<string, seq<string>> := map n | n in init && n !in leaf :: [n];
    StartKeeps(g, leaf, init, universe, trail);
    while work != {}
      invariant WorkInv(g, leaf, init, universe, work, dep, trail)
      decreases |universe - dep|, |work|
    {
      var n :| n in work;
      if n in leaf || n in dep {
        SkipKeeps(g, leaf, init, universe, work, dep, trail, n);
        work := work - {n};
        continue;
      }
      if n !in g {
        assert IsTrail(g, leaf, init, trail[n]);
        return Err(KeyError(n));
      }
      Shrinks(universe, dep, n);
      ghost var trail' := ExtendTrails(g, leaf, init, trail, n);
      AddKeeps(g, leaf, init, universe, work, dep, trail, n, trail');
      work, dep, trail := work - {n} + g[n], dep + {n}, trail';
    }
    forall n | n in dep
      ensures Reachable(g, leaf, init, n)
    {
      assert IsTrail(g, leaf, init, trail[n]) && trail[n][0] == n;
    }
    ReachableInClosed(g, leaf, init, dep);
    r := Ok(dep);
  }

  /** The worklist loop's invariant. */
  ghost predicate WorkInv(g: Graph, leaf: set<string>, init: set<string>, universe: set<string>,
                          work: set<string>, dep: set<string>, trail: map<string, seq<string>>) {
    && work <= universe && dep <= universe
    && leaf !! dep && dep <= g.Keys
    && (forall n :: n in work && n !in leaf ==> n in trail)
    && (forall n :: n in dep ==> n in trail)
    && (forall n :: n in trail ==> IsTrail(g, leaf, init, trail[n]) && trail[n][0] == n)
    && init <= work + dep + leaf
    && (forall n :: n in dep ==> g[n] <= work + dep + leaf)
  }

  /** The invariant holds before the first pop. */
  lemma StartKeeps(g: Graph, leaf: set<string>, init: set<string>, universe: set<string>,
                   trail: map<string, seq<string>>)
    requires universe == init + Targets(g)
    requires trail == map n | n in init && n !in leaf :: [n]
    ensures WorkInv(g, leaf, init, universe, init, {}, trail)
  {
    forall n | n in trail
      ensures IsTrail(g, leaf, init, trail[n]) && trail[n][0] == n
    {
      assert trail[n] == [n];
    }
  }

  /** Popping a name that is already classified keeps the invariant. */
  lemma SkipKeeps(g: Graph, leaf: set<string>, init: set<string>, universe: set<string>,
                  work: set<string>, dep: set<string>, trail: map<string, seq<string>>, n: string)
    requires WorkInv(g, leaf, init, universe, work, dep, trail)
    requires n in work && (n in leaf || n in dep)
    ensures WorkInv(g, leaf, init, universe, work - {n}, dep, trail)
  {
    assert work + dep + leaf == (work - {n}) + dep + leaf;
  }

  /** Classifying a new name and queueing its successors keeps the invariant. */
  lemma AddKeeps(g: Graph, leaf: set<string>, init: set<string>, universe: set<string>,
                 work: set<string>, dep: set<string>, trail: map<string, seq<string>>, n: string,
                 trail': map<string, seq<string>>)
    requires WorkInv(g, leaf, init, universe, work, dep, trail)
    requires n in work && n !in leaf && n !in dep && n in g
    requires universe == init + Targets(g)
    requires trail.Keys <= trail'.Keys
    requires forall m :: m in g[n] && m !in leaf ==> m in trail'
    requires forall k :: k in trail' ==> IsTrail(g, leaf, init, trail'[k]) && trail'[k][0] == k
    ensures WorkInv(g, leaf, init, universe, work - {n} + g[n], dep + {n}, trail')
  {
    var work' := work - {n} + g[n];
    var dep' := dep + {n};
    GrowsCovered(work, dep, leaf, n, g[n]);
    assert g[n] <= universe;
    forall m | m in dep'
      ensures g[m] <= work' + dep' + leaf
    {
      if m != n {
        assert g[m] <= work + dep + leaf;
      }
    }
  }

  /** Moving `n` from the worklist to the classified set, and queueing `s`, loses nothing. */
  lemma GrowsCovered(work: set<string>, dep: set<string>, leaf: set<string>, n: string, s: set<string>)
    requires n in work
    ensures work + dep + leaf <= (work - {n} + s) + (dep + {n}) + leaf
    ensures s <= (work - {n} + s) + (dep + {n}) + leaf
  {
  }

  /** Records a trail to every new non-leaf successor of `n`, through `n`. */
  ghost function ExtendTrails(g: Graph, leaf: set<string>, init: set<string>,
                              trail: map<string, seq<string>>, n: string): (r: map<string, seq<string>>)
    requires n in g && n in trail && IsTrail(g, leaf, init, trail[n]) && trail[n][0] == n
    requires forall k :: k in trail ==> IsTrail(g, leaf, init, trail[k]) && trail[k][0] == k
    ensures trail.Keys <= r.Keys
    ensures forall m :: m in g[n] && m !in leaf ==> m in r
    ensures forall k :: k in r ==> IsTrail(g, leaf, init, r[k]) && r[k][0] == k
  {
    var added := map m | m in g[n] && m !in leaf && m !in trail :: [m] + trail[n];
    forall m | m in added
      ensures IsTrail(g, leaf, init, added[m])
    {
      assert added[m][1..] == trail[n];
    }
    trail + added
  }

  lemma Shrinks<T>(u: set<T>, s: set<T>, x: T)
    requires x in u && x !in s
    ensures |u - (s + {x})| < |u - s|
  {
    assert u - s == (u - (s + {x})) + {x};
  }

  /** The three-name chain `a -> b -> c`. */
  function Chain(): Graph {
    map["a" := {"b"}, "b" := {"c"}, "c" := {}]
  }

  /** With `a` as the leaf and `b` queued first, the worklist reaches exactly `b` and `c`. */
  lemma ChainReach()
    ensures forall n :: Reachable(Chain(), {"a"}, {"b"}, n) <==> n == "b" || n == "c"
  {
    StartReachable(Chain(), {"a"}, {"b"}, "b");
    ExtendReachable(Chain(), {"a"}, {"b"}, "b", "c");
    forall n | Reachable(Chain(), {"a"}, {"b"}, n)
      ensures n == "b" || n == "c"
    {
      var p :| IsTrail(Chain(), {"a"}, {"b"}, p) && p[0] == n;
      ChainTrailInBC(p);
    }
  }

  lemma {:induction false} ChainTrailInBC(p: seq<string>)
    requires IsTrail(Chain(), {"a"}, {"b"}, p)
    ensures p[0] == "b" || p[0] == "c"
    decreases |p|
  {
    if |p| > 1 {
      ChainTrailInBC(p[1..]);
    }
  }
}

=== FILE: collect.dfy ===
/**
  The browser locker's side of collecting the solved lock (the older
  `BrowserLocker`): mapping a served URL back to a local file, gathering the
  files a lock refers to, pointing each lock entry at a relative path, a copy
  beside the lock or the CDN, the micropip arguments the page receives, and
  the browser command line.
 */
module Collect {
  import opened Py
  import opened Strings
  import opened Paths
  import opened Json

  /** The URL segment under which the locker serves its proxies. */
  const Proxy: string := "_proxy"

  /** The stem of the lock file name, `pyodide-lock.json` up to its first `.`. */
  const LockFileStem: string := "pyodide-lock"

  /** `base_url`: the locker's own origin, `protocol://host:port`. */
  function BaseUrl(protocol: string, host: string, port: string): (r: string)
    ensures StartsWith(r, protocol + "://") && EndsWith(r, ":" + port)
  {
    var r := protocol + "://" + host + ":" + port;
    assert r == (protocol + "://") + (host + ":" + port);
    assert r == (protocol + "://" + host) + (":" + port);
    r
  }

  /**
    The local file a lock URL stands for when the locker served it: the part
    after the origin, in the cache when it lies under the proxy, else in the
    output directory. Both `replace` calls remove EVERY occurrence.
   */
  function FoundPath(baseUrl: string, cacheDir: string, outputDir: string, fileName: string): (r: Option<string>)
    ensures r.None? <==> !StartsWith(fileName, baseUrl)
    ensures r.Some? ==> StartsWith(r.value, cacheDir + "/") || StartsWith(r.value, outputDir + "/")
  {
    if StartsWith(fileName, baseUrl) then
      var stem := ReplaceAll(fileName, baseUrl + "/", "");
      if StartsWith(stem, Proxy) then
        Some(ChildUnder(cacheDir, ReplaceAll(stem, Proxy + "/", "")))
      else
        Some(ChildUnder(outputDir, stem))
    else
      None
  }

  /** `Child`, with the directory prefix made explicit. */
  function ChildUnder(dir: string, name: string): (r: string)
    ensures r == Child(dir, name) && StartsWith(r, dir + "/")
  {
    assert Child(dir, name) == (dir + "/") + name;
    Child(dir, name)
  }

  /** A sequence that starts with a non-empty `p` finds `p` at 0. */
  lemma FindAtStart<T>(s: seq<T>, p: seq<T>)
    requires StartsWith(s, p)
    ensures Find(s, p) == Some(0)
  {
    assert OccursAt(s, p, 0);
  }

  /** Removing every `p` from `p + rest`, where `rest` holds no `p`, leaves `rest`. */
  lemma RemovePrefix<T>(p: seq<T>, rest: seq<T>)
    requires |p| > 0 && Free(rest, p)
    ensures ReplaceAll(p + rest, p, []) == rest
  {
    var s := p + rest;
    assert s[..|p|] == p;
    FindAtStart(s, p);
    ReplaceStep(s, p, [], 0);
    assert s[|p|..] == rest;
    ReplaceAllFree(rest, p, []);
  }

  /** Replacing a leading `p` in `p + rest`, where `rest` holds no `p`, by `q` gives `q + rest`. */
  lemma ReplacePrefix<T>(p: seq<T>, rest: seq<T>, q: seq<T>)
    requires |p| > 0 && Free(rest, p)
    ensures ReplaceAll(p + rest, p, q) == q + rest
  {
    var s := p + rest;
    assert s[..|p|] == p;
    FindAtStart(s, p);
    ReplaceStep(s, p, q, 0);
    assert s[|p|..] == rest;
    ReplaceAllFree(rest, p, q);
  }

  /** A URL served from the output directory maps back to the file it was served from. */
  lemma FoundServedFile(baseUrl: string, cacheDir: string, outputDir: string, rest: string)
    requires Free(rest, baseUrl + "/") && !StartsWith(rest, Proxy)
    ensures FoundPath(baseUrl, cacheDir, outputDir, baseUrl + "/" + rest) == Some(Child(outputDir, rest))
  {
    var fileName := baseUrl + "/" + rest;
    assert fileName == (baseUrl + "/") + rest;
    assert StartsWith(fileName, baseUrl) by {
      assert fileName[..|baseUrl|] == baseUrl;
    }
    RemovePrefix(baseUrl + "/", rest);
  }

  /** A URL served through a proxy maps back to the cached file. */
  lemma FoundProxiedFile(baseUrl: string, cacheDir: string, outputDir: string, rest: string)
    requires Free(Proxy + "/" + rest, baseUrl + "/") && Free(rest, Proxy + "/")
    ensures FoundPath(baseUrl, cacheDir, outputDir, baseUrl + "/" + Proxy + "/" + rest)
            == Some(Child(cacheDir, rest))
  {
    var tail := Proxy + "/" + rest;
    var fileName := baseUrl + "/" + Proxy + "/" + rest;
    assert fileName == (baseUrl + "/") + tail;
    assert StartsWith(fileName, baseUrl) by {
      assert fileName[..|baseUrl|] == baseUrl;
    }
    RemovePrefix(baseUrl + "/", tail);
    assert StartsWith(tail, Proxy) by {
      assert tail[..|Proxy|] == Proxy;
    }
    assert tail == (Proxy + "/") + rest;
    RemovePrefix(Proxy + "/", rest);
  }

  /**
    The replacement is not anchored: an origin repeated inside the URL path is
    removed as well, so `u/x/u/y` under the origin `u` maps to `out/x/y`.
   */
  lemma InnerOriginRemoved()
    ensures FoundPath("u", "cache", "out", "u/x/u/y") == Some("out/x/y")
  {
    var s := "u/x/u/y";
    var t := "x/u/y";
    assert s[..1] == "u";
    assert Find(s, "u/") == Some(0) by {
      assert s[0..2] == "u/";
      FindAt(s, "u/", 0);
    }
    assert s[2..] == t;
    assert Find(t, "u/") == Some(2) by {
      assert t[0..2] == "x/" && t[1..3] == "/u" && t[2..4] == "u/";
      FindAt(t, "u/", 2);
    }
    ReplaceStep(s, "u/", "", 0);
    ReplaceStep(t, "u/", "", 2);
    assert t[4..] == "y";
    assert Free("y", "u/");
    ReplaceAllFree("y", "u/", "");
    assert ReplaceAll(s, "u/", "") == "x/y";
    assert "u" + "/" == "u/";
    assert !StartsWith("x/y", Proxy) by {
      assert |Proxy| == 6;
    }
    FoundInOutput("u", "cache", "out", s, "x/y");
    assert Child("out", "x/y") == "out/x/y";
  }

  /** The mapping of a URL whose remainder after the origin does not start with the proxy. */
  lemma FoundInOutput(baseUrl: string, cacheDir: string, outputDir: string, fileName: string, stem: string)
    requires StartsWith(fileName, baseUrl) && ReplaceAll(fileName, baseUrl + "/", "") == stem
    requires !StartsWith(stem, Proxy)
    ensures FoundPath(baseUrl, cacheDir, outputDir, fileName) == Some(Child(outputDir, stem))
  {
  }

  /** `collect_one_package`: at most the one existing file the entry's URL maps to, keyed by its name. */
  function CollectOnePackage(baseUrl: string, cacheDir: string, outputDir: string, onDisk: set<string>,
                             fileName: string): (r: map<string, string>)
    ensures |r| <= 1
    ensures forall k :: k in r ==> r[k] in onDisk && Name(r[k]) == k
    ensures r == map[] <==> FoundPath(baseUrl, cacheDir, outputDir, fileName).None?
                            || FoundPath(baseUrl, cacheDir, outputDir, fileName).value !in onDisk
    ensures r != map[] ==> FoundPath(baseUrl, cacheDir, outputDir, fileName).value in r.Values
  {
    var found := FoundPath(baseUrl, cacheDir, outputDir, fileName);
    if found.Some? && found.value in onDisk then
      var m := map[Name(found.value) := found.value];
      assert Name(found.value) in m;
      m
    else
      map[]
  }

  /** A lock entry as `json.loads` gives it: the package name and its fields. */
  type Entry = (string, map<string, Json>)

  /**
    What one entry contributes to `collect`: an entry without a string
    `file_name` raises inside the loop, which logs it and moves on.
   */
  function CollectEntry(baseUrl: string, cacheDir: string, outputDir: string, onDisk: set<string>,
                        e: Entry): (r: map<string, string>)
    ensures forall k :: k in r ==> r[k] in onDisk && Name(r[k]) == k
    ensures !("file_name" in e.1 && e.1["file_name"].JStr?) ==> r == map[]
  {
    if "file_name" in e.1 && e.1["file_name"].JStr? then
      CollectOnePackage(baseUrl, cacheDir, outputDir, onDisk, e.1["file_name"].s)
    else
      map[]
  }

  /** The per-entry results as `found.update` merges them: a later entry replaces an earlier one. */
  function Merge(ms: seq<map<string, string>>): (r: map<string, string>)
    decreases |ms|
  {
    if |ms| == 0 then map[] else Merge(ms[..|ms| - 1]) + ms[|ms| - 1]
  }

  /** Every merged name comes from some entry, with that entry's value. */
  lemma {:induction false} MergeFrom(ms: seq<map<string, string>>, k: string)
    requires k in Merge(ms)
    ensures exists j :: 0 <= j < |ms| && k in ms[j] && Merge(ms)[k] == ms[j][k]
    decreases |ms|
  {
    var n := |ms| - 1;
    if k !in ms[n] {
      MergeFrom(ms[..n], k);
      var j :| 0 <= j < n && k in ms[..n][j] && Merge(ms[..n])[k] == ms[..n][j][k];
      assert ms[..n][j] == ms[j];
    }
  }

  /** A name some entry contributes is merged, with the value of the last entry that contributes it. */
  lemma {:induction false} MergeLast(ms: seq<map<string, string>>, k: string, j: nat)
    requires j < |ms| && k in ms[j]
    requires forall j' :: j < j' < |ms| ==> k !in ms[j']
    ensures k in Merge(ms) && Merge(ms)[k] == ms[j][k]
    decreases |ms|
  {
    var n := |ms| - 1;
    if j < n {
      var init := ms[..n];
      assert init[j] == ms[j];
      assert forall j' :: j < j' < n ==> init[j'] == ms[j'];
      MergeLast(init, k, j);
    }
  }

  /** What each entry contributes, in lock order. */
  function Contributions(baseUrl: string, cacheDir: string, outputDir: string, onDisk: set<string>,
                         entries: seq<Entry>): (r: seq<map<string, string>>)
    ensures |r| == |entries|
    ensures forall i :: 0 <= i < |entries| ==> r[i] == CollectEntry(baseUrl, cacheDir, outputDir, onDisk, entries[i])
  {
    seq(|entries|, i requires 0 <= i < |entries| => CollectEntry(baseUrl, cacheDir, outputDir, onDisk, entries[i]))
  }

  /**
    `collect`: every collected name is an existing file's name, and it comes
    from the LAST entry that contributes that name.
   */
  function CollectAll(baseUrl: string, cacheDir: string, outputDir: string, onDisk: set<string>,
                      entries: seq<Entry>): (r: map<string, string>)
    ensures forall k :: k in r ==> r[k] in onDisk && Name(r[k]) == k
    ensures forall k, j :: 0 <= j < |entries| && k in CollectEntry(baseUrl, cacheDir, outputDir, onDisk, entries[j])
                           && (forall j' :: j < j' < |entries| ==> k !in CollectEntry(baseUrl, cacheDir, outputDir, onDisk, entries[j']))
                           ==> k in r && r[k] == CollectEntry(baseUrl, cacheDir, outputDir, onDisk, entries[j])[k]
  {
    var ms := Contributions(baseUrl, cacheDir, outputDir, onDisk, entries);
    var r := Merge(ms);
    forall k | k in r
      ensures r[k] in onDisk && Name(r[k]) == k
    {
      MergeFrom(ms, k);
    }
    forall k, j | 0 <= j < |entries| && k in CollectEntry(baseUrl, cacheDir, outputDir, onDisk, entries[j])
                  && (forall j' :: j < j' < |entries| ==> k !in CollectEntry(baseUrl, cacheDir, outputDir, onDisk, entries[j']))
      ensures k in r && r[k] == CollectEntry(baseUrl, cacheDir, outputDir, onDisk, entries[j])[k]
    {
      MergeLast(ms, k, j);
    }
    r
  }

  /** Only what some entry contributes is collected. */
  lemma CollectAllOnlyContributed(baseUrl: string, cacheDir: string, outputDir: string, onDisk: set<string>,
                                  entries: seq<Entry>, k: string)
    requires k in CollectAll(baseUrl, cacheDir, outputDir, onDisk, entries)
    ensures exists j :: 0 <= j < |entries| && k in CollectEntry(baseUrl, cacheDir, outputDir, onDisk, entries[j])
  {
    var ms := Contributions(baseUrl, cacheDir, outputDir, onDisk, entries);
    MergeFrom(ms, k);
  }

  /** Where `fix_one_package` points an entry, and the copy it makes, if any. */
  datatype Fix = Fix(fileName: string, copy: Option<(string, string)>)

  /**
    `fix_one_package`: a file found under the output root is referred to by a
    path relative to the lock (every occurrence of the root becomes `../..`);
    a file found elsewhere is copied beside the lock; a file not found is
    fetched from the CDN.
   */
  function FixOnePackage(root: string, lockDir: string, cdn: string, fileName: string,
                         found: Option<string>): (r: Fix)
    ensures r.copy.Some? <==> found.Some? && !StartsWith(found.value, root)
    ensures r.copy.Some? ==> r.copy.value == (found.value, Child(lockDir, fileName))
                             && r.fileName == "../../static/" + LockFileStem + "/" + fileName
    ensures found.None? ==> r.fileName == cdn + "/" + fileName
    ensures found.Some? && StartsWith(found.value, root) ==> r.fileName == ReplaceAll(found.value, root, "../..")
  {
    match found
    case Some(path) =>
      if StartsWith(path, root) then Fix(ReplaceAll(path, root, "../.."), None)
      else Fix("../../static/" + LockFileStem + "/" + fileName, Some((path, Child(lockDir, fileName))))
    case None => Fix(cdn + "/" + fileName, None)
  }

  /** A file under the output root is referred to relative to the lock's directory. */
  lemma FixUnderRoot(root: string, lockDir: string, cdn: string, fileName: string, rest: string)
    requires |root| > 0 && Free(rest, root)
    ensures FixOnePackage(root, lockDir, cdn, fileName, Some(root + rest)) == Fix("../.." + rest, None)
  {
    assert (root + rest)[..|root|] == root;
    ReplacePrefix(root, rest, "../..");
  }

  /** The lock entry with `file_name` replaced and every other field as it was. */
  function WithFileName(fields: map<string, Json>, fileName: string): (r: map<string, Json>)
    ensures r.Keys == fields.Keys + {"file_name"}
    ensures r["file_name"] == JStr(fileName)
    ensures forall k :: k in fields && k != "file_name" ==> r[k] == fields[k]
  {
    fields["file_name" := JStr(fileName)]
  }

  /** `fix_lock` looks an entry's file up by the last `/`-segment of its `file_name`. */
  function FoundFor(found: map<string, string>, fileName: string): (r: Option<string>)
    ensures r.Some? <==> LastSegment(fileName, "/") in found
    ensures r.Some? ==> r.value == found[LastSegment(fileName, "/")]
  {
    var key := LastSegment(fileName, "/");
    if key in found then Some(found[key]) else None
  }

  /** The entry has the string `file_name` that `fix_lock` reads. */
  predicate HasFileName(e: Entry) {
    "file_name" in e.1 && e.1["file_name"].JStr?
  }

  /**
    One pass of the `fix_lock` loop: the entry with its `file_name` fixed, and
    the copy made for it. A missing `file_name` raises KeyError and one that is
    not a string raises AttributeError.
   */
  function FixEntry(root: string, lockDir: string, cdn: string, found: map<string, string>,
                    e: Entry): (r: Result<(Entry, Option<(string, string)>)>)
    ensures r.Ok? <==> HasFileName(e)
    ensures r.Err? ==> r.error == KeyError("file_name") || r.error.AttributeError?
    ensures r.Ok? ==> var fix := FixOnePackage(root, lockDir, cdn, e.1["file_name"].s, FoundFor(found, e.1["file_name"].s));
                      r.value == ((e.0, WithFileName(e.1, fix.fileName)), fix.copy)
  {
    if "file_name" !in e.1 then Err(KeyError("file_name"))
    else if !e.1["file_name"].JStr? then Err(AttributeError("'file_name' is not a str"))
    else
      var fileName := e.1["file_name"].s;
      var fix := FixOnePackage(root, lockDir, cdn, fileName, FoundFor(found, fileName));
      Ok(((e.0, WithFileName(e.1, fix.fileName)), fix.copy))
  }

  /**
    `fix_lock`: every entry fixed in lock order, with the copies made; the
    first entry that cannot be fixed stops the loop with its exception.
   */
  function FixLock(root: string, lockDir: string, cdn: string, found: map<string, string>,
                   entries: seq<Entry>): (r: Result<(seq<Entry>, seq<(string, string)>)>)
    ensures r.Ok? <==> forall i :: 0 <= i < |entries| ==> HasFileName(entries[i])
    ensures r.Err? ==> r.error == KeyError("file_name") || r.error.AttributeError?
    ensures r.Ok? ==> |r.value.0| == |entries|
    ensures r.Ok? ==> forall i :: 0 <= i < |entries| ==>
                        r.value.0[i] == FixEntry(root, lockDir, cdn, found, entries[i]).value.0
    decreases |entries|
  {
    if |entries| == 0 then Ok(([], []))
    else
      var head := FixEntry(root, lockDir, cdn, found, entries[0]);
      if head.Err? then Err(head.error)
      else
        var rest := FixLock(root, lockDir, cdn, found, entries[1..]);
        FixLockTail(entries);
        if rest.Err? then Err(rest.error)
        else
          var copies := if head.value.1.Some? then [head.value.1.value] + rest.value.1 else rest.value.1;
          Ok(([head.value.0] + rest.value.0, copies))
  }

  lemma FixLockTail(entries: seq<Entry>)
    requires |entries| > 0
    ensures forall j :: 0 <= j < |entries| - 1 ==> entries[1..][j] == entries[j + 1]
  {
  }

  /** `_default_micropip_args`: the flags a caller may override. */
  const MicropipDefaults: map<string, Json> := map["pre" := JBool(false), "verbose" := JBool(true),
                                                   "keep_going" := JBool(true)]

  /** Each local package's path served from the locker's origin, then the specs. */
  function Requirements(outputDir: string, baseUrl: string, packages: seq<string>, specs: seq<string>): (r: seq<string>)
    ensures |r| == |packages| + |specs|
    ensures forall i :: 0 <= i < |packages| ==> r[i] == ReplaceFirst(packages[i], outputDir, baseUrl)
    ensures forall j :: 0 <= j < |specs| ==> r[|packages| + j] == specs[j]
  {
    seq(|packages|, i requires 0 <= i < |packages| => ReplaceFirst(packages[i], outputDir, baseUrl)) + specs
  }

  /** A package under the output directory is requested from the same place on the locker's origin. */
  lemma RequirementUnderOutput(outputDir: string, baseUrl: string, rest: string)
    requires |outputDir| > 0
    ensures ReplaceFirst(outputDir + rest, outputDir, baseUrl) == baseUrl + rest
  {
    var s := outputDir + rest;
    assert s[..|outputDir|] == outputDir;
    FindAtStart(s, outputDir);
    assert s[|outputDir|..] == rest;
  }

  /** The package index the page is pointed at: the locker's pypi proxy. */
  function IndexUrl(baseUrl: string): string {
    baseUrl + "/" + Proxy + "/pypi/{package_name}/json"
  }

  /**
    `_default_micropip_args`: the defaults, then the caller's extra arguments,
    then `requirements` and `index_urls`, which always win.
   */
  function MicropipArgs(extra: map<string, Json>, outputDir: string, baseUrl: string,
                        packages: seq<string>, specs: seq<string>): (r: map<string, Json>)
    ensures r.Keys == MicropipDefaults.Keys + extra.Keys + {"requirements", "index_urls"}
    ensures r["requirements"] == StrArr(Requirements(outputDir, baseUrl, packages, specs))
    ensures r["index_urls"] == StrArr([IndexUrl(baseUrl)])
    ensures forall k :: k in extra && k != "requirements" && k != "index_urls" ==> r[k] == extra[k]
    ensures forall k :: k in MicropipDefaults && k !in extra ==> r[k] == MicropipDefaults[k]
  {
    MicropipDefaults + extra
      + map["requirements" := StrArr(Requirements(outputDir, baseUrl, packages, specs)),
            "index_urls" := StrArr([IndexUrl(baseUrl)])]
  }

  /** The old locker's tables: launch command, and the flag groups per browser. */
  const Browsers: map<string, seq<string>> := map["firefox" := ["firefox"], "chromium" := ["chromium-browser"]]
  const HeadlessMode: map<string, seq<string>> := map["firefox" := ["--headless"], "chromium" := ["--headless"]]
  const PrivateMode: map<string, seq<string>> := map["firefox" := ["--private-window"], "chromium" := ["--incognito"]]
  const NewProfile: map<string, seq<string>> :=
    map["firefox" := ["--new-instance", "--profile", "."], "chromium" := ["--user-data-dir", "."]]

  /** A browser command line whose binary `shutil.which` may not have found. */
  datatype Argv = Argv(binary: Option<string>, args: seq<string>)

  /** A flag group, when its switch is on. */
  function Flags(on: bool, group: seq<string>): (r: seq<string>)
    ensures on ==> r == group
    ensures !on ==> r == []
  {
    if on then group else []
  }

  /**
    `_default_browser_argv`: the launch command with its binary looked up (as
    is, then with `.exe`), then the headless, private-mode and new-profile
    groups in that order. An unknown browser raises KeyError.
   */
  function LegacyArgv(browser: string, headless: bool, privateMode: bool, newProfile: bool,
                      which: Which): (r: Result<Argv>)
    ensures r.Err? <==> browser !in Browsers
    ensures r.Err? ==> r.error == KeyError(browser)
    ensures r.Ok? ==> var launch := Browsers[browser][0];
                      r.value.binary == (if which(launch).Some? then which(launch) else which(launch + ".exe"))
    ensures r.Ok? ==> r.value.args == Browsers[browser][1..] + Flags(headless, HeadlessMode[browser])
                                      + Flags(privateMode, PrivateMode[browser])
                                      + Flags(newProfile, NewProfile[browser])
  {
    if browser !in Browsers then Err(KeyError(browser))
    else
      var launch := Browsers[browser];
      assert |launch| > 0;
      var binary := if which(launch[0]).Some? then which(launch[0]) else which(launch[0] + ".exe");
      Ok(Argv(binary, launch[1..] + Flags(headless, HeadlessMode[browser])
                      + Flags(privateMode, PrivateMode[browser]) + Flags(newProfile, NewProfile[browser])))
  }

  /** Firefox with every switch on: headless, then private, then the new profile in the working directory. */
  lemma LegacyFirefoxAll(which: Which)
    ensures LegacyArgv("firefox", true, true, true, which).Ok?
    ensures LegacyArgv("firefox", true, true, true, which).value.args
            == ["--headless", "--private-window", "--new-instance", "--profile", "."]
  {
    assert Browsers["firefox"][1..] == [];
  }

  /** Each flag appears exactly when its switch is on, for both browsers. */
  lemma LegacyFlagsOnlyWhenOn(browser: string, headless: bool, privateMode: bool, newProfile: bool, which: Which)
    requires browser in Browsers
    ensures var args := LegacyArgv(browser, headless, privateMode, newProfile, which).value.args;
            && ("--headless" in args <==> headless)
            && (PrivateMode[browser][0] in args <==> privateMode)
            && ("." in args <==> newProfile)
  {
    assert Browsers[browser][1..] == [];
  }
}

=== FILE: dates.dfy ===
/**
  Upload dates of the package index and UNIX epochs: a date string is
  parsed by the first accepted format that fits, read as UTC, and its
  timestamp truncated to whole seconds; an epoch is formatted back with
  the output format. The format strings and `strptime`/`strftime`
  themselves are parameters.
 */
module Dates {
  import opened Py
  import opened Strings

  const MicrosPerSecond := 1_000_000

  type Micros = m: int | 0 <= m < 1_000_000

  /** A UTC instant: whole seconds since the epoch (rounded down) and the microseconds past them. */
  datatype Instant = Instant(seconds: int, micros: Micros)

  /** The instant in microseconds since the epoch. */
  function Total(t: Instant): int {
    t.seconds * MicrosPerSecond + t.micros
  }

  /** `datetime.strptime(text, format)`: an instant, or `None` where it raises `ValueError`. */
  type Parse = (string, string) -> Option<Instant>

  /** `datetime.strftime(format)` of an instant. */
  type Format = (Instant, string) -> string

  /** `int(dt.timestamp())`: the timestamp truncated toward zero, not rounded down. */
  function Truncate(t: Instant): (r: int)
    ensures Total(t) >= 0 ==> r * MicrosPerSecond <= Total(t) < (r + 1) * MicrosPerSecond
    ensures Total(t) < 0 ==> (r - 1) * MicrosPerSecond < Total(t) <= r * MicrosPerSecond
  {
    if t.seconds < 0 && t.micros > 0 then t.seconds + 1 else t.seconds
  }

  /** Earlier instants never give larger epochs. */
  lemma TruncateMonotone(a: Instant, b: Instant)
    requires Total(a) <= Total(b)
    ensures Truncate(a) <= Truncate(b)
  {
  }

  /** The `repr` of a tuple of strings free of quotes and backslashes: `('a', 'b')`, and `('a',)` for one. */
  function TupleRepr(items: seq<string>): string {
    var quoted := seq(|items|, i requires 0 <= i < |items| => "'" + items[i] + "'");
    if |items| == 1 then "(" + quoted[0] + ",)" else "(" + Join(quoted, ", ") + ")"
  }

  /** The message of the `ValueError` when no format fits: the text and the tuple of formats tried. */
  function NoFormat(text: string, formats: seq<string>): Exception {
    ValueError("'" + text + "' didn't match any of " + TupleRepr(formats))
  }

  /** The first format, in order, that parses `text`. */
  function FirstParse(text: string, formats: seq<string>, parse: Parse): (r: Option<(nat, Instant)>)
    ensures r.None? <==> forall i :: 0 <= i < |formats| ==> parse(text, formats[i]).None?
    ensures r.Some? ==> r.value.0 < |formats| && parse(text, formats[r.value.0]) == Some(r.value.1)
                        && forall j :: 0 <= j < r.value.0 ==> parse(text, formats[j]).None?
    decreases |formats|
  {
    if |formats| == 0 then None
    else
      match parse(text, formats[0])
      case Some(t) => Some((0, t))
      case None =>
        match FirstParse(text, formats[1..], parse)
        case None => None
        case Some((i, t)) => Some((i + 1, t))
  }

  /**
    `warehouse_date_to_epoch`: the truncated timestamp of the first parse
    that succeeds, or `ValueError` when every format raises.
   */
  function DateToEpoch(text: string, formats: seq<string>, parse: Parse): (r: Result<int>)
    ensures r.Err? <==> forall i :: 0 <= i < |formats| ==> parse(text, formats[i]).None?
    ensures r.Err? ==> r.error == NoFormat(text, formats)
    ensures r.Ok? ==> exists i :: 0 <= i < |formats| && parse(text, formats[i]).Some?
                                  && r.value == Truncate(parse(text, formats[i]).value)
                                  && forall j :: 0 <= j < i ==> parse(text, formats[j]).None?
  {
    match FirstParse(text, formats, parse)
    case None => Err(NoFormat(text, formats))
    case Some((_, t)) => Ok(Truncate(t))
  }

  /** `epoch_to_warehouse_date`: the whole-second UTC instant in the output format. */
  function EpochToDate(epoch: int, output: string, format: Format): (r: string)
  {
    format(Instant(epoch, 0), output)
  }

  /**
    Formatting an epoch and parsing it back gives the epoch, provided the
    output format is one of the accepted ones, parsing inverts formatting
    for it, and no accepted format before it reads the text differently.
   */
  lemma EpochRoundTrip(epoch: int, formats: seq<string>, output: string, parse: Parse, format: Format)
    requires output in formats
    requires parse(EpochToDate(epoch, output, format), output) == Some(Instant(epoch, 0))
    requires forall j :: 0 <= j < |formats| && formats[j] != output ==>
               var p := parse(EpochToDate(epoch, output, format), formats[j]);
               p.None? || p == Some(Instant(epoch, 0))
    ensures DateToEpoch(EpochToDate(epoch, output, format), formats, parse) == Ok(epoch)
  {
    var text := EpochToDate(epoch, output, format);
    var i :| 0 <= i < |formats| && formats[i] == output;
    assert parse(text, formats[i]).Some?;
    var first := FirstParse(text, formats, parse);
    assert first.Some?;
    assert first.value.1 == Instant(epoch, 0);
  }

  /** Fractional seconds are dropped: `...:29.801655Z` and `...:29Z` give the same epoch (after 1970). */
  lemma FractionDropped(seconds: nat, micros: Micros)
    ensures Truncate(Instant(seconds, micros)) == Truncate(Instant(seconds, 0)) == seconds
  {
  }

  /** Before 1970 truncation moves toward zero: 1.5 seconds before the epoch gives -1, not -2. */
  lemma NegativeTowardZero()
    ensures Truncate(Instant(-2, 500_000)) == -1
  {
  }
}

=== FILE: deps.dfy ===
/**
  `fix_deps` of `fix-deps.py`: the downstream `pyproject.toml` pins its
  dependency on the upstream project to the upstream's version.
 */
module Deps {
  import opened Py
  import opened Strings

  /** `f"{up_name} =={up_version}"`. */
  function Pin(name: string, version: string): string {
    name + " ==" + version
  }

  /** `spec.split(" ")[0]`: the text before the first space. */
  function Head(spec: string): (r: string)
    ensures StartsWith(spec, r) && ' ' !in r
    ensures |r| < |spec| ==> spec[|r|] == ' '
  {
    var f := Find(spec, " ");
    if f.None? then
      SplitNone(spec, " ");
      FreeSingle(spec, ' ');
      Split(spec, " ")[0]
    else
      SplitStep(spec, " ", f.value);
      FindFirstAt(spec, " ", f.value);
      FirstSpace(spec, f.value);
      Split(spec, " ")[0]
  }

  lemma FirstSpace(spec: string, i: nat)
    requires FirstAt(spec, " ", i)
    ensures i < |spec| && spec[i] == ' ' && ' ' !in spec[..i]
  {
    OccursAtSingle(spec, ' ', i);
    forall j | 0 <= j < i ensures spec[..i][j] != ' ' {
      OccursAtSingle(spec, ' ', j);
    }
  }

  /** The text before the first space is the name exactly when the spec is the name, or the name and a space. */
  lemma HeadIs(spec: string, name: string)
    requires ' ' !in name
    ensures Head(spec) == name <==> spec == name || StartsWith(spec, name + " ")
  {
    var h := Head(spec);
    if StartsWith(spec, name + " ") {
      assert spec[..|name|] == name && spec[|name|] == ' ';
      assert |h| == |name|;
      assert h == spec[..|h|];
    }
    if spec == name {
      assert h == spec[..|h|];
    }
    if h == name && spec != name {
      assert spec[..|name| + 1] == name + " ";
    }
  }

  /** The index of the first dependency whose leading token is the name. */
  function FirstMatch(deps: seq<string>, name: string): (r: Option<nat>)
    ensures r.Some? ==> r.value < |deps| && Head(deps[r.value]) == name
    ensures r.Some? ==> forall j :: 0 <= j < r.value ==> Head(deps[j]) != name
    ensures r.None? ==> forall j :: 0 <= j < |deps| ==> Head(deps[j]) != name
    decreases |deps|
  {
    if |deps| == 0 then None
    else if Head(deps[0]) == name then Some(0)
    else
      match FirstMatch(deps[1..], name)
      case None => None
      case Some(i) => Some(i + 1)
  }

  /** The exit code, and the dependency list written back, if anything was written. */
  datatype Fixed = Fixed(code: int, written: Option<seq<string>>)

  /**
    `fix_deps`: the first dependency named after the upstream project is
    replaced by the pin (and the file written) unless it already is the pin;
    the exit code is 0 when such a dependency exists and 1 otherwise.
   */
  function FixDeps(name: string, version: string, deps: seq<string>): (r: Fixed)
    ensures r.code == 0 <==> exists i :: 0 <= i < |deps| && Head(deps[i]) == name
    ensures r.code == 1 <==> r.code != 0
    ensures r.code == 1 ==> r.written.None?
    ensures r.written.Some? ==>
              var i := FirstMatch(deps, name).value;
              deps[i] != Pin(name, version) && r.written.value == deps[i := Pin(name, version)]
    ensures r.code == 0 && r.written.None? ==> Pin(name, version) in deps
  {
    match FirstMatch(deps, name)
    case None => Fixed(1, None)
    case Some(i) =>
      if deps[i] != Pin(name, version) then Fixed(0, Some(deps[i := Pin(name, version)]))
      else Fixed(0, None)
  }

  /** Exactly one dependency is replaced, the first named after the project; the others stay. */
  lemma OnlyFirstReplaced(name: string, version: string, deps: seq<string>)
    requires FixDeps(name, version, deps).written.Some?
    ensures var after := FixDeps(name, version, deps).written.value;
            |after| == |deps| &&
            (forall j :: 0 <= j < |deps| && after[j] != deps[j] ==> after[j] == Pin(name, version) && Head(deps[j]) == name) &&
            (forall j :: 0 <= j < |deps| && after[j] != deps[j] ==> forall k :: 0 <= k < j ==> Head(deps[k]) != name)
  {
  }

  /** Running again on what was written finds the pin and writes nothing. */
  lemma {:induction false} RerunWritesNothing(name: string, version: string, deps: seq<string>)
    requires ' ' !in name
    requires FixDeps(name, version, deps).written.Some?
    ensures FixDeps(name, version, FixDeps(name, version, deps).written.value) == Fixed(0, None)
  {
    var i := FirstMatch(deps, name).value;
    var after := deps[i := Pin(name, version)];
    HeadIs(Pin(name, version), name);
    assert StartsWith(Pin(name, version), name + " ") by {
      assert Pin(name, version)[..|name| + 1] == name + " ";
    }
    assert Head(after[i]) == name;
    assert FirstMatch(after, name) == Some(i) by {
      FirstMatchAt(after, name, i);
    }
  }

  lemma {:induction false} FirstMatchAt(deps: seq<string>, name: string, i: nat)
    requires i < |deps| && Head(deps[i]) == name
    requires forall j :: 0 <= j < i ==> Head(deps[j]) != name
    ensures FirstMatch(deps, name) == Some(i)
    decreases i
  {
    if i > 0 {
      FirstMatchAt(deps[1..], name, i - 1);
    }
  }
}

=== FILE: dicts.dfy ===
/**
  Python dicts with string keys, in insertion order: `d[k] = v` keeps the
  position of a key already present and appends a new one, and
  `d.update(e)` assigns the entries of `e` in order.
 */
module Dicts {
  import opened Py

  type Dict<V> = seq<(string, V)>

  /** Every key occurs once. */
  ghost predicate Distinct<V>(d: Dict<V>) {
    forall i, j :: 0 <= i < j < |d| ==> d[i].0 != d[j].0
  }

  function Keys<V>(d: Dict<V>): (r: set<string>)
    ensures forall i :: 0 <= i < |d| ==> d[i].0 in r
  {
    if |d| == 0 then {} else {d[0].0} + Keys(d[1..])
  }

  /** `d.get(k)`: the value of the first entry with key `k`. */
  function Get<V>(d: Dict<V>, k: string): (r: Option<V>)
    ensures r.None? <==> k !in Keys(d)
  {
    if |d| == 0 then None else if d[0].0 == k then Some(d[0].1) else Get(d[1..], k)
  }

  lemma {:induction false} NotInKeys<V>(d: Dict<V>, k: string)
    requires forall i :: 0 <= i < |d| ==> d[i].0 != k
    ensures k !in Keys(d)
  {
    if |d| > 0 {
      NotInKeys(d[1..], k);
    }
  }

  /** `d[k] = v`. */
  function Put<V>(d: Dict<V>, k: string, v: V): (r: Dict<V>)
    ensures Keys(r) == Keys(d) + {k}
    ensures k in Keys(d) ==> |r| == |d| && forall i :: 0 <= i < |d| ==> r[i].0 == d[i].0
    ensures k !in Keys(d) ==> r == d + [(k, v)]
  {
    if |d| == 0 then [(k, v)]
    else if d[0].0 == k then
      KeysCons((k, v), d[1..]);
      [(k, v)] + d[1..]
    else
      var rest := Put(d[1..], k, v);
      KeysCons(d[0], rest);
      [d[0]] + rest
  }

  lemma KeysCons<V>(x: (string, V), rest: Dict<V>)
    ensures Keys([x] + rest) == {x.0} + Keys(rest)
  {
    assert ([x] + rest)[1..] == rest;
  }

  /** After `d[k] = v` the key `k` has the value `v` and every other key keeps its own. */
  lemma {:induction false} GetPut<V>(d: Dict<V>, k: string, v: V, k': string)
    ensures Get(Put(d, k, v), k') == if k' == k then Some(v) else Get(d, k')
  {
    if |d| > 0 && d[0].0 != k {
      GetPut(d[1..], k, v, k');
    }
  }

  /** `d.update(e)`. */
  function Update<V>(d: Dict<V>, e: Dict<V>): (r: Dict<V>)
    ensures Keys(r) == Keys(d) + Keys(e)
    decreases |e|
  {
    if |e| == 0 then d else Update(Put(d, e[0].0, e[0].1), e[1..])
  }

  /** After `d.update(e)` a key of `e` has its value in `e`, and any other key its value in `d`. */
  lemma {:induction false} GetUpdate<V>(d: Dict<V>, e: Dict<V>, k: string)
    requires Distinct(e)
    ensures Get(Update(d, e), k) == if k in Keys(e) then Get(e, k) else Get(d, k)
    decreases |e|
  {
    if |e| > 0 {
      assert Distinct(e[1..]);
      GetUpdate(Put(d, e[0].0, e[0].1), e[1..], k);
      GetPut(d, e[0].0, e[0].1, k);
      if k == e[0].0 {
        forall i | 0 <= i < |e[1..]| ensures e[1..][i].0 != k {
          assert e[1..][i] == e[i + 1];
        }
        NotInKeys(e[1..], k);
      }
    }
  }

  /** `d.update(e)` keeps the keys of `d` first, in their order. */
  lemma {:induction false} UpdateKeepsOrder<V>(d: Dict<V>, e: Dict<V>)
    ensures |Update(d, e)| >= |d|
    ensures forall i :: 0 <= i < |d| ==> Update(d, e)[i].0 == d[i].0
    decreases |e|
  {
    if |e| > 0 {
      var d' := Put(d, e[0].0, e[0].1);
      UpdateKeepsOrder(d', e[1..]);
      assert forall i :: 0 <= i < |d| ==> d'[i].0 == d[i].0;
    }
  }

  /** A key is a key of the dict exactly when some entry carries it. */
  lemma {:induction false} KeysIn<V>(d: Dict<V>, k: string)
    ensures k in Keys(d) <==> exists i :: 0 <= i < |d| && d[i].0 == k
  {
    if |d| > 0 && k in Keys(d[1..]) {
      KeysIn(d[1..], k);
      var i :| 0 <= i < |d[1..]| && d[1..][i].0 == k;
      assert d[i + 1].0 == k;
    }
  }

  /** A dict has one key per entry exactly when its keys are distinct. */
  lemma {:induction false} KeysCount<V>(d: Dict<V>)
    ensures |Keys(d)| <= |d|
    ensures Distinct(d) <==> |Keys(d)| == |d|
  {
    if |d| > 0 {
      var rest := d[1..];
      KeysCount(rest);
      KeysIn(rest, d[0].0);
      if d[0].0 in Keys(rest) {
        var i :| 0 <= i < |rest| && rest[i].0 == d[0].0;
        assert d[0].0 == d[i + 1].0;
      } else {
        assert Distinct(d) <==> Distinct(rest) by {
          if Distinct(rest) {
            forall i, j | 0 <= i < j < |d| ensures d[i].0 != d[j].0 {
              if i > 0 {
                assert d[i].0 == rest[i - 1].0 && d[j].0 == rest[j - 1].0;
              }
            }
          }
          if Distinct(d) {
            forall i, j | 0 <= i < j < |rest| ensures rest[i].0 != rest[j].0 {
              assert rest[i] == d[i + 1] && rest[j] == d[j + 1];
            }
          }
        }
      }
    }
  }

  /** In a dict with distinct keys, the value of an entry is what `get` finds for its key. */
  lemma {:induction false} GetOfEntry<V>(d: Dict<V>, k: string, v: V)
    requires Distinct(d) && (k, v) in d
    ensures Get(d, k) == Some(v)
  {
    if d[0] != (k, v) {
      var i :| 0 <= i < |d| && d[i] == (k, v);
      assert d[1..][i - 1] == (k, v);
      assert Distinct(d[1..]) by {
        forall a, b | 0 <= a < b < |d[1..]| ensures d[1..][a].0 != d[1..][b].0 {
          assert d[1..][a] == d[a + 1] && d[1..][b] == d[b + 1];
        }
      }
      GetOfEntry(d[1..], k, v);
    }
  }

  /** What `get` finds is the value of some entry. */
  lemma {:induction false} GetIsEntry<V>(d: Dict<V>, k: string)
    requires Get(d, k).Some?
    ensures (k, Get(d, k).value) in d
  {
    if d[0].0 != k {
      GetIsEntry(d[1..], k);
    }
  }

  /**
    A reordering of a dict with distinct keys (as `dict(sorted(d.items()))`
    makes) still has distinct keys, and every key keeps its value.
   */
  lemma Reordered<V>(d: Dict<V>, r: Dict<V>)
    requires Distinct(d) && multiset(r) == multiset(d)
    ensures Distinct(r)
    ensures forall k :: Get(r, k) == Get(d, k)
  {
    assert |r| == |d| by {
      assert |multiset(r)| == |r| && |multiset(d)| == |d|;
    }
    forall k ensures k in Keys(r) <==> k in Keys(d) {
      KeysIn(r, k);
      KeysIn(d, k);
      if k in Keys(r) {
        var i :| 0 <= i < |r| && r[i].0 == k;
        assert r[i] in multiset(d);
      }
      if k in Keys(d) {
        var i :| 0 <= i < |d| && d[i].0 == k;
        assert d[i] in multiset(r);
      }
    }
    assert Keys(r) == Keys(d);
    KeysCount(d);
    KeysCount(r);
    forall k ensures Get(r, k) == Get(d, k) {
      if Get(d, k).Some? {
        GetIsEntry(d, k);
        assert (k, Get(d, k).value) in multiset(r);
        GetOfEntry(r, k, Get(d, k).value);
      }
    }
  }

  /** `d[k] = v` keeps the keys distinct, and every entry is an old one or the new one. */
  lemma {:induction false} PutEntries<V>(d: Dict<V>, k: string, v: V)
    ensures Distinct(d) ==> Distinct(Put(d, k, v))
    ensures forall i :: 0 <= i < |Put(d, k, v)| ==> Put(d, k, v)[i] in d || Put(d, k, v)[i] == (k, v)
  {
    if |d| > 0 && d[0].0 != k {
      PutEntries(d[1..], k, v);
      var rest := Put(d[1..], k, v);
      assert Put(d, k, v) == [d[0]] + rest;
      forall i | 0 < i < |Put(d, k, v)| ensures Put(d, k, v)[i] == rest[i - 1] { }
      forall x | x in d[1..] ensures x in d { }
    }
    if |d| > 0 && d[0].0 == k {
      assert Put(d, k, v) == [(k, v)] + d[1..];
      forall x | x in d[1..] ensures x in d { }
    }
  }

  /** `d.values()`, in insertion order. */
  function Values<V>(d: Dict<V>): (r: seq<V>)
    ensures |r| == |d| && forall i :: 0 <= i < |d| ==> r[i] == d[i].1
  {
    seq(|d|, i requires 0 <= i < |d| => d[i].1)
  }
}

=== FILE: fixhtml.dfy ===
/**
  The HTML fix-up addons: relative `./` URLs inside a page's
  `jupyter-config-data` script are re-rooted at the output directory, and
  (in `FixHtmlAddon`) relative `href`/`src` links to missing files are
  redirected by the first matching `rewrite_missing` pattern.

  A page is given already split into the matches of the two patterns and
  the text between them; the regular expressions themselves, `json.loads`
  and `json.dumps` are parameters of the model.
 */
module FixHtml {
  import opened Py
  import opened Strings
  import opened Json
  import opened Dicts
  import Mime

  /** An element of a Python set, as far as a `key in ignore_attributes` test sees one. */
  datatype Member = Str(s: string) | Tuple(items: seq<string>)

  /** The declared default of `ignore_attributes`. */
  const DefaultIgnore: seq<string> := ["licensesUrl", "themesUrl", "federated_extensions"]

  /** What `v.startswith("./")` raises on a list element that is not a string. */
  const NoStartswith := AttributeError("object has no attribute 'startswith'")

  /** What `config_dict.items()` raises when the parsed page config is not an object. */
  const NoItems := AttributeError("object has no attribute 'items'")

  /**
    `{self.ignore_attributes, self.extra_ignore_attributes}` as written: a
    set holding the two tuples, so no key string is ever a member.
   */
  function IgnoreSet(ignore: seq<string>, extra: seq<string>): (r: set<Member>)
    ensures forall key :: Str(key) !in r
    ensures Tuple(ignore) in r && Tuple(extra) in r
  {
    {Tuple(ignore), Tuple(extra)}
  }

  /** The ignore set the declared defaults call for: every listed attribute name. */
  function IgnoreSetIntended(ignore: seq<string>, extra: seq<string>): (r: set<Member>)
    ensures forall key :: Str(key) in r <==> key in ignore || key in extra
    ensures forall m :: m in r ==> m.Str?
  {
    set key | key in ignore + extra :: Str(key)
  }

  /** The rewrite of one URL string: a leading `./` is replaced by the prefix. */
  function Relative(prefix: string, s: string): (r: string)
    ensures StartsWith(s, "./") ==> r == prefix + s[2..]
    ensures !StartsWith(s, "./") ==> r == s
  {
    if StartsWith(s, "./") then prefix + s[2..] else s
  }

  /** The comprehension over a `*Urls` list: every element must be a string. */
  function FixList(items: seq<Json>, prefix: string): (r: Result<seq<Json>>)
    ensures r.Ok? <==> forall i :: 0 <= i < |items| ==> items[i].JStr?
    ensures r.Err? ==> r.error == NoStartswith
    ensures r.Ok? ==> |r.value| == |items|
                      && forall i :: 0 <= i < |items| ==> r.value[i] == JStr(Relative(prefix, items[i].s))
  {
    if forall i :: 0 <= i < |items| ==> items[i].JStr? then
      Ok(seq(|items|, i requires 0 <= i < |items| => JStr(Relative(prefix, items[i].s))))
    else
      Err(NoStartswith)
  }

  /**
    `_fix_relative_config_urls` on one object: each entry is rewritten on
    its own (assigning to an existing key does not disturb the iteration),
    and any failing entry fails the whole object.
   */
  function FixObject(fields: map<string, Json>, prefix: string, ignore: set<Member>): (r: Result<map<string, Json>>)
    ensures r.Ok? <==> forall k :: k in fields ==> FixValue(k, fields[k], prefix, ignore).Ok?
    ensures r.Err? ==> r.error == NoStartswith
    ensures r.Ok? ==> r.value.Keys == fields.Keys
                      && forall k :: k in fields ==> FixValue(k, fields[k], prefix, ignore) == Ok(r.value[k])
    decreases JObj(fields), 0
  {
    if exists k :: k in fields && FixValue(k, fields[k], prefix, ignore).Err? then
      Err(NoStartswith)
    else
      Ok(map k | k in fields :: FixValue(k, fields[k], prefix, ignore).value)
  }

  /**
    One entry: an ignored key is skipped; an object is rewritten
    recursively; a `*Url` string and the strings of a `*Urls` list are made
    relative; anything else is left alone.
   */
  function FixValue(key: string, value: Json, prefix: string, ignore: set<Member>): (r: Result<Json>)
    ensures Str(key) in ignore ==> r == Ok(value)
    ensures r.Err? ==> r.error == NoStartswith
    ensures value.JNull? || value.JBool? || value.JInt? ==> r == Ok(value)
    ensures Str(key) !in ignore && value.JStr? ==>
              r == Ok(if EndsWith(key, "Url") then JStr(Relative(prefix, value.s)) else value)
    ensures Str(key) !in ignore && value.JArr? && !EndsWith(key, "Urls") ==> r == Ok(value)
    ensures Str(key) !in ignore && value.JArr? && EndsWith(key, "Urls") ==>
              r == (var f := FixList(value.items, prefix); if f.Ok? then Ok(JArr(f.value)) else Err(f.error))
    ensures Str(key) !in ignore && value.JObj? ==>
              r == (var f := FixObject(value.fields, prefix, ignore); if f.Ok? then Ok(JObj(f.value)) else Err(f.error))
    decreases value, 1
  {
    if Str(key) in ignore then Ok(value)
    else
      match value
      case JObj(fields) =>
        var fixed :- FixObject(fields, prefix, ignore);
        Ok(JObj(fixed))
      case JStr(s) =>
        Ok(if EndsWith(key, "Url") then JStr(Relative(prefix, s)) else value)
      case JArr(items) =>
        if EndsWith(key, "Urls") then
          var fixed :- FixList(items, prefix);
          Ok(JArr(fixed))
        else Ok(value)
      case _ => Ok(value)
  }

  /** Two trees with the same constructors, object keys and array lengths everywhere. */
  predicate SameShape(a: Json, b: Json)
    decreases a
  {
    match a
    case JObj(fa) =>
      b.JObj? && fa.Keys == b.fields.Keys && forall k :: k in fa ==> SameShape(fa[k], b.fields[k])
    case JArr(xa) =>
      b.JArr? && |xa| == |b.items| && forall i :: 0 <= i < |xa| ==> SameShape(xa[i], b.items[i])
    case JStr(_) => b.JStr?
    case _ => a == b
  }

  /** Somewhere below `key`, a `*Urls` list that is not ignored holds a non-string. */
  predicate BadValue(key: string, value: Json, ignore: set<Member>)
    decreases value, 1
  {
    Str(key) !in ignore &&
    match value
    case JObj(fields) => BadObject(fields, ignore)
    case JArr(items) => EndsWith(key, "Urls") && exists i :: 0 <= i < |items| && !items[i].JStr?
    case _ => false
  }

  predicate BadObject(fields: map<string, Json>, ignore: set<Member>)
    decreases JObj(fields), 0
  {
    exists k :: k in fields && BadValue(k, fields[k], ignore)
  }

  /** Every value's shape survives the rewrite: only strings change, and no key is added or lost. */
  lemma {:induction false} FixKeepsShape(key: string, value: Json, prefix: string, ignore: set<Member>)
    requires FixValue(key, value, prefix, ignore).Ok?
    ensures SameShape(value, FixValue(key, value, prefix, ignore).value)
    decreases value, 1
  {
    SameShapeRefl(value);
    if Str(key) !in ignore && value.JObj? {
      FixObjectKeepsShape(value.fields, prefix, ignore);
    }
  }

  lemma {:induction false} FixObjectKeepsShape(fields: map<string, Json>, prefix: string, ignore: set<Member>)
    requires FixObject(fields, prefix, ignore).Ok?
    ensures SameShape(JObj(fields), JObj(FixObject(fields, prefix, ignore).value))
    decreases JObj(fields), 0
  {
    var fixed := FixObject(fields, prefix, ignore).value;
    forall k | k in fields
      ensures SameShape(fields[k], fixed[k])
    {
      FixKeepsShape(k, fields[k], prefix, ignore);
    }
  }

  lemma {:induction false} SameShapeRefl(a: Json)
    ensures SameShape(a, a)
    decreases a
  {
    match a
    case JObj(fa) =>
      forall k | k in fa
        ensures SameShape(fa[k], fa[k])
      {
        SameShapeRefl(fa[k]);
      }
    case JArr(xa) =>
      forall i | 0 <= i < |xa|
        ensures SameShape(xa[i], xa[i])
      {
        SameShapeRefl(xa[i]);
      }
    case _ =>
  }

  /** The rewrite fails exactly when some non-ignored `*Urls` list in the tree holds a non-string. */
  lemma {:induction false} FixFailsIffBad(key: string, value: Json, prefix: string, ignore: set<Member>)
    ensures FixValue(key, value, prefix, ignore).Err? <==> BadValue(key, value, ignore)
    decreases value, 1
  {
    if Str(key) !in ignore && value.JObj? {
      FixObjectFailsIffBad(value.fields, prefix, ignore);
    }
  }

  lemma {:induction false} FixObjectFailsIffBad(fields: map<string, Json>, prefix: string, ignore: set<Member>)
    ensures FixObject(fields, prefix, ignore).Err? <==> BadObject(fields, ignore)
    decreases JObj(fields), 0
  {
    forall k | k in fields
      ensures FixValue(k, fields[k], prefix, ignore).Err? <==> BadValue(k, fields[k], ignore)
    {
      FixFailsIffBad(k, fields[k], prefix, ignore);
    }
  }

  /** At the output root the prefix is `./`, and a `./` URL stays as it was. */
  lemma RelativeAtRoot(s: string)
    ensures Relative("./", s) == s
  {
    if StartsWith(s, "./") {
      assert "./" + s[2..] == s[..2] + s[2..];
    }
  }

  /** A page at the output root (prefix `./`) is left exactly as it was, whenever the rewrite succeeds. */
  lemma {:induction false} FixAtRoot(key: string, value: Json, ignore: set<Member>)
    requires FixValue(key, value, "./", ignore).Ok?
    ensures FixValue(key, value, "./", ignore) == Ok(value)
    decreases value, 1
  {
    if Str(key) !in ignore {
      match value
      case JObj(fields) =>
        FixObjectAtRoot(fields, ignore);
      case JStr(s) =>
        RelativeAtRoot(s);
      case JArr(items) =>
        if EndsWith(key, "Urls") {
          var fixed := FixList(items, "./").value;
          forall i | 0 <= i < |items|
            ensures fixed[i] == items[i]
          {
            RelativeAtRoot(items[i].s);
          }
          assert fixed == items;
        }
      case _ =>
    }
  }

  lemma {:induction false} FixObjectAtRoot(fields: map<string, Json>, ignore: set<Member>)
    requires FixObject(fields, "./", ignore).Ok?
    ensures FixObject(fields, "./", ignore) == Ok(fields)
    decreases JObj(fields), 0
  {
    var fixed := FixObject(fields, "./", ignore).value;
    forall k | k in fields
      ensures fixed[k] == fields[k]
    {
      FixAtRoot(k, fields[k], ignore);
    }
    assert fixed == fields;
  }

  /** A prefix that does not itself begin with `./` leaves no `./` behind. */
  lemma RelativeTwice(prefix: string, s: string)
    requires |prefix| >= 2 && !StartsWith(prefix, "./")
    ensures Relative(prefix, Relative(prefix, s)) == Relative(prefix, s)
  {
    if StartsWith(s, "./") {
      assert (prefix + s[2..])[..2] == prefix[..2];
    }
  }

  /**
    Away from the output root (prefix `../`, `../../`, ...), fixing an
    already fixed config changes nothing more.
   */
  lemma {:induction false} FixTwiceIsFixOnce(key: string, value: Json, prefix: string, ignore: set<Member>)
    requires |prefix| >= 2 && !StartsWith(prefix, "./")
    requires FixValue(key, value, prefix, ignore).Ok?
    ensures FixValue(key, FixValue(key, value, prefix, ignore).value, prefix, ignore)
            == FixValue(key, value, prefix, ignore)
    decreases value, 1
  {
    var once := FixValue(key, value, prefix, ignore).value;
    if Str(key) !in ignore {
      match value
      case JObj(fields) =>
        FixObjectTwice(fields, prefix, ignore);
      case JStr(s) =>
        RelativeTwice(prefix, s);
      case JArr(items) =>
        if EndsWith(key, "Urls") {
          var fixed := FixList(items, prefix).value;
          assert once == JArr(fixed);
          var again := FixList(fixed, prefix);
          assert again.Ok?;
          forall i | 0 <= i < |fixed|
            ensures again.value[i] == fixed[i]
          {
            RelativeTwice(prefix, items[i].s);
          }
          assert again.value == fixed;
        }
      case _ =>
    }
  }

  lemma {:induction false} FixObjectTwice(fields: map<string, Json>, prefix: string, ignore: set<Member>)
    requires |prefix| >= 2 && !StartsWith(prefix, "./")
    requires FixObject(fields, prefix, ignore).Ok?
    ensures FixObject(FixObject(fields, prefix, ignore).value, prefix, ignore) == FixObject(fields, prefix, ignore)
    decreases JObj(fields), 0
  {
    var fixed := FixObject(fields, prefix, ignore).value;
    forall k | k in fixed
      ensures FixValue(k, fixed[k], prefix, ignore) == Ok(fixed[k])
    {
      FixTwiceIsFixOnce(k, fields[k], prefix, ignore);
    }
    var again := FixObject(fixed, prefix, ignore).value;
    assert again == fixed;
  }

  /**
    With no string in the ignore set, as `IgnoreSet` builds it, the rewrite
    is the same as with nothing ignored at all.
   */
  lemma {:induction false} IgnoreSetIgnoresNothing(key: string, value: Json, prefix: string, ignore: seq<string>, extra: seq<string>)
    ensures FixValue(key, value, prefix, IgnoreSet(ignore, extra)) == FixValue(key, value, prefix, {})
    decreases value, 1
  {
    if value.JObj? {
      IgnoreSetIgnoresNothingObject(value.fields, prefix, ignore, extra);
    }
  }

  lemma {:induction false} IgnoreSetIgnoresNothingObject(fields: map<string, Json>, prefix: string, ignore: seq<string>, extra: seq<string>)
    ensures FixObject(fields, prefix, IgnoreSet(ignore, extra)) == FixObject(fields, prefix, {})
    decreases JObj(fields), 0
  {
    forall k | k in fields
      ensures FixValue(k, fields[k], prefix, IgnoreSet(ignore, extra)) == FixValue(k, fields[k], prefix, {})
    {
      IgnoreSetIgnoresNothing(k, fields[k], prefix, ignore, extra);
    }
    var asWritten := FixObject(fields, prefix, IgnoreSet(ignore, extra));
    var none := FixObject(fields, prefix, {});
    if asWritten.Ok? && none.Ok? {
      assert asWritten.value == none.value;
    }
  }

  /** A one-entry object is rewritten as its entry is. */
  lemma FixSingle(key: string, value: Json, prefix: string, ignore: set<Member>)
    requires FixValue(key, value, prefix, ignore).Ok?
    ensures FixObject(map[key := value], prefix, ignore) == Ok(map[key := FixValue(key, value, prefix, ignore).value])
  {
    var fields := map[key := value];
    assert forall k :: k in fields ==> k == key;
    assert FixObject(fields, prefix, ignore).Ok?;
    var fixed := FixObject(fields, prefix, ignore).value;
    assert fixed.Keys == {key};
    assert fixed[key] == FixValue(key, value, prefix, ignore).value;
    assert fixed == map[key := FixValue(key, value, prefix, ignore).value];
  }

  /** The declared default `licensesUrl` is rewritten anyway by the set as written. */
  lemma DefaultIgnoreNotHonoured()
    ensures FixObject(map["licensesUrl" := JStr("./licenses")], "../", IgnoreSet(DefaultIgnore, []))
            == Ok(map["licensesUrl" := JStr("../licenses")])
  {
    assert EndsWith("licensesUrl", "Url");
    assert StartsWith("./licenses", "./");
    assert "../" + "./licenses"[2..] == "../licenses";
    FixSingle("licensesUrl", JStr("./licenses"), "../", IgnoreSet(DefaultIgnore, []));
  }

  /** With the intended set, every listed attribute keeps its value, whatever it holds. */
  lemma IgnoredKeysKept(fields: map<string, Json>, prefix: string, ignore: seq<string>, extra: seq<string>, key: string)
    requires key in fields && (key in ignore || key in extra)
    requires FixObject(fields, prefix, IgnoreSetIntended(ignore, extra)).Ok?
    ensures FixObject(fields, prefix, IgnoreSetIntended(ignore, extra)).value[key] == fields[key]
  {
  }

  /** The same page config under the intended set: `licensesUrl` is left as it was. */
  lemma DefaultIgnoreHonoured()
    ensures FixObject(map["licensesUrl" := JStr("./licenses")], "../", IgnoreSetIntended(DefaultIgnore, []))
            == Ok(map["licensesUrl" := JStr("./licenses")])
  {
    assert "licensesUrl" in DefaultIgnore;
    FixSingle("licensesUrl", JStr("./licenses"), "../", IgnoreSetIntended(DefaultIgnore, []));
  }

  /**
    A page split at the matches of the two patterns: text between matches,
    `jupyter-config-data` scripts (with what `json.loads` made of their
    body) and relative `href`/`src` attributes. `raw` is the matched text.
   */
  datatype Segment =
    | Text(text: string)
    | ConfigScript(raw: string, tag: string, config: Result<Json>, endtag: string)
    | RelLink(raw: string, attr: string, path: string)

  /**
    One HTML file: the relative path from its folder to the output
    directory, its segments, and which link targets exist beside it.
   */
  datatype Page = Page(relpath: string, doc: seq<Segment>, present: string -> bool)

  /** The page text: each segment as it now reads. */
  function Render(doc: seq<Segment>): (r: string)
    ensures |doc| == 0 ==> r == ""
    ensures |doc| > 0 ==> r == Render(doc[..|doc| - 1]) + Piece(doc[|doc| - 1])
  {
    if |doc| == 0 then "" else Render(doc[..|doc| - 1]) + Piece(doc[|doc| - 1])
  }

  function Piece(seg: Segment): string {
    match seg
    case Text(t) => t
    case ConfigScript(raw, _, _, _) => raw
    case RelLink(raw, _, _) => raw
  }

  /**
    `_config_replacer`: the parsed config, rewritten, dumped between the
    opening and closing tags on lines of their own.
   */
  function ConfigReplacement(tag: string, config: Result<Json>, endtag: string, prefix: string,
                             ignore: set<Member>, dump: Json -> string): (r: Result<string>)
    ensures r.Err? <==> config.Err? || !config.value.JObj? || BadObject(config.value.fields, ignore)
    ensures config.Err? ==> r == Err(config.error)
    ensures config.Ok? && !config.value.JObj? ==> r == Err(NoItems)
    ensures config.Ok? && config.value.JObj? && r.Err? ==> r == Err(NoStartswith)
    ensures r.Ok? ==> exists fixed :: FixObject(config.value.fields, prefix, ignore) == Ok(fixed)
                                      && r.value == tag + "\n" + dump(JObj(fixed)) + "\n" + endtag
  {
    match config
    case Err(e) => Err(e)
    case Ok(value) =>
      if !value.JObj? then Err(NoItems)
      else
        FixObjectFailsIffBad(value.fields, prefix, ignore);
        var fixed :- FixObject(value.fields, prefix, ignore);
        Ok(tag + "\n" + dump(JObj(fixed)) + "\n" + endtag)
  }

  /** The first pass on one segment: a config script becomes its replacement text. */
  function FixSegment(seg: Segment, prefix: string, ignore: set<Member>, dump: Json -> string): (r: Result<Segment>)
    ensures !seg.ConfigScript? ==> r == Ok(seg)
    ensures seg.ConfigScript? ==>
              r == (var t := ConfigReplacement(seg.tag, seg.config, seg.endtag, prefix, ignore, dump);
                    if t.Ok? then Ok(Text(t.value)) else Err(t.error))
  {
    if seg.ConfigScript? then
      var t :- ConfigReplacement(seg.tag, seg.config, seg.endtag, prefix, ignore, dump);
      Ok(Text(t))
    else Ok(seg)
  }

  /**
    `RE_HTML_CONFIG.sub(_config_replacer, html)`: the scripts are replaced
    left to right, and the first one that raises stops the page.
   */
  function ConfigPass(doc: seq<Segment>, prefix: string, ignore: set<Member>, dump: Json -> string): (r: Result<seq<Segment>>)
    ensures r.Ok? <==> forall i :: 0 <= i < |doc| ==> FixSegment(doc[i], prefix, ignore, dump).Ok?
    ensures r.Ok? ==> |r.value| == |doc|
                      && forall i :: 0 <= i < |doc| ==> FixSegment(doc[i], prefix, ignore, dump) == Ok(r.value[i])
    ensures r.Err? ==> exists i :: 0 <= i < |doc| && FixSegment(doc[i], prefix, ignore, dump) == Err(r.error)
                                   && forall j :: 0 <= j < i ==> FixSegment(doc[j], prefix, ignore, dump).Ok?
  {
    if |doc| == 0 then Ok([])
    else
      var head :- FixSegment(doc[0], prefix, ignore, dump);
      var tail :- ConfigPass(doc[1..], prefix, ignore, dump);
      assert forall i :: 1 <= i < |doc| ==> doc[1..][i - 1] == doc[i];
      Ok([head] + tail)
  }

  /** `re.sub(pattern, replacement, path)`, as a parameter. */
  type Substitute = (string, string, string) -> string

  /** An attribute as the link replacer emits it, without the trailing space. */
  function Attribute(attr: string, path: string): string {
    attr + "=\"" + path + "\""
  }

  /**
    The new target of a relative link: an existing file keeps `./path`; a
    missing one takes the first `rewrite_missing` pattern that matches (in
    dict order) after the relative path to the output directory, or keeps
    `./path` when none matches.
   */
  function NewPath(path: string, present: bool, rules: Dict<string>, matches: Regex, sub: Substitute,
                   relpath: string): (r: string)
    ensures present ==> r == "./" + path
    ensures !present && Mime.FirstMatch(rules, path, matches).None? ==> r == "./" + path
    ensures !present && (exists i :: 0 <= i < |rules| && matches(rules[i].0, path)) ==>
              exists i :: 0 <= i < |rules| && matches(rules[i].0, path)
                          && (forall j :: 0 <= j < i ==> !matches(rules[j].0, path))
                          && r == relpath + sub(rules[i].0, rules[i].1, path)
  {
    if present then "./" + path
    else
      match Mime.FirstMatch(rules, path, matches)
      case None => "./" + path
      case Some((i, replacement)) => relpath + sub(rules[i].0, replacement, path)
  }

  /** `_missing_link_replacer`: the attribute with its new target, followed by one space. */
  function LinkReplacement(attr: string, path: string, present: bool, rules: Dict<string>, matches: Regex,
                           sub: Substitute, relpath: string): (r: string)
    ensures r == Attribute(attr, NewPath(path, present, rules, matches, sub, relpath)) + " "
  {
    Attribute(attr, NewPath(path, present, rules, matches, sub, relpath)) + " "
  }

  /**
    A link to an existing file is written back unchanged but for one added
    space, and still matches the link pattern: every run of the addon adds
    another space, so the rewrite is not idempotent.
   */
  lemma KeptLinkGrows(attr: string, path: string, rules: Dict<string>, matches: Regex, sub: Substitute, relpath: string)
    ensures LinkReplacement(attr, path, true, rules, matches, sub, relpath) == Attribute(attr, "./" + path) + " "
    ensures |LinkReplacement(attr, path, true, rules, matches, sub, relpath)| == |Attribute(attr, "./" + path)| + 1
  {
  }

  /** `RE_REL_ATTR.sub(_missing_link_replacer, ...)`: every relative link is replaced; nothing can fail. */
  function LinkPass(doc: seq<Segment>, present: string -> bool, rules: Dict<string>, matches: Regex,
                    sub: Substitute, relpath: string): (r: seq<Segment>)
    ensures |r| == |doc|
    ensures forall i :: 0 <= i < |doc| ==>
              r[i] == if doc[i].RelLink? then
                        Text(LinkReplacement(doc[i].attr, doc[i].path, present(doc[i].path), rules, matches, sub, relpath))
                      else doc[i]
  {
    seq(|doc|, i requires 0 <= i < |doc| =>
      if doc[i].RelLink? then
        Text(LinkReplacement(doc[i].attr, doc[i].path, present(doc[i].path), rules, matches, sub, relpath))
      else doc[i])
  }

  /** What referring to `_missing_link_replacer` raises when `rewrite_missing` is empty. */
  const Unbound := UnboundLocalError("_missing_link_replacer")

  /**
    `FixHtmlAddon._fix_one_html`, as written: the config scripts are fixed,
    then the links; the link pass runs even when `rewrite_missing` is
    empty, and its replacer is then undefined.
   */
  function FixOneHtml(page: Page, rules: Dict<string>, matches: Regex, sub: Substitute,
                      ignore: set<Member>, dump: Json -> string): (r: Result<string>)
    ensures ConfigPass(page.doc, page.relpath + "/", ignore, dump).Err? ==>
              r == Err(ConfigPass(page.doc, page.relpath + "/", ignore, dump).error)
    ensures ConfigPass(page.doc, page.relpath + "/", ignore, dump).Ok? && |rules| == 0 ==> r == Err(Unbound)
    ensures ConfigPass(page.doc, page.relpath + "/", ignore, dump).Ok? && |rules| > 0 ==>
              r == Ok(Render(LinkPass(ConfigPass(page.doc, page.relpath + "/", ignore, dump).value,
                                      page.present, rules, matches, sub, page.relpath)))
    ensures r.Ok? ==> |rules| > 0
  {
    var configs :- ConfigPass(page.doc, page.relpath + "/", ignore, dump);
    if |rules| == 0 then Err(Unbound)
    else Ok(Render(LinkPass(configs, page.present, rules, matches, sub, page.relpath)))
  }

  /** The same, with the link pass run only when there are rules, as the `if` around the replacer means. */
  function FixOneHtmlIntended(page: Page, rules: Dict<string>, matches: Regex, sub: Substitute,
                              ignore: set<Member>, dump: Json -> string): (r: Result<string>)
    ensures r.Err? <==> ConfigPass(page.doc, page.relpath + "/", ignore, dump).Err?
    ensures |rules| > 0 ==> r == FixOneHtml(page, rules, matches, sub, ignore, dump)
  {
    var configs :- ConfigPass(page.doc, page.relpath + "/", ignore, dump);
    if |rules| == 0 then Ok(Render(configs))
    else Ok(Render(LinkPass(configs, page.present, rules, matches, sub, page.relpath)))
  }

  /** `FixHtmlConfigAddon._fix_one_html_config`: only the config scripts are fixed. */
  function FixOneHtmlConfig(page: Page, ignore: set<Member>, dump: Json -> string): (r: Result<string>)
    ensures r.Err? <==> ConfigPass(page.doc, page.relpath + "/", ignore, dump).Err?
  {
    var configs :- ConfigPass(page.doc, page.relpath + "/", ignore, dump);
    Ok(Render(configs))
  }

  /** Without rules, the intended `FixHtmlAddon` page fix is exactly the `FixHtmlConfigAddon` one. */
  lemma NoRulesIsConfigOnly(page: Page, matches: Regex, sub: Substitute, ignore: set<Member>, dump: Json -> string)
    ensures FixOneHtmlIntended(page, [], matches, sub, ignore, dump) == FixOneHtmlConfig(page, ignore, dump)
  {
  }

  /** The files written and the result of one fix-up run. */
  datatype Run = Run(written: seq<string>, result: Result<bool>)

  /** The fixed pages in order, up to the first one that raises (and that exception). */
  function FixEach(pages: seq<Page>, fixOne: Page -> Result<string>): (r: (seq<string>, Option<Exception>))
    ensures |r.0| <= |pages|
    ensures forall j :: 0 <= j < |r.0| ==> fixOne(pages[j]) == Ok(r.0[j])
    ensures r.1.None? ==> |r.0| == |pages|
    ensures r.1.Some? ==> |r.0| < |pages| && fixOne(pages[|r.0|]) == Err(r.1.value)
  {
    if |pages| == 0 then ([], None)
    else
      match fixOne(pages[0])
      case Err(e) => ([], Some(e))
      case Ok(text) =>
        var rest := FixEach(pages[1..], fixOne);
        assert forall j :: 1 <= j < |pages| ==> pages[1..][j - 1] == pages[j];
        ([text] + rest.0, rest.1)
  }

  /**
    `_fix_all_html_config`: false when the globs found no page; otherwise
    every page is fixed in turn, and since fixing a page returns true
    whenever it does not raise, the result is true unless a page raised.
   */
  function FixAll(pages: seq<Page>, fixOne: Page -> Result<string>): (r: Run)
    ensures r.result == Ok(false) <==> |pages| == 0
    ensures r.result == Ok(true) <==> |pages| > 0 && forall i :: 0 <= i < |pages| ==> fixOne(pages[i]).Ok?
    ensures r.result.Ok? ==> |r.written| == |pages|
    ensures |r.written| <= |pages|
    ensures forall j :: 0 <= j < |r.written| ==> fixOne(pages[j]) == Ok(r.written[j])
    ensures r.result.Err? ==> |r.written| < |pages| && fixOne(pages[|r.written|]) == Err(r.result.error)
  {
    if |pages| == 0 then Run([], Ok(false))
    else
      var (written, error) := FixEach(pages, fixOne);
      Run(written, if error.Some? then Err(error.value) else Ok(true))
  }

  /**
    With the default empty `rewrite_missing`, `FixHtmlAddon` as written
    writes no file and fails on the first page it finds.
   */
  lemma DefaultRewriteMissingFails(pages: seq<Page>, matches: Regex, sub: Substitute, ignore: set<Member>, dump: Json -> string)
    requires |pages| > 0
    ensures var run := FixAll(pages, page => FixOneHtml(page, [], matches, sub, ignore, dump));
            run.written == [] && run.result.Err?
  {
    var fixOne := page => FixOneHtml(page, [], matches, sub, ignore, dump);
    assert fixOne(pages[0]).Err?;
  }

  /**
    The intended addon with no rules fixes every page whose configs can be
    fixed, and writes each with its links as they were.
   */
  lemma NoRulesFixesAll(pages: seq<Page>, matches: Regex, sub: Substitute, ignore: set<Member>, dump: Json -> string)
    requires |pages| > 0
    requires forall i :: 0 <= i < |pages| ==> ConfigPass(pages[i].doc, pages[i].relpath + "/", ignore, dump).Ok?
    ensures var run := FixAll(pages, page => FixOneHtmlIntended(page, [], matches, sub, ignore, dump));
            run.result == Ok(true)
            && forall i :: 0 <= i < |pages| ==>
                 run.written[i] == Render(ConfigPass(pages[i].doc, pages[i].relpath + "/", ignore, dump).value)
  {
  }
}

=== FILE: freezer.dfy ===
/**
  The lockfile submission handlers: the browser POSTs the solved lock, the
  handler writes it to the cache if it looks like a lock (it has
  `packages`), and the newer handler also tells the locker to stop waiting.
 */
module Freezer {
  import opened Py
  import opened Strings
  import opened Json

  /**
    Python's `key in value` for what `json.loads` returns: a key of an
    object, an element of an array, a substring of a string; numbers,
    booleans and null are not iterable.
   */
  function JsonIn(key: string, value: Json): (r: Result<bool>)
    ensures r.Err? <==> value.JNull? || value.JBool? || value.JInt?
    ensures value.JObj? ==> r == Ok(key in value.fields)
    ensures value.JArr? ==> r == Ok(JStr(key) in value.items)
    ensures value.JStr? ==> r == Ok(Contains(value.s, key))
  {
    match value
    case JObj(fields) => Ok(key in fields)
    case JArr(items) => Ok(JStr(key) in items)
    case JStr(s) => Ok(Contains(s, key))
    case _ => Err(TypeError("argument is not iterable"))
  }

  /** The lock written to the cache (if any), the halt flag afterwards, and the exception raised (if any). */
  datatype Posted = Posted(written: Option<Json>, halted: bool, error: Option<Exception>)

  /**
    `MicropipFreeze.post`: the parsed body is written when it has
    `packages`; either way the solve is halted. An exception from parsing
    or from the `in` test propagates before the flag is set.
   */
  function Post(parsed: Result<Json>, halted: bool): (r: Posted)
    ensures r.error.Some? <==> parsed.Err? || JsonIn("packages", parsed.value).Err?
    ensures r.error.Some? ==> r.written.None? && r.halted == halted
    ensures r.error.None? ==> r.halted
    ensures r.written.Some? <==> parsed.Ok? && JsonIn("packages", parsed.value) == Ok(true)
    ensures r.written.Some? ==> r.written.value == parsed.value
  {
    match parsed
    case Err(e) => Posted(None, halted, Some(e))
    case Ok(lock) =>
      match JsonIn("packages", lock)
      case Err(e) => Posted(None, halted, Some(e))
      case Ok(found) => Posted(if found then Some(lock) else None, true, None)
  }

  /**
    `PyodideLock.post` of `handlers.py`: the same test and write, but the
    halt flag is never touched.
   */
  function PostOld(parsed: Result<Json>, halted: bool): (r: Posted)
    ensures r.halted == halted
  {
    match parsed
    case Err(e) => Posted(None, halted, Some(e))
    case Ok(lock) =>
      match JsonIn("packages", lock)
      case Err(e) => Posted(None, halted, Some(e))
      case Ok(found) => Posted(if found then Some(lock) else None, halted, None)
  }

  /** Both handlers write the same lock and raise the same errors; only the halt flag differs. */
  lemma HandlersWriteAlike(parsed: Result<Json>, halted: bool)
    ensures PostOld(parsed, halted).written == Post(parsed, halted).written
    ensures PostOld(parsed, halted).error == Post(parsed, halted).error
  {
  }

  /** An object payload is written exactly when it has a `packages` key, and the solve halts either way. */
  lemma ObjectPayload(fields: map<string, Json>, halted: bool)
    ensures Post(Ok(JObj(fields)), halted).written.Some? <==> "packages" in fields
    ensures Post(Ok(JObj(fields)), halted).halted
  {
  }

  /** Posting the same payload again writes the same lock and leaves the solve halted. */
  lemma RepostSame(parsed: Result<Json>, halted: bool)
    ensures var first := Post(parsed, halted);
            var second := Post(parsed, first.halted);
            second.written == first.written && (first.halted ==> second.halted)
  {
  }
}

=== FILE: json.dfy ===
/**
  The values `json.loads` produces, as far as the modelled code inspects them:
  objects become dicts keyed by strings, arrays become lists. Floating-point
  numbers are not distinguished from other scalars.
 */
module Json {

  datatype Json =
    | JNull
    | JBool(b: bool)
    | JInt(i: int)
    | JStr(s: string)
    | JArr(items: seq<Json>)
    | JObj(fields: map<string, Json>)

  /** A list of strings as a JSON array. */
  function StrArr(s: seq<string>): (r: Json)
    ensures r.JArr? && |r.items| == |s|
    ensures forall i :: 0 <= i < |s| ==> r.items[i] == JStr(s[i])
  {
    JArr(seq(|s|, i requires 0 <= i < |s| => JStr(s[i])))
  }

  /** The array holds exactly the listed strings. */
  lemma StrArrMembers(s: seq<string>)
    ensures forall p :: JStr(p) in StrArr(s).items <==> p in s
  {
    var items := StrArr(s).items;
    forall p | JStr(p) in items ensures p in s {
      var i :| 0 <= i < |items| && items[i] == JStr(p);
      assert s[i] == p;
    }
  }
}

=== FILE: lockaddon.dfy ===
/**
  The lock addon's own actions: running the configured locker, patching
  the runtime config to load the new lockfile, turning a package
  requirement into fetch and copy tasks, and choosing one wheel per
  package name.
 */
module LockAddon {
  import opened Py
  import opened Strings
  import opened Json
  import opened Dicts
  import opened Paths
  import Urls
  import Registry

  // ---------------------------------------------------------------------
  // `lock`

  /**
    `lock` (the `src` package): an unknown locker or one that fails to load
    gives false; otherwise a stale lockfile is deleted, the locker runs
    (`resolve` is whether it leaves a lockfile, or what it raises), and the
    result is whether the lockfile exists afterwards.
   */
  function Lock(lockers: Dict<Registry.EntryPoint>, locker: string, loads: Registry.EntryPoint -> bool,
                stale: bool, resolve: Result<bool>): (r: Result<bool>)
    ensures Get(lockers, locker).None? ==> r == Ok(false)
    ensures Get(lockers, locker).Some? && !loads(Get(lockers, locker).value) ==> r == Ok(false)
    ensures r == Ok(true) <==> Get(lockers, locker).Some? && loads(Get(lockers, locker).value) && resolve == Ok(true)
    ensures r.Err? ==> resolve.Err? && r.error == resolve.error
  {
    match Get(lockers, locker)
    case None => Ok(false)
    case Some(ep) =>
      if !loads(ep) then Ok(false)
      else
        var existsAfterUnlink := false;
        match resolve
        case Err(e) => Err(e)
        case Ok(writes) => Ok(existsAfterUnlink || writes)
  }

  /** `lock` of the `py` package: the same, but a stale lockfile is not deleted first. */
  function LockOld(lockers: Dict<Registry.EntryPoint>, locker: string, loads: Registry.EntryPoint -> bool,
                   stale: bool, resolve: Result<bool>): (r: Result<bool>)
    ensures Get(lockers, locker).None? ==> r == Ok(false)
    ensures Get(lockers, locker).Some? && !loads(Get(lockers, locker).value) ==> r == Ok(false)
    ensures r.Err? ==> resolve.Err? && r.error == resolve.error
  {
    match Get(lockers, locker)
    case None => Ok(false)
    case Some(ep) =>
      if !loads(ep) then Ok(false)
      else
        match resolve
        case Err(e) => Err(e)
        case Ok(writes) => Ok(stale || writes)
  }

  /**
    A locker that writes nothing: the older action still reports success
    when a lockfile from an earlier build is present, the newer one does not.
   */
  lemma StaleLockfileReported(lockers: Dict<Registry.EntryPoint>, locker: string, loads: Registry.EntryPoint -> bool)
    requires Get(lockers, locker).Some? && loads(Get(lockers, locker).value)
    ensures LockOld(lockers, locker, loads, true, Ok(false)) == Ok(true)
    ensures Lock(lockers, locker, loads, true, Ok(false)) == Ok(false)
  {
  }

  /** With no stale lockfile the two actions agree. */
  lemma FreshBuildsAgree(lockers: Dict<Registry.EntryPoint>, locker: string, loads: Registry.EntryPoint -> bool,
                         resolve: Result<bool>)
    ensures LockOld(lockers, locker, loads, false, resolve) == Lock(lockers, locker, loads, false, resolve)
  {
  }

  // ---------------------------------------------------------------------
  // `patch_config`

  const LoadPyodideOptions := "loadPyodideOptions"
  const OptionLockFileUrl := "lockFileURL"
  const OptionPackages := "packages"

  /** What `.get` raises on a `loadPyodideOptions` value that is not an object. */
  const NoGet := AttributeError("object has no attribute 'get'")

  /** What unpacking or sorting an unusable `packages` option raises. */
  const BadPackages := TypeError("packages option is not a list of strings")

  /** The lockfile URL: relative to the output directory, pinned by the lockfile's digest. */
  function LockFileUrl(rel: string, lockHash: string): (r: string)
    ensures StartsWith(r, "./") && EndsWith(r, lockHash)
  {
    "./" + rel + "?sha256=" + lockHash
  }

  /**
    The names `[*option]` yields from an existing `packages` option: the
    strings of a list, the characters of a string, the keys of an object.
   */
  function PackagesOf(option: Json): (r: Result<set<string>>)
    ensures option.JArr? ==> (r.Ok? <==> forall i :: 0 <= i < |option.items| ==> option.items[i].JStr?)
    ensures option.JArr? && r.Ok? ==> forall p :: p in r.value <==> JStr(p) in option.items
    ensures option.JStr? ==> r.Ok? && (forall i :: 0 <= i < |option.s| ==> [option.s[i]] in r.value)
                             && forall p :: p in r.value ==> |p| == 1 && p[0] in option.s
    ensures option.JObj? ==> r == Ok(option.fields.Keys)
    ensures option.JNull? || option.JBool? || option.JInt? ==> r == Err(BadPackages)
    ensures r.Err? ==> r.error == BadPackages
  {
    match option
    case JArr(items) =>
      if forall i :: 0 <= i < |items| ==> items[i].JStr? then
        Ok(set i | 0 <= i < |items| :: items[i].s)
      else Err(BadPackages)
    case JStr(s) => Ok(set i | 0 <= i < |s| :: [s[i]])
    case JObj(fields) => Ok(fields.Keys)
    case _ => Err(BadPackages)
  }

  /**
    `patch_config`: `loadPyodideOptions` gains the lockfile URL and the
    sorted, duplicate-free union of its own `packages`, the preloaded and
    the extra preloaded packages; every other option and setting stays.
   */
  method PatchConfig(settings: map<string, Json>, rel: string, lockHash: string,
                     preload: seq<string>, extra: seq<string>) returns (r: Result<map<string, Json>>)
    ensures var options := if LoadPyodideOptions in settings then settings[LoadPyodideOptions] else JObj(map[]);
            && (!options.JObj? ==> r == Err(NoGet))
            && ((options.JObj? && OptionPackages in options.fields && PackagesOf(options.fields[OptionPackages]).Err?)
                  ==> r == Err(BadPackages))
            && (r.Ok? ==>
                  && r.value.Keys == settings.Keys + {LoadPyodideOptions}
                  && (forall k :: k in settings && k != LoadPyodideOptions ==> r.value[k] == settings[k])
                  && r.value[LoadPyodideOptions].JObj?
                  && var patched := r.value[LoadPyodideOptions].fields;
                  && options.JObj?
                  && patched.Keys == options.fields.Keys + {OptionLockFileUrl, OptionPackages}
                  && (forall k :: k in options.fields && k != OptionLockFileUrl && k != OptionPackages
                        ==> patched[k] == options.fields[k])
                  && patched[OptionLockFileUrl] == JStr(LockFileUrl(rel, lockHash))
                  && patched[OptionPackages].JArr?
                  && var listed := patched[OptionPackages].items;
                  && (forall i :: 0 <= i < |listed| ==> listed[i].JStr?)
                  && (forall i, j :: 0 <= i < j < |listed| ==> Below(listed[i].s, listed[j].s))
                  && forall p :: JStr(p) in listed <==>
                       p in preload || p in extra
                       || (OptionPackages in options.fields && p in PackagesOf(options.fields[OptionPackages]).value))
  {
    var options := if LoadPyodideOptions in settings then settings[LoadPyodideOptions] else JObj(map[]);
    if !options.JObj? {
      return Err(NoGet);
    }
    var existing := if OptionPackages in options.fields then PackagesOf(options.fields[OptionPackages]) else Ok({});
    if existing.Err? {
      return Err(BadPackages);
    }
    var all := existing.value + (set p | p in preload) + (set p | p in extra);
    var sorted := SortedSet(all);
    var listed := StrArr(sorted);
    StrArrMembers(sorted);
    var patched := options.fields[OptionLockFileUrl := JStr(LockFileUrl(rel, lockHash))][OptionPackages := listed];
    r := Ok(settings[LoadPyodideOptions := JObj(patched)]);
  }

  // ---------------------------------------------------------------------
  // `resolve_one_file_requirement` and `copy_wheel`

  /** A task the addon yields: fetch a URL to a file, or copy a wheel. */
  datatype Task = Fetch(url: string, target: string) | Copy(source: string, dest: string)

  /** What a resolved local path is. */
  datatype FileKind = Directory | RegularFile | Missing

  /** `re.findall(r"^https?://", text)` finds something. */
  predicate IsUrl(text: string) {
    StartsWith(text, "http://") || StartsWith(text, "https://")
  }

  /** The index of the last `c` in `s`. */
  function LastIndexOf(s: string, c: char): (r: Option<nat>)
    ensures r.None? <==> c !in s
    ensures r.Some? ==> r.value < |s| && s[r.value] == c && forall j :: r.value < j < |s| ==> s[j] != c
    decreases |s|
  {
    if |s| == 0 then None
    else if s[|s| - 1] == c then Some(|s| - 1)
    else LastIndexOf(s[..|s| - 1], c)
  }

  /** `PurePath.suffix` of a file name: from the last dot, unless it leads or ends the name. */
  function Suffix(name: string): string {
    match LastIndexOf(name, '.')
    case Some(i) => if 0 < i < |name| - 1 then name[i..] else ""
    case None => ""
  }

  /** A name has the wheel suffix exactly when it ends with `.whl` after at least one other character. */
  lemma WheelSuffix(name: string)
    ensures Suffix(name) == ".whl" <==> EndsWith(name, ".whl") && |name| > 4
  {
    if EndsWith(name, ".whl") && |name| > 4 {
      var n := |name|;
      assert name[n - 4..] == ".whl";
      assert name[n - 4] == '.' && name[n - 3] == 'w' && name[n - 2] == 'h' && name[n - 1] == 'l';
      var i := LastIndexOf(name, '.');
      assert i.Some?;
      assert i.value == n - 4;
    }
  }

  /** The file name a URL requirement is cached under: the last `/`-segment of its path. */
  function CachedName(url: string): (r: Result<string>)
    ensures r.Err? <==> Urls.UrlParse(url).Err?
    ensures r.Ok? ==> Free(r.value, "/") && EndsWith(Urls.UrlParse(url).value.path, r.value)
  {
    var parsed :- Urls.UrlParse(url);
    LastSegmentIsSuffix(parsed.path, "/");
    Ok(LastSegment(parsed.path, "/"))
  }

  /** `copy_wheel`: a copy into the lock output folder, unless the wheel already is there. */
  function CopyWheel(lockOutputDir: string, wheel: string): (r: seq<Task>)
    ensures r == [] <==> Child(lockOutputDir, Name(wheel)) == wheel
    ensures r != [] ==> r == [Copy(wheel, Child(lockOutputDir, Name(wheel)))]
  {
    var dest := Child(lockOutputDir, Name(wheel));
    if dest == wheel then [] else [Copy(wheel, dest)]
  }

  /** The copies of each wheel in order. */
  function CopyAll(lockOutputDir: string, wheels: seq<string>): (r: seq<Task>)
    ensures forall t :: t in r ==> t.Copy? && t.source in wheels && t.dest == Child(lockOutputDir, Name(t.source))
    ensures |r| <= |wheels|
    decreases |wheels|
  {
    if |wheels| == 0 then []
    else CopyWheel(lockOutputDir, wheels[0]) + CopyAll(lockOutputDir, wheels[1..])
  }

  /**
    `resolve_one_file_requirement` (the `src` package): a URL is fetched
    into the cache unless already there and then copied; a local folder
    has each of its wheels copied; a local file is copied only when it is a
    wheel; a missing path is a `FileNotFoundError`.
   */
  function ResolveOne(requirement: string, cacheRoot: string, lockOutputDir: string, present: string -> bool,
                      resolve: string -> string, kind: string -> FileKind,
                      listPackages: string -> seq<string>): (r: Result<seq<Task>>)
    ensures IsUrl(requirement) ==> (r.Err? <==> Urls.UrlParse(requirement).Err?)
    ensures IsUrl(requirement) && r.Ok? ==>
              var cached := Child(cacheRoot, CachedName(requirement).value);
              r.value == (if present(cached) then [] else [Fetch(requirement, cached)]) + CopyWheel(lockOutputDir, cached)
    ensures !IsUrl(requirement) ==> (r.Err? <==> kind(resolve(requirement)) == Missing)
    ensures !IsUrl(requirement) && r.Err? ==> r.error == FileNotFoundError(requirement)
    ensures !IsUrl(requirement) && r.Ok? ==> forall t :: t in r.value ==> t.Copy?
    ensures !IsUrl(requirement) && kind(resolve(requirement)) == RegularFile ==>
              r == Ok(if Suffix(Name(resolve(requirement))) == ".whl"
                      then CopyWheel(lockOutputDir, resolve(requirement)) else [])
    ensures !IsUrl(requirement) && kind(resolve(requirement)) == Directory ==>
              r == Ok(CopyAll(lockOutputDir, listPackages(resolve(requirement))))
  {
    if IsUrl(requirement) then
      var name :- CachedName(requirement);
      var cached := Child(cacheRoot, name);
      Ok((if present(cached) then [] else [Fetch(requirement, cached)]) + CopyWheel(lockOutputDir, cached))
    else
      var local := resolve(requirement);
      match kind(local)
      case Directory => Ok(CopyAll(lockOutputDir, listPackages(local)))
      case RegularFile => Ok(if Suffix(Name(local)) == ".whl" then CopyWheel(lockOutputDir, local) else [])
      case Missing => Err(FileNotFoundError(requirement))
  }

  /** The URL branch of the `py` package's `resolve_one_file_requirement`: the fetch only. */
  function ResolveUrlOld(requirement: string, cacheRoot: string, present: string -> bool): (r: Result<seq<Task>>)
    requires IsUrl(requirement)
    ensures r.Err? <==> Urls.UrlParse(requirement).Err?
    ensures r.Ok? ==> |r.value| <= 1 && forall t :: t in r.value ==> t.Fetch? && t.url == requirement
  {
    var name :- CachedName(requirement);
    var dest := Child(cacheRoot, name);
    Ok(if present(dest) then [] else [Fetch(requirement, dest)])
  }

  /**
    Both packages cache a URL requirement under the same name and fetch it
    only when it is not cached; the newer one then copies it.
   */
  lemma UrlBranchesAgree(requirement: string, cacheRoot: string, lockOutputDir: string, present: string -> bool,
                         resolve: string -> string, kind: string -> FileKind, listPackages: string -> seq<string>)
    requires IsUrl(requirement) && Urls.UrlParse(requirement).Ok?
    ensures ResolveOne(requirement, cacheRoot, lockOutputDir, present, resolve, kind, listPackages).value
            == ResolveUrlOld(requirement, cacheRoot, present).value
               + CopyWheel(lockOutputDir, Child(cacheRoot, CachedName(requirement).value))
  {
  }

  // ---------------------------------------------------------------------
  // `get_packages`

  /**
    The key `sorted` compares paths by: a path's parts compare in order, so
    the separator is mapped below every character a part may hold.
   */
  function PathKey(path: string): string {
    seq(|path|, i requires 0 <= i < |path| => if path[i] == '/' then '\0' else path[i])
  }

  /**
    `named_packages[project(wheel)] = wheel` for each wheel in order: each
    project keeps the wheel that comes last.
   */
  function ByProject(wheels: seq<string>, project: string -> string): (r: Dict<string>)
    ensures Distinct(r)
    ensures forall i :: 0 <= i < |r| ==> r[i].1 in wheels && project(r[i].1) == r[i].0
    ensures forall j :: 0 <= j < |wheels| ==> LaterWins(wheels, project, r, j)
    decreases |wheels|
  {
    if |wheels| == 0 then []
    else
      var n := |wheels| - 1;
      var d := ByProject(wheels[..n], project);
      var r := Put(d, project(wheels[n]), wheels[n]);
      PutEntries(d, project(wheels[n]), wheels[n]);
      ByProjectStep(wheels, wheels[..n], project, d, r);
      r
  }

  /** The wheel kept for the project of `wheels[j]` is `wheels[j]` or one after it. */
  ghost predicate LaterWins(wheels: seq<string>, project: string -> string, d: Dict<string>, j: int)
    requires 0 <= j < |wheels|
  {
    exists k :: j <= k < |wheels| && Get(d, project(wheels[j])) == Some(wheels[k])
  }

  lemma ByProjectStep(wheels: seq<string>, front: seq<string>, project: string -> string, d: Dict<string>, r: Dict<string>)
    requires |wheels| > 0 && front == wheels[..|wheels| - 1]
    requires forall j :: 0 <= j < |front| ==> LaterWins(front, project, d, j)
    requires r == Put(d, project(wheels[|wheels| - 1]), wheels[|wheels| - 1])
    ensures forall j :: 0 <= j < |wheels| ==> LaterWins(wheels, project, r, j)
  {
    var n := |wheels| - 1;
    forall j | 0 <= j < |wheels| ensures LaterWins(wheels, project, r, j) {
      GetPut(d, project(wheels[n]), wheels[n], project(wheels[j]));
      if project(wheels[j]) != project(wheels[n]) {
        assert LaterWins(front, project, d, j);
        var k :| j <= k < n && Get(d, project(front[j])) == Some(front[k]);
        assert front[k] == wheels[k];
      }
    }
  }

  /**
    `get_packages`: the wheels found in the federated wheel folders, one per
    project (the one with the greatest file name), in path order.
   */
  function GetPackages(wheels: seq<string>, project: string -> string): (r: seq<string>)
    ensures forall p :: p in r ==> p in wheels
    ensures forall i, j :: 0 <= i < j < |r| ==> project(r[i]) != project(r[j])
    ensures forall w :: w in wheels ==> exists p :: p in r && project(p) == project(w) && AtMost(Name(w), Name(p))
    ensures SortedBy(r, PathKey)
  {
    var byName := SortBy(wheels, Name);
    var named := ByProject(byName, project);
    var sorted := SortBy(named, (e: (string, string)) => PathKey(e.1));
    Reordered(named, sorted);
    var r := Values(sorted);
    PackagesFacts(wheels, project, byName, named, sorted, r);
    r
  }

  lemma PackagesFacts(wheels: seq<string>, project: string -> string, byName: seq<string>,
                      named: Dict<string>, sorted: Dict<string>, r: seq<string>)
    requires multiset(byName) == multiset(wheels) && SortedBy(byName, Name)
    requires forall i :: 0 <= i < |named| ==> named[i].1 in byName && project(named[i].1) == named[i].0
    requires forall j :: 0 <= j < |byName| ==> LaterWins(byName, project, named, j)
    requires multiset(sorted) == multiset(named) && Distinct(sorted)
    requires SortedBy(sorted, (e: (string, string)) => PathKey(e.1))
    requires r == Values(sorted)
    ensures forall p :: p in r ==> p in wheels
    ensures forall i, j :: 0 <= i < j < |r| ==> project(r[i]) != project(r[j])
    ensures forall w :: w in wheels ==> exists p :: p in r && project(p) == project(w) && AtMost(Name(w), Name(p))
    ensures SortedBy(r, PathKey)
  {
    SortedEntries(wheels, project, byName, named, sorted);
    SortedValues(sorted, r);
    forall w | w in wheels ensures exists p :: p in r && project(p) == project(w) && AtMost(Name(w), Name(p)) {
      KeptFor(wheels, project, byName, named, sorted, r, w);
    }
  }

  /** Every sorted entry is a wheel filed under its own project. */
  lemma SortedEntries(wheels: seq<string>, project: string -> string, byName: seq<string>,
                      named: Dict<string>, sorted: Dict<string>)
    requires multiset(byName) == multiset(wheels)
    requires forall i :: 0 <= i < |named| ==> named[i].1 in byName && project(named[i].1) == named[i].0
    requires multiset(sorted) == multiset(named)
    ensures forall i :: 0 <= i < |sorted| ==> sorted[i].1 in wheels && project(sorted[i].1) == sorted[i].0
  {
    forall i | 0 <= i < |sorted| ensures sorted[i].1 in wheels && project(sorted[i].1) == sorted[i].0 {
      var e := sorted[i];
      assert e in multiset(named);
      var a :| 0 <= a < |named| && named[a] == e;
      assert e.1 in multiset(byName);
    }
  }

  /** The values of entries sorted by their value's path key are sorted by path key. */
  lemma SortedValues(sorted: Dict<string>, r: seq<string>)
    requires SortedBy(sorted, (e: (string, string)) => PathKey(e.1))
    requires r == Values(sorted)
    ensures SortedBy(r, PathKey)
  {
    forall i, j | 0 <= i < j < |r| ensures AtMost(PathKey(r[i]), PathKey(r[j])) {
      assert r[i] == sorted[i].1 && r[j] == sorted[j].1;
    }
  }

  /** The project of any found wheel keeps a wheel whose name is not smaller. */
  lemma KeptFor(wheels: seq<string>, project: string -> string, byName: seq<string>,
                named: Dict<string>, sorted: Dict<string>, r: seq<string>, w: string)
    requires multiset(byName) == multiset(wheels) && SortedBy(byName, Name)
    requires forall i :: 0 <= i < |named| ==> named[i].1 in byName && project(named[i].1) == named[i].0
    requires forall j :: 0 <= j < |byName| ==> LaterWins(byName, project, named, j)
    requires multiset(sorted) == multiset(named)
    requires r == Values(sorted)
    requires w in wheels
    ensures exists p :: p in r && project(p) == project(w) && AtMost(Name(w), Name(p))
  {
    assert w in multiset(byName);
    var j :| 0 <= j < |byName| && byName[j] == w;
    assert LaterWins(byName, project, named, j);
    var k :| j <= k < |byName| && Get(named, project(byName[j])) == Some(byName[k]);
    var p := byName[k];
    if j == k { BelowIrreflexive(Name(w)); }
    GetIsEntry(named, project(w));
    var a :| 0 <= a < |named| && named[a] == (project(w), p);
    assert (project(w), p) in multiset(sorted);
    var i :| 0 <= i < |sorted| && sorted[i] == (project(w), p);
    assert r[i] == p;
  }
}

=== FILE: mime.dfy ===
/**
  Content types of served files: the first pattern of an ordered MIME map
  that searches the file's path decides, and the type the file handler
  would have guessed is the fallback.
 */
module Mime {
  import opened Py
  import opened Dicts

  /**
    The first entry, in map order, whose pattern searches `path`: its index
    and type.
   */
  function FirstMatch(mimeMap: Dict<string>, path: string, search: Regex): (r: Option<(nat, string)>)
    ensures r.None? <==> forall i :: 0 <= i < |mimeMap| ==> !search(mimeMap[i].0, path)
    ensures r.Some? ==> r.value.0 < |mimeMap| && search(mimeMap[r.value.0].0, path)
                        && mimeMap[r.value.0].1 == r.value.1
                        && forall j :: 0 <= j < r.value.0 ==> !search(mimeMap[j].0, path)
    decreases |mimeMap|
  {
    if |mimeMap| == 0 then None
    else if search(mimeMap[0].0, path) then Some((0, mimeMap[0].1))
    else
      match FirstMatch(mimeMap[1..], path, search)
      case None => None
      case Some((i, t)) => Some((i + 1, t))
  }

  /**
    `ExtraMimeFiles.initialize`: the default map with the supplied map
    assigned over it, so a supplied pattern keeps a default's position and
    takes its type, and a new pattern comes after every default.
   */
  function Overlay(defaults: Dict<string>, supplied: Option<Dict<string>>): (r: Dict<string>)
    ensures Keys(r) == Keys(defaults) + if supplied.Some? then Keys(supplied.value) else {}
    ensures |r| >= |defaults| && forall i :: 0 <= i < |defaults| ==> r[i].0 == defaults[i].0
  {
    var s := if supplied.Some? then supplied.value else [];
    UpdateKeepsOrder(defaults, s);
    Update(defaults, s)
  }

  /** A supplied pattern has its supplied type; any other keeps its default. */
  lemma OverlayTypes(defaults: Dict<string>, supplied: Dict<string>, pattern: string)
    requires Distinct(supplied)
    ensures Get(Overlay(defaults, Some(supplied)), pattern)
            == if pattern in Keys(supplied) then Get(supplied, pattern) else Get(defaults, pattern)
  {
    GetUpdate(defaults, supplied, pattern);
  }

  /**
    `ExtraMimeFiles.get_content_type`: without a path the handler's own
    type; otherwise the first matching type, unless it is empty, in which
    case (as `from_map or from_parent`) the handler's own type again.
   */
  function ContentType(absolutePath: Option<string>, mimeMap: Dict<string>, fromParent: string, search: Regex): (r: string)
    ensures absolutePath.None? ==> r == fromParent
    ensures absolutePath.Some? && FirstMatch(mimeMap, absolutePath.value, search).None? ==> r == fromParent
    ensures r == fromParent || exists i :: 0 <= i < |mimeMap| && mimeMap[i].1 == r && search(mimeMap[i].0, absolutePath.value)
  {
    if absolutePath.None? then fromParent
    else
      match FirstMatch(mimeMap, absolutePath.value, search)
      case None => fromParent
      case Some((i, t)) => if t != "" then t else fromParent
  }

  /**
    `get_content_type` of the older handler in `handlers.py`: the first
    matching type is returned even when it is empty.
   */
  function ContentTypeFirstHit(absolutePath: Option<string>, mimeMap: Dict<string>, fromParent: string, search: Regex): (r: string)
    ensures absolutePath.None? ==> r == fromParent
    ensures absolutePath.Some? && FirstMatch(mimeMap, absolutePath.value, search).None? ==> r == fromParent
    ensures absolutePath.Some? && FirstMatch(mimeMap, absolutePath.value, search).Some? ==>
              r == FirstMatch(mimeMap, absolutePath.value, search).value.1
  {
    if absolutePath.None? then fromParent
    else
      match FirstMatch(mimeMap, absolutePath.value, search)
      case None => fromParent
      case Some((i, t)) => t
  }

  /** The older handler serves an empty first match as the empty type, where the newer one falls back. */
  lemma EmptyMatchDiffers(path: string, mimeMap: Dict<string>, fromParent: string, search: Regex)
    requires fromParent != "" && |mimeMap| > 0 && search(mimeMap[0].0, path) && mimeMap[0].1 == ""
    ensures ContentTypeFirstHit(Some(path), mimeMap, fromParent, search) == ""
    ensures ContentType(Some(path), mimeMap, fromParent, search) == fromParent
  {
    var m := FirstMatch(mimeMap, path, search);
    assert m.Some? && m.value.0 == 0;
  }

  /** The two handlers agree except where the first matching type is empty. */
  lemma HandlersAgree(absolutePath: Option<string>, mimeMap: Dict<string>, fromParent: string, search: Regex)
    requires absolutePath.Some? ==> forall i :: 0 <= i < |mimeMap| ==> mimeMap[i].1 != ""
    ensures ContentType(absolutePath, mimeMap, fromParent, search)
            == ContentTypeFirstHit(absolutePath, mimeMap, fromParent, search)
  {
  }

  /**
    An earlier pattern wins: when pattern `i` searches the path and none
    before it does, its type is served.
   */
  lemma FirstPatternWins(path: string, mimeMap: Dict<string>, fromParent: string, search: Regex, i: nat)
    requires i < |mimeMap| && search(mimeMap[i].0, path) && mimeMap[i].1 != ""
    requires forall j :: 0 <= j < i ==> !search(mimeMap[j].0, path)
    ensures ContentType(Some(path), mimeMap, fromParent, search) == mimeMap[i].1
  {
    var m := FirstMatch(mimeMap, path, search);
    assert m.Some? && m.value.0 == i;
  }
}

=== FILE: names.dfy ===
/**
  Package-name normalisation as section "Normalized Names" of PEP 503 defines
  it, which is what `packaging.utils.canonicalize_name` computes: every run of
  `-`, `_` and `.` becomes a single `-`, and the name is lower-cased.
 */
module Names {

  predicate IsSep(c: char) {
    c == '-' || c == '_' || c == '.'
  }

  predicate IsUpper(c: char) {
    'A' <= c <= 'Z'
  }

  function Lower(c: char): (r: char)
    ensures !IsUpper(r)
    ensures IsSep(r) <==> IsSep(c)
    ensures !IsUpper(c) ==> r == c
  {
    if IsUpper(c) then (c as int + 32) as char else c
  }

  /** The text after the leading run of separators. */
  function DropSeps(s: string): (r: string)
    ensures |r| <= |s| && r == s[|s| - |r|..]
    ensures |r| > 0 ==> !IsSep(r[0])
    ensures forall i :: 0 <= i < |s| - |r| ==> IsSep(s[i])
  {
    if |s| > 0 && IsSep(s[0]) then DropSeps(s[1..]) else s
  }

  /** A name already in normal form: no upper case, no `_` or `.`, no `--`. */
  predicate IsCanonical(s: string) {
    (forall i :: 0 <= i < |s| ==> !IsUpper(s[i]) && s[i] != '_' && s[i] != '.')
    && (forall i :: 0 <= i < |s| - 1 ==> !(s[i] == '-' && s[i + 1] == '-'))
  }

  /** `canonicalize_name`. */
  function Canon(s: string): (r: string)
    ensures |r| == 0 <==> |s| == 0
    ensures |r| > 0 ==> (r[0] == '-' <==> IsSep(s[0]))
    decreases |s|
  {
    if |s| == 0 then ""
    else if IsSep(s[0]) then "-" + Canon(DropSeps(s))
    else [Lower(s[0])] + Canon(s[1..])
  }

  /** Every normalisation is in normal form. */
  lemma {:induction false} CanonIsCanonical(s: string)
    ensures IsCanonical(Canon(s))
    decreases |s|
  {
    if |s| > 0 {
      if IsSep(s[0]) {
        CanonIsCanonical(DropSeps(s));
      } else {
        CanonIsCanonical(s[1..]);
      }
    }
  }

  /** A name in normal form is its own normalisation. */
  lemma {:induction false} CanonicalIsFixed(s: string)
    requires IsCanonical(s)
    ensures Canon(s) == s
    decreases |s|
  {
    if |s| > 0 {
      assert IsCanonical(s[1..]);
      if IsSep(s[0]) {
        assert |s| > 1 ==> !IsSep(s[1]);
        assert DropSeps(s) == s[1..];
      }
      CanonicalIsFixed(s[1..]);
    }
  }

  /** Normalising twice is normalising once. */
  lemma CanonIdempotent(s: string)
    ensures Canon(Canon(s)) == Canon(s)
  {
    CanonIsCanonical(s);
    CanonicalIsFixed(Canon(s));
  }
}

=== FILE: offline.dfy ===
/**
  The offline addon: choosing which packages of a `pyodide-lock.json` are kept
  for offline use (patterns on the raw names, then the closure under
  `depends`), pruning the package map, and rewriting each kept remote
  `file_name` to a wheel served beside the site.
 */
module Offline {
  import opened Py
  import opened Strings
  import opened Names
  import opened Paths
  import Urls
  import Closure

  /** One entry of the lock's `packages` map; `meta` holds every other key. */
  datatype Package = Package(
    fileName: string,
    sha256: string,
    depends: seq<string>,
    meta: map<string, string>
  )

  type Packages = map<string, Package>

  /** File contents by path; a path is present exactly when the file exists. */
  type Files = map<string, Bytes>

  const DefaultExcludes: seq<string> := [".*-tests$"]

  const DefaultIncludes: seq<string> := [
    "^comm$", "^ipykernel*", "^micropip$", "^piplite$", "^pyodide-kernel$",
    "^sqlite3$", "^ssl$"
  ]

  /** `all_includes`: the configured, extra and preloaded patterns, sorted and de-duplicated. */
  function AllIncludes(includes: seq<string>, extra: seq<string>, preload: seq<string>): (r: seq<string>)
    ensures StrictlySorted(r)
    ensures forall p :: p in r <==> p in includes || p in extra || p in preload
  {
    SortedUnique(includes + extra + preload)
  }

  /** `all_excludes`: the configured and extra exclusions, sorted and de-duplicated. */
  function AllExcludes(excludes: seq<string>, extra: seq<string>): (r: seq<string>)
    ensures StrictlySorted(r)
    ensures forall p :: p in r <==> p in excludes || p in extra
  {
    SortedUnique(excludes + extra)
  }

  /** `any(re.match(p, name) for p in patterns)`. */
  function AnyMatch(re: Regex, patterns: seq<string>, name: string): (r: bool)
    ensures r <==> exists i :: 0 <= i < |patterns| && re(patterns[i], name)
  {
    if |patterns| == 0 then false
    else if re(patterns[0], name) then true
    else
      var t := AnyMatch(re, patterns[1..], name);
      assert t <==> exists i :: 1 <= i < |patterns| && re(patterns[i], name) by {
        if t {
          var i :| 0 <= i < |patterns[1..]| && re(patterns[1..][i], name);
          assert re(patterns[i + 1], name);
        }
      }
      t
  }

  /** `is_included`: some include pattern matches the raw name and no exclude pattern does. */
  function IsIncluded(re: Regex, name: string, includes: seq<string>, excludes: seq<string>): (r: bool)
    ensures r <==> (exists i :: 0 <= i < |includes| && re(includes[i], name))
                   && !(exists j :: 0 <= j < |excludes| && re(excludes[j], name))
  {
    if AnyMatch(re, excludes, name) then false
    else if !AnyMatch(re, includes, name) then false
    else true
  }

  /** An exclusion that matches wins over every inclusion. */
  lemma ExcludeWins(re: Regex, name: string, includes: seq<string>, excludes: seq<string>, j: nat)
    requires j < |excludes| && re(excludes[j], name)
    ensures !IsIncluded(re, name, includes, excludes)
  {
  }

  /** Without include patterns nothing is included. */
  lemma NoIncludesNothing(re: Regex, name: string, excludes: seq<string>)
    ensures !IsIncluded(re, name, [], excludes)
  {
  }

  /** The leaf names: the normalised names of the packages whose raw name is included. */
  function LeafNames(raw: Packages, re: Regex, includes: seq<string>, excludes: seq<string>): (r: set<string>)
    ensures forall k :: k in raw && IsIncluded(re, k, includes, excludes) ==> Canon(k) in r
  {
    set k | k in raw && IsIncluded(re, k, includes, excludes) :: Canon(k)
  }

  lemma LeafNamesMember(raw: Packages, re: Regex, includes: seq<string>, excludes: seq<string>, n: string)
    requires n in LeafNames(raw, re, includes, excludes)
    ensures exists k :: k in raw && IsIncluded(re, k, includes, excludes) && n == Canon(k)
  {
  }

  lemma InitialDepsMember(raw: Packages, re: Regex, includes: seq<string>, excludes: seq<string>, n: string)
    requires n in InitialDeps(raw, re, includes, excludes)
    ensures exists k, d :: k in raw && IsIncluded(re, k, includes, excludes) && d in raw[k].depends && n == Canon(d)
  {
  }

  /** The first worklist: the normalised `depends` of the included packages only. */
  function InitialDeps(raw: Packages, re: Regex, includes: seq<string>, excludes: seq<string>): (r: set<string>)
    ensures forall k, d :: k in raw && IsIncluded(re, k, includes, excludes) && d in raw[k].depends ==> Canon(d) in r
  {
    set k, d | k in raw && IsIncluded(re, k, includes, excludes) && d in raw[k].depends :: Canon(d)
  }

  /** `{*map(canonicalize_name, names)}`. */
  function CanonSet(names: seq<string>): (r: set<string>)
    ensures forall d :: d in names ==> Canon(d) in r
    ensures |r| <= |names|
  {
    if |names| == 0 then {} else {Canon(names[0])} + CanonSet(names[1..])
  }

  lemma {:induction false} CanonSetMember(names: seq<string>, m: string)
    requires m in CanonSet(names)
    ensures exists d :: d in names && m == Canon(d)
  {
    if m != Canon(names[0]) {
      CanonSetMember(names[1..], m);
      var d :| d in names[1..] && m == Canon(d);
      assert d in names;
    }
  }

  /** The normalised dependencies of the entry stored under `n`. */
  function Succ(raw: Packages, n: string): (r: set<string>)
    requires n in raw
    ensures forall d :: d in raw[n].depends ==> Canon(d) in r
  {
    CanonSet(raw[n].depends)
  }

  /** The lock as a graph: each key points at its normalised dependencies. */
  function DepGraph(raw: Packages): (g: Closure.Graph)
    ensures g.Keys == raw.Keys
    ensures forall n :: n in raw ==> g[n] == Succ(raw, n)
  {
    map n | n in raw :: Succ(raw, n)
  }

  /** Every name the worklist can reach from the included packages has an entry of its own. */
  ghost predicate AllReachableHaveEntries(raw: Packages, re: Regex, includes: seq<string>, excludes: seq<string>) {
    Closure.AllReachableHaveEntries(DepGraph(raw), LeafNames(raw, re, includes, excludes),
                                    InitialDeps(raw, re, includes, excludes))
  }

  /**
    `get_included_names`: the leaf names, and the dependency names the worklist
    adds; which name the worklist pops next is left open. A dependency name
    without an entry of its own raises KeyError.
   */
  method GetIncludedNames(raw: Packages, re: Regex, includes: seq<string>, excludes: seq<string>)
    returns (r: Result<(set<string>, set<string>)>)
    ensures r.Ok? ==> r.value.0 == LeafNames(raw, re, includes, excludes)
    ensures r.Ok? ==> r.value.0 !! r.value.1 && r.value.1 <= raw.Keys
    ensures r.Ok? ==> forall n :: (n in r.value.1 <==>
                        Closure.Reachable(DepGraph(raw), r.value.0, InitialDeps(raw, re, includes, excludes), n))
    ensures r.Ok? ==> forall k, d :: (k in raw && IsIncluded(re, k, includes, excludes) && d in raw[k].depends)
                                      ==> Canon(d) in r.value.0 + r.value.1
    ensures r.Ok? ==> forall n :: n in r.value.1 ==> Succ(raw, n) <= r.value.0 + r.value.1
    ensures r.Err? ==> r.error.KeyError? && r.error.key !in raw
                       && Closure.Reachable(DepGraph(raw), LeafNames(raw, re, includes, excludes),
                                            InitialDeps(raw, re, includes, excludes), r.error.key)
    ensures AllReachableHaveEntries(raw, re, includes, excludes) ==> r.Ok?
  {
    var leaf := LeafNames(raw, re, includes, excludes);
    var init := InitialDeps(raw, re, includes, excludes);
    var dep :- Closure.Close(DepGraph(raw), leaf, init);
    r := Ok((leaf, dep));
  }

  /** Every key is already a normalised name, as in a lock `pyodide-lock` writes. */
  ghost predicate CanonicalKeys(raw: Packages) {
    forall k :: k in raw ==> Canon(k) == k
  }

  /**
    With normalised keys, the leaf and dependency names are all keys, and the
    whole kept set is closed under `depends`.
   */
  lemma CanonicalKeysClosed(raw: Packages, re: Regex, includes: seq<string>, excludes: seq<string>,
                            dep: set<string>)
    requires CanonicalKeys(raw) && dep <= raw.Keys
    requires forall k, d :: k in raw && IsIncluded(re, k, includes, excludes) && d in raw[k].depends
                            ==> Canon(d) in LeafNames(raw, re, includes, excludes) + dep
    requires forall n :: n in dep ==> Succ(raw, n) <= LeafNames(raw, re, includes, excludes) + dep
    ensures var kept := LeafNames(raw, re, includes, excludes) + dep;
            kept <= raw.Keys && forall n :: n in kept ==> Succ(raw, n) <= kept
  {
    var leaf := LeafNames(raw, re, includes, excludes);
    forall n | n in leaf
      ensures n in raw && Succ(raw, n) <= leaf + dep
    {
      LeafNamesMember(raw, re, includes, excludes, n);
      var k :| k in raw && IsIncluded(re, k, includes, excludes) && n == Canon(k);
      assert k == n;
      forall m | m in Succ(raw, n)
        ensures m in leaf + dep
      {
        CanonSetMember(raw[n].depends, m);
      }
    }
  }

  /** The three-package lock `a -> b -> c`. */
  function ChainLock(): Packages {
    map[
      "a" := Package("a.whl", "", ["b"], map[]),
      "b" := Package("b.whl", "", ["c"], map[]),
      "c" := Package("c.whl", "", [], map[])
    ]
  }

  lemma CanonLetters()
    ensures Canon("a") == "a" && Canon("b") == "b" && Canon("c") == "c"
  {
    assert IsCanonical("a") && IsCanonical("b") && IsCanonical("c");
    CanonicalIsFixed("a");
    CanonicalIsFixed("b");
    CanonicalIsFixed("c");
  }

  /** The chain lock's graph is the chain `a -> b -> c`. */
  lemma ChainGraph()
    ensures DepGraph(ChainLock()) == Closure.Chain()
  {
    CanonLetters();
    assert CanonSet(["b"]) == {"b"};
    assert CanonSet(["c"]) == {"c"};
  }

  /** Of the chain lock's names, `^a$` includes `a` alone. */
  lemma ChainOnlyA(re: Regex)
    requires re("^a$", "a") && !re("^a$", "b") && !re("^a$", "c")
    ensures IsIncluded(re, "a", ["^a$"], [])
    ensures forall k :: k in ChainLock() && IsIncluded(re, k, ["^a$"], []) ==> k == "a"
  {
    assert ChainLock().Keys == {"a", "b", "c"};
  }

  /** Including `^a$` makes `a` the only leaf. */
  lemma ChainLeaf(re: Regex)
    requires re("^a$", "a") && !re("^a$", "b") && !re("^a$", "c")
    ensures LeafNames(ChainLock(), re, ["^a$"], []) == {"a"}
  {
    CanonLetters();
    ChainOnlyA(re);
    forall n | n in LeafNames(ChainLock(), re, ["^a$"], [])
      ensures n == "a"
    {
      LeafNamesMember(ChainLock(), re, ["^a$"], [], n);
    }
  }

  /** Including `^a$` queues only `b`, the dependency of `a`. */
  lemma ChainInit(re: Regex)
    requires re("^a$", "a") && !re("^a$", "b") && !re("^a$", "c")
    ensures InitialDeps(ChainLock(), re, ["^a$"], []) == {"b"}
  {
    CanonLetters();
    ChainOnlyA(re);
    assert "b" in ChainLock()["a"].depends;
    forall n | n in InitialDeps(ChainLock(), re, ["^a$"], [])
      ensures n == "b"
    {
      InitialDepsMember(ChainLock(), re, ["^a$"], [], n);
    }
  }

  /** Including `^a$` keeps `a` as the leaf and reaches `b` and `c` through `depends`. */
  lemma ChainFromA(re: Regex)
    requires re("^a$", "a") && !re("^a$", "b") && !re("^a$", "c")
    ensures var leaf := LeafNames(ChainLock(), re, ["^a$"], []);
            var init := InitialDeps(ChainLock(), re, ["^a$"], []);
            leaf == {"a"} && init == {"b"}
            && forall n :: Closure.Reachable(DepGraph(ChainLock()), leaf, init, n) <==> n == "b" || n == "c"
  {
    ChainLeaf(re);
    ChainInit(re);
    ChainGraph();
    Closure.ChainReach();
  }

  /** Including `^Z$`, which matches no name, keeps nothing. */
  lemma ChainFromNothing(re: Regex)
    requires !re("^Z$", "a") && !re("^Z$", "b") && !re("^Z$", "c")
    ensures LeafNames(ChainLock(), re, ["^Z$"], []) == {}
    ensures InitialDeps(ChainLock(), re, ["^Z$"], []) == {}
    ensures forall n :: !Closure.Reachable(DepGraph(ChainLock()), {}, {}, n)
  {
    ChainNoneIncluded(re);
    Closure.NothingFromEmpty(DepGraph(ChainLock()), {});
  }

  lemma ChainNoneIncluded(re: Regex)
    requires !re("^Z$", "a") && !re("^Z$", "b") && !re("^Z$", "c")
    ensures forall k :: k in ChainLock() ==> !IsIncluded(re, k, ["^Z$"], [])
  {
    assert ChainLock().Keys == {"a", "b", "c"};
  }

  /** `get_pruned_packages`: with `prune`, only the kept names; otherwise every entry. */
  function GetPrunedPackages(raw: Packages, leaf: set<string>, dep: set<string>, prune: bool): (r: Packages)
    ensures prune ==> r.Keys == raw.Keys * (leaf + dep)
    ensures !prune ==> r.Keys == raw.Keys
    ensures forall k :: k in r ==> r[k] == raw[k]
  {
    if prune then map k | k in raw && k in leaf + dep :: raw[k] else raw
  }

  /** Where the addon looks for and places wheels, and how it recognises a remote URL. */
  datatype OfflineEnv = OfflineEnv(
    outDir: string,
    packageCache: string,
    outputPyodide: string,
    re: Regex,
    remoteUrl: string
  )

  /** The `file_name` prefix for wheels copied beside the lock. */
  const LockStem: string := "../../static/pyodide-lock"

  /** The `file_name` prefix for wheels already in the site's pyodide distribution. */
  const PyodideStem: string := "../../static/pyodide"

  /** The wheel is already in the site's pyodide distribution and not yet beside the lock. */
  predicate UsePyodide(env: OfflineEnv, whl: string, files: Files) {
    Child(env.outDir, whl) !in files && Child(env.outputPyodide, whl) in files
  }

  /**
    The local file that serves the wheel `whl`: one beside the lock, else one
    in the pyodide distribution, else the one beside the lock to be created.
   */
  function Destination(env: OfflineEnv, whl: string, files: Files): (r: string)
    ensures r == Child(env.outDir, whl) || r == Child(env.outputPyodide, whl)
    ensures r != Child(env.outDir, whl) <==> UsePyodide(env, whl, files)
  {
    if UsePyodide(env, whl, files) then Child(env.outputPyodide, whl) else Child(env.outDir, whl)
  }

  /** The bytes fetched from the remote `url` (network I/O is a parameter). */
  type Fetch = string -> Bytes

  /** The hex SHA-256 digest of some bytes (the hash itself is a parameter). */
  type Sha256 = Bytes -> string

  /** The wheel name a remote `file_name` is stored under: the last segment of its URL path. */
  function WheelOf(fileName: string): (r: Result<string>)
    ensures r.Ok? <==> Urls.UrlParse(fileName).Ok?
    ensures r.Err? ==> r.error.ValueError?
    ensures r.Ok? ==> Free(r.value, "/") && EndsWith(Urls.UrlParse(fileName).value.path, r.value)
  {
    var url :- Urls.UrlParse(fileName);
    LastSegmentIsSuffix(url.path, "/");
    Ok(LastSegment(url.path, "/"))
  }

  /**
    The files once the wheel is in place: unless the destination exists, the
    remote `url` is fetched into the cache (when not cached yet) and the cached
    copy is copied to the destination. No existing file changes.
   */
  function Place(env: OfflineEnv, whl: string, url: string, files: Files, fetch: Fetch): (r: Files)
    ensures forall f :: f in files ==> f in r && r[f] == files[f]
    ensures r.Keys <= files.Keys + {Destination(env, whl, files), Child(env.packageCache, whl)}
    ensures var dest := Destination(env, whl, files);
            var cache := Child(env.packageCache, whl);
            dest in r && r[dest] == (if dest in files then files[dest]
                                     else if cache in files then files[cache]
                                     else fetch(url))
  {
    var dest := Destination(env, whl, files);
    var cacheWhl := Child(env.packageCache, whl);
    if dest in files then files
    else
      var cached := if cacheWhl in files then files else files[cacheWhl := fetch(url)];
      cached[dest := cached[cacheWhl]]
  }

  /**
    `resolve_one_offline`: a remote `file_name` is pointed at a local copy of
    its wheel, fetched into the cache and copied when no copy exists yet, and
    `sha256` becomes the digest of that copy. A local `file_name` is left alone.
   */
  function ResolveOneOffline(name: string, env: OfflineEnv, stem: string, packages: Packages,
                             files: Files, fetch: Fetch, sha: Sha256): (r: Result<(Packages, Files)>)
    ensures name !in packages ==> r == Err(KeyError(name))
    ensures r.Err? ==> name !in packages || WheelOf(packages[name].fileName).Err?
    ensures name in packages && !env.re(env.remoteUrl, packages[name].fileName) ==> r == Ok((packages, files))
    ensures r.Ok? ==> r.value.0.Keys == packages.Keys
    ensures r.Ok? ==> forall k :: k in packages && k != name ==> r.value.0[k] == packages[k]
    ensures r.Ok? ==> forall f :: f in files ==> f in r.value.1 && r.value.1[f] == files[f]
    ensures r.Ok? && env.re(env.remoteUrl, packages[name].fileName) ==>
              && WheelOf(packages[name].fileName).Ok?
              && var whl := WheelOf(packages[name].fileName).value;
                 var dest := Destination(env, whl, files);
                 var p := r.value.0[name];
                 && r.value.1 == Place(env, whl, packages[name].fileName, files, fetch)
                 && p.fileName == (if dest == Child(env.outDir, whl) then stem + "/" + whl else PyodideStem + "/" + whl)
                 && p.sha256 == sha(r.value.1[dest])
                 && p.depends == packages[name].depends && p.meta == packages[name].meta
  {
    if name !in packages then Err(KeyError(name))
    else
      var info := packages[name];
      if !env.re(env.remoteUrl, info.fileName) then Ok((packages, files))
      else
        var whl :- WheelOf(info.fileName);
        var dest := Destination(env, whl, files);
        var destUrl: Option<string> := if UsePyodide(env, whl, files) then Some(PyodideStem + "/" + whl) else None;
        var placed := Place(env, whl, info.fileName, files, fetch);
        var observed := sha(placed[dest]);
        var newSha := if info.sha256 != observed then observed else info.sha256;
        var fileName := if destUrl.Some? then destUrl.value else stem + "/" + whl;
        Ok((packages[name := info.(fileName := fileName, sha256 := newSha)], placed))
  }

  /**
    The bytes behind a resolved entry are an existing local copy, else the
    cached download, else a fresh fetch of the remote URL; an entry whose
    digest already matched keeps everything but `file_name`.
   */
  lemma ResolvedBytes(name: string, env: OfflineEnv, stem: string, packages: Packages,
                      files: Files, fetch: Fetch, sha: Sha256)
    requires name in packages && env.re(env.remoteUrl, packages[name].fileName)
    requires ResolveOneOffline(name, env, stem, packages, files, fetch, sha).Ok?
    ensures var r := ResolveOneOffline(name, env, stem, packages, files, fetch, sha).value;
            var whl := WheelOf(packages[name].fileName).value;
            var dest := Destination(env, whl, files);
            var cache := Child(env.packageCache, whl);
            && r.1.Keys <= files.Keys + {dest, cache}
            && r.1[dest] == (if dest in files then files[dest]
                             else if cache in files then files[cache]
                             else fetch(packages[name].fileName))
            && (packages[name].sha256 == sha(r.1[dest]) ==> r.0[name] == packages[name].(fileName := r.0[name].fileName))
  {
  }

  /** A remote-URL pattern that no site-relative `../../static/` path satisfies. */
  ghost predicate LocalNotRemote(env: OfflineEnv) {
    forall s :: StartsWith(s, "../../static/") ==> !env.re(env.remoteUrl, s)
  }

  lemma StaticPrefix(whl: string)
    ensures StartsWith(LockStem + "/" + whl, "../../static/")
    ensures StartsWith(PyodideStem + "/" + whl, "../../static/")
  {
    assert (LockStem + "/" + whl)[..13] == "../../static/";
    assert (PyodideStem + "/" + whl)[..13] == "../../static/";
  }

  /** The site file a resolved `file_name` names: the pyodide copy for a pyodide path, else the copy beside the lock. */
  function ServedFrom(env: OfflineEnv, whl: string, fileName: string): string {
    if fileName == PyodideStem + "/" + whl then Child(env.outputPyodide, whl) else Child(env.outDir, whl)
  }

  /**
    An entry that was remote now names a local copy of its wheel, beside the
    lock or in the pyodide distribution, and its `sha256` is the digest of the
    bytes of that copy.
   */
  ghost predicate Settled(env: OfflineEnv, sha: Sha256, before: Package, after: Package, files: Files) {
    env.re(env.remoteUrl, before.fileName) ==>
      && WheelOf(before.fileName).Ok?
      && var whl := WheelOf(before.fileName).value;
         && (after.fileName == LockStem + "/" + whl || after.fileName == PyodideStem + "/" + whl)
         && ServedFrom(env, whl, after.fileName) in files
         && after.sha256 == sha(files[ServedFrom(env, whl, after.fileName)])
  }

  /** Resolving an entry settles it: the digest in the lock is the digest of the copy it names. */
  lemma ResolvedSettled(name: string, env: OfflineEnv, packages: Packages, files: Files,
                        fetch: Fetch, sha: Sha256)
    requires name in packages
    requires ResolveOneOffline(name, env, LockStem, packages, files, fetch, sha).Ok?
    ensures var r := ResolveOneOffline(name, env, LockStem, packages, files, fetch, sha).value;
            Settled(env, sha, packages[name], r.0[name], r.1)
  {
    var r := ResolveOneOffline(name, env, LockStem, packages, files, fetch, sha).value;
    if env.re(env.remoteUrl, packages[name].fileName) {
      var whl := WheelOf(packages[name].fileName).value;
      SettledAt(env, sha, packages[name], r.0[name], r.1, whl, Destination(env, whl, files));
    }
  }

  /** The copy a resolved `file_name` names is the destination it was placed at. */
  lemma SettledAt(env: OfflineEnv, sha: Sha256, before: Package, after: Package, files: Files,
                  whl: string, dest: string)
    requires env.re(env.remoteUrl, before.fileName) && WheelOf(before.fileName) == Ok(whl)
    requires dest == Child(env.outDir, whl) || dest == Child(env.outputPyodide, whl)
    requires after.fileName == (if dest == Child(env.outDir, whl) then LockStem + "/" + whl else PyodideStem + "/" + whl)
    requires dest in files && after.sha256 == sha(files[dest])
    ensures Settled(env, sha, before, after, files)
  {
    StemsDiffer(whl);
    if dest == Child(env.outDir, whl) {
      assert after.fileName == LockStem + "/" + whl;
    } else {
      assert after.fileName == PyodideStem + "/" + whl;
    }
  }

  /** A wheel beside the lock and the same wheel in the pyodide distribution have different paths. */
  lemma StemsDiffer(whl: string)
    ensures LockStem + "/" + whl != PyodideStem + "/" + whl
  {
    assert (LockStem + "/" + whl)[20] != (PyodideStem + "/" + whl)[20];
  }

  /** After one resolution step under a local-only remote pattern, the entry is not remote. */
  lemma ResolvedIsLocal(name: string, env: OfflineEnv, packages: Packages, files: Files,
                        fetch: Fetch, sha: Sha256)
    requires LocalNotRemote(env)
    requires ResolveOneOffline(name, env, LockStem, packages, files, fetch, sha).Ok?
    ensures var r := ResolveOneOffline(name, env, LockStem, packages, files, fetch, sha).value;
            !env.re(env.remoteUrl, r.0[name].fileName)
  {
    if env.re(env.remoteUrl, packages[name].fileName) {
      StaticPrefix(WheelOf(packages[name].fileName).value);
    }
  }

  /**
    One step of the loop: resolve `name`, keeping every other entry, every
    entry's `depends` and other keys, and every existing file.
   */
  method ResolveStep(name: string, env: OfflineEnv, packages: Packages, files: Files,
                     fetch: Fetch, sha: Sha256) returns (r: Result<(Packages, Files)>)
    ensures r.Err? ==> (name !in packages && r.error == KeyError(name)) || r.error.ValueError?
    ensures r.Ok? ==> name in packages
    ensures r.Ok? ==> r.value.0.Keys == packages.Keys
    ensures r.Ok? ==> forall k :: k in packages && k != name ==> r.value.0[k] == packages[k]
    ensures r.Ok? ==> forall k :: k in packages ==>
                        r.value.0[k].depends == packages[k].depends && r.value.0[k].meta == packages[k].meta
    ensures r.Ok? ==> forall f :: f in files ==> f in r.value.1 && r.value.1[f] == files[f]
    ensures r.Ok? && LocalNotRemote(env) ==> !env.re(env.remoteUrl, r.value.0[name].fileName)
    ensures r.Ok? ==> Settled(env, sha, packages[name], r.value.0[name], r.value.1)
  {
    r := ResolveOneOffline(name, env, LockStem, packages, files, fetch, sha);
    if r.Ok? {
      ResolvedSettled(name, env, packages, files, fetch, sha);
      if LocalNotRemote(env) {
        ResolvedIsLocal(name, env, packages, files, fetch, sha);
      }
    }
  }

  /** A settled entry stays settled while files are only added. */
  lemma SettledKept(env: OfflineEnv, sha: Sha256, before: Package, after: Package, files: Files, more: Files)
    requires Settled(env, sha, before, after, files)
    requires forall f :: f in files ==> f in more && more[f] == files[f]
    ensures Settled(env, sha, before, after, more)
  {
  }

  /** What holds after resolving the first `i` names of `order`, starting from `packages` and `files`. */
  ghost predicate Progress(order: seq<string>, i: int, env: OfflineEnv, sha: Sha256, packages: Packages, files: Files,
                           current: Packages, placed: Files)
  {
    && 0 <= i <= |order|
    && current.Keys == packages.Keys
    && (forall k :: k in packages ==> current[k].depends == packages[k].depends && current[k].meta == packages[k].meta)
    && (forall k :: k in packages && k !in order[..i] ==> current[k] == packages[k])
    && (forall f :: f in files ==> f in placed && placed[f] == files[f])
    && (LocalNotRemote(env) ==>
          forall j :: 0 <= j < i && order[j] in packages ==> !env.re(env.remoteUrl, current[order[j]].fileName))
    && (forall j :: 0 <= j < i && order[j] in packages ==> Settled(env, sha, packages[order[j]], current[order[j]], placed))
  }

  /** One successful resolution step extends the progress by one name. */
  lemma ProgressStep(order: seq<string>, i: int, env: OfflineEnv, sha: Sha256, packages: Packages, files: Files,
                     current: Packages, placed: Files, next: Packages, nextFiles: Files)
    requires forall a, b :: 0 <= a < b < |order| ==> order[a] != order[b]
    requires Progress(order, i, env, sha, packages, files, current, placed) && i < |order|
    requires order[i] in current && next.Keys == current.Keys
    requires forall k :: k in current && k != order[i] ==> next[k] == current[k]
    requires forall k :: k in current ==> next[k].depends == current[k].depends && next[k].meta == current[k].meta
    requires forall f :: f in placed ==> f in nextFiles && nextFiles[f] == placed[f]
    requires LocalNotRemote(env) ==> !env.re(env.remoteUrl, next[order[i]].fileName)
    requires Settled(env, sha, current[order[i]], next[order[i]], nextFiles)
    ensures Progress(order, i + 1, env, sha, packages, files, next, nextFiles)
  {
    assert order[..i + 1] == order[..i] + [order[i]];
    assert current[order[i]] == packages[order[i]] by {
      assert order[i] !in order[..i];
    }
    forall j | 0 <= j < i && order[j] in packages
      ensures Settled(env, sha, packages[order[j]], next[order[j]], nextFiles)
    {
      assert order[j] != order[i];
      SettledKept(env, sha, packages[order[j]], current[order[j]], placed, nextFiles);
    }
  }

  /** The loop of `resolve_offline`: resolve each name of `order` in turn; the first failure propagates. */
  method ResolveAll(order: seq<string>, env: OfflineEnv, packages: Packages, files: Files,
                    fetch: Fetch, sha: Sha256) returns (r: Result<(Packages, Files)>)
    requires forall i, j :: 0 <= i < j < |order| ==> order[i] != order[j]
    ensures r.Err? ==> (exists i :: 0 <= i < |order| && order[i] !in packages && r.error == KeyError(order[i]))
                       || r.error.ValueError?
    ensures r.Ok? ==> r.value.0.Keys == packages.Keys
    ensures r.Ok? ==> forall k :: k in packages ==>
                        r.value.0[k].depends == packages[k].depends && r.value.0[k].meta == packages[k].meta
    ensures r.Ok? ==> forall k :: k in packages && k !in order ==> r.value.0[k] == packages[k]
    ensures r.Ok? ==> forall f :: f in files ==> f in r.value.1 && r.value.1[f] == files[f]
    ensures r.Ok? && LocalNotRemote(env) ==>
              forall i :: 0 <= i < |order| && order[i] in packages ==> !env.re(env.remoteUrl, r.value.0[order[i]].fileName)
    ensures r.Ok? ==> forall i :: 0 <= i < |order| && order[i] in packages ==>
                        Settled(env, sha, packages[order[i]], r.value.0[order[i]], r.value.1)
  {
    var current, placed := packages, files;
    var i := 0;
    while i < |order|
      invariant Progress(order, i, env, sha, packages, files, current, placed)
    {
      var step := ResolveStep(order[i], env, current, placed, fetch, sha);
      if step.Err? {
        return Err(step.error);
      }
      ProgressStep(order, i, env, sha, packages, files, current, placed, step.value.0, step.value.1);
      current, placed := step.value.0, step.value.1;
      i := i + 1;
    }
    assert order[..i] == order;
    r := Ok((current, placed));
  }

  /** A dependency name `get_included_names` adds: reachable from the included packages without passing a leaf. */
  ghost predicate DepIncluded(raw: Packages, re: Regex, includes: seq<string>, excludes: seq<string>, n: string) {
    Closure.Reachable(DepGraph(raw), LeafNames(raw, re, includes, excludes), InitialDeps(raw, re, includes, excludes), n)
  }

  /** A name `resolve_offline` keeps and resolves: a leaf or an added dependency. */
  ghost predicate Kept(raw: Packages, re: Regex, includes: seq<string>, excludes: seq<string>, n: string) {
    n in LeafNames(raw, re, includes, excludes) || DepIncluded(raw, re, includes, excludes, n)
  }

  /**
    The names `resolve_offline` keeps: the dependency names are keys, and with
    normalised keys so are the leaf names.
   */
  method KeptNames(raw: Packages, re: Regex, includes: seq<string>, excludes: seq<string>)
    returns (r: Result<(set<string>, set<string>)>)
    ensures r.Ok? ==> r.value.0 == LeafNames(raw, re, includes, excludes)
    ensures r.Ok? ==> forall n :: n in r.value.1 <==> DepIncluded(raw, re, includes, excludes, n)
    ensures r.Ok? ==> r.value.1 <= raw.Keys
    ensures r.Ok? && CanonicalKeys(raw) ==> r.value.0 + r.value.1 <= raw.Keys
    ensures r.Err? ==> r.error.KeyError? && !AllReachableHaveEntries(raw, re, includes, excludes)
  {
    r := GetIncludedNames(raw, re, includes, excludes);
    if r.Ok? && CanonicalKeys(raw) {
      CanonicalKeysClosed(raw, re, includes, excludes, r.value.1);
    }
  }

  /**
    `resolve_offline`: choose the kept names, prune, then resolve each kept
    name in sorted order. With `prune`, no entry of the result keeps a remote
    `file_name`; with normalised keys, every lookup of a kept name succeeds.
   */
  method ResolveOffline(raw: Packages, re: Regex, includes: seq<string>, excludes: seq<string>,
                        prune: bool, env: OfflineEnv, files: Files, fetch: Fetch, sha: Sha256)
    returns (r: Result<(Packages, Files)>)
    ensures r.Ok? ==> r.value.0.Keys <= raw.Keys
    ensures r.Ok? && !prune ==> r.value.0.Keys == raw.Keys
    ensures r.Ok? ==> forall k :: k in r.value.0 ==>
                        r.value.0[k].depends == raw[k].depends && r.value.0[k].meta == raw[k].meta
    ensures r.Ok? ==> forall f :: f in files ==> f in r.value.1 && r.value.1[f] == files[f]
    ensures r.Err? ==> r.error.KeyError? || r.error.ValueError?
    ensures r.Err? && r.error.KeyError? && CanonicalKeys(raw) ==>
              !AllReachableHaveEntries(raw, re, includes, excludes)
    ensures r.Ok? && prune && LocalNotRemote(env) ==>
              forall k :: k in r.value.0 ==> !env.re(env.remoteUrl, r.value.0[k].fileName)
    ensures r.Ok? && prune ==> forall k :: k in r.value.0 <==> k in raw && Kept(raw, re, includes, excludes, k)
    ensures r.Ok? ==> forall k :: k in r.value.0 && !Kept(raw, re, includes, excludes, k) ==> r.value.0[k] == raw[k]
    ensures r.Ok? ==> forall k :: k in r.value.0 && Kept(raw, re, includes, excludes, k) ==>
                        Settled(env, sha, raw[k], r.value.0[k], r.value.1)
  {
    var names := KeptNames(raw, re, includes, excludes);
    if names.Err? {
      return Err(names.error);
    }
    var (leaf, dep) := names.value;
    var packages := GetPrunedPackages(raw, leaf, dep, prune);
    var order := SortedSet(leaf + dep);
    forall i, j | 0 <= i < j < |order|
      ensures order[i] != order[j]
    {
      StrictlySortedDistinct(order, i, j);
    }
    r := ResolveAll(order, env, packages, files, fetch, sha);
    if r.Ok? {
      forall k | k in r.value.0 && Kept(raw, re, includes, excludes, k)
        ensures Settled(env, sha, raw[k], r.value.0[k], r.value.1)
      {
        assert k in order;
        var j :| 0 <= j < |order| && order[j] == k;
      }
    }
    if r.Ok? && prune && LocalNotRemote(env) {
      forall k | k in r.value.0
        ensures !env.re(env.remoteUrl, r.value.0[k].fileName)
      {
        assert k in order;
        var j :| 0 <= j < |order| && order[j] == k;
      }
    }
  }
}

=== FILE: paths.dfy ===
/**
  File-system paths as the posix strings `pathlib` prints: joining a directory
  and a name, and a path's final component.
 */
module Paths {
  import opened Strings

  /** `directory / name` for a single-component name. */
  function Child(dir: string, name: string): (r: string)
    ensures EndsWith(r, name) && StartsWith(r, dir)
  {
    dir + "/" + name
  }

  /** `directory / path`, where an absolute `path` replaces the directory. */
  function JoinPath(dir: string, path: string): (r: string)
    ensures StartsWith(path, "/") ==> r == path
    ensures !StartsWith(path, "/") ==> r == Child(dir, path)
  {
    if StartsWith(path, "/") then path else Child(dir, path)
  }

  /** `Path(path).name`: the text after the last `/`. */
  function Name(path: string): (r: string)
    ensures Free(r, "/") && EndsWith(path, r)
  {
    LastSegmentIsSuffix(path, "/");
    LastSegment(path, "/")
  }

  /** When `dir` is empty or ends with `/` and `tail` holds no `/`, `tail` is the last segment. */
  lemma LastSegmentAfterSep(dir: string, tail: string)
    requires dir == "" || EndsWith(dir, "/")
    requires Free(tail, "/")
    ensures LastSegment(dir + tail, "/") == tail
  {
    var s := dir + tail;
    LastSegmentIsSuffix(s, "/");
    var r := LastSegment(s, "/");
    FreeSingle(tail, '/');
    FreeSingle(r, '/');
    if |r| < |s| {
      OccursAtSingle(s, '/', |s| - |r| - 1);
    }
    if |dir| > 0 {
      assert dir[|dir| - 1..] == "/";
    }
    SuffixLengths(s, |dir|, r, tail);
    assert r == s[|s| - |r|..];
    assert tail == s[|s| - |tail|..];
  }

  /**
    Two `/`-free suffixes of `s`, where `r` is preceded by `/` unless it is all
    of `s`, and `tail` starts at `d` right after a `/` (or at 0), have one length.
   */
  lemma SuffixLengths(s: string, d: nat, r: string, tail: string)
    requires d <= |s| && tail == s[d..] && |r| <= |s| && r == s[|s| - |r|..]
    requires '/' !in r && '/' !in tail
    requires |r| < |s| ==> s[|s| - |r| - 1] == '/'
    requires d > 0 ==> s[d - 1] == '/'
    ensures |r| == |tail|
  {
    var a := |s| - |r|;
    assert forall k :: d <= k < |s| ==> s[k] != '/' by {
      forall k | d <= k < |s| ensures s[k] != '/' {
        assert s[k] == tail[k - d];
      }
    }
    assert forall k :: a <= k < |s| ==> s[k] != '/' by {
      forall k | a <= k < |s| ensures s[k] != '/' {
        assert s[k] == r[k - a];
      }
    }
  }

  /** The final component of `dir / name` is `name`. */
  lemma NameOfChild(dir: string, name: string)
    requires '/' !in name
    ensures Name(Child(dir, name)) == name
  {
    FreeSingle(name, '/');
    assert dir + "/" + name == (dir + "/") + name;
    assert EndsWith(dir + "/", "/") by {
      assert (dir + "/")[|dir|..] == "/";
    }
    LastSegmentAfterSep(dir + "/", name);
  }
}

=== FILE: py.dfy ===
/**
  The Python runtime vocabulary shared by every module: optional values, the
  exceptions the modelled code can raise, and a result type that carries either
  a value or the exception that would have propagated.
 */
module Py {

  type byte = b: int | 0 <= b < 256

  /** The contents of a file or an HTTP body. */
  type Bytes = seq<byte>

  /**
    Whether a regular expression succeeds on a text: `re.match` (anchored at
    the start) or `re.search` (anywhere), as the caller decides. Regular
    expression semantics are a parameter of the model.
   */
  type Regex = (string, string) -> bool

  /** `shutil.which`: the absolute path of a command on the search path, if any. */
  type Which = string -> Option<string>

  datatype Option<+T> = None | Some(value: T) {
    predicate IsFailure() { None? }

    function PropagateFailure<U>(): Option<U>
      requires None?
    {
      None
    }

    function Extract(): T
      requires Some?
    {
      value
    }

    function GetOr(default: T): T {
      match this
      case Some(v) => v
      case None => default
    }
  }

  /** Python truthiness of an optional `str`: present and non-empty. */
  predicate Truthy(s: Option<string>) {
    s.Some? && s.value != ""
  }

  /** The exception kinds raised by the modelled code, with the detail it carries. */
  datatype Exception =
    | KeyError(key: string)
    | IndexError
    | ValueError(message: string)
    | TypeError(message: string)
    | AttributeError(message: string)
    | FileNotFoundError(path: string)
    | FileExistsError(path: string)
    | NotImplementedError
    | UnboundLocalError(name: string)
    | HTTPTimeoutError
    | HTTPError(code: int)

  /** A value, or the exception the Python code would raise instead. */
  datatype Result<+T> = Ok(value: T) | Err(error: Exception) {
    predicate IsFailure() { Err? }

    function PropagateFailure<U>(): Result<U>
      requires Err?
    {
      Err(error)
    }

    function Extract(): T
      requires Ok?
    {
      value
    }
  }
}

=== FILE: registry.dfy ===
/**
  Discovery of the locker implementations registered as entry points:
  one per name (the first registration of a name wins), keyed and sorted
  by name, and of those the ones that load.
 */
module Registry {
  import opened Py
  import opened Strings
  import opened Dicts

  /** An entry point of the locker group: its name and the object reference it names. */
  datatype EntryPoint = EntryPoint(name: string, value: string)

  /** `eps[j]` is the first entry point with its name. */
  predicate FirstOf(eps: seq<EntryPoint>, j: int)
    requires 0 <= j < |eps|
  {
    forall k :: 0 <= k < j ==> eps[k].name != eps[j].name
  }

  function Names(eps: seq<EntryPoint>): (r: set<string>)
    ensures forall e :: e in eps ==> e.name in r
    ensures forall n :: n in r ==> exists j :: 0 <= j < |eps| && eps[j].name == n
  {
    set e | e in eps :: e.name
  }

  /**
    The discovery loop: each entry point is added under its name unless
    that name is already registered, in which case it is skipped.
   */
  function Register(eps: seq<EntryPoint>): (r: Dict<EntryPoint>)
    ensures Registers(eps, r)
    decreases |eps|
  {
    if |eps| == 0 then []
    else
      var d := Register(eps[..|eps| - 1]);
      var e := eps[|eps| - 1];
      RegisterStep(eps, d);
      if e.name in Keys(d) then d else Put(d, e.name, e)
  }

  /**
    What the loop builds from `eps`: distinct names, exactly the names
    registered, each under its own name, the first registration of each.
   */
  ghost predicate Registers(eps: seq<EntryPoint>, r: Dict<EntryPoint>) {
    && Distinct(r)
    && Keys(r) == Names(eps)
    && (forall i :: 0 <= i < |r| ==> r[i].1.name == r[i].0)
    && (forall j :: 0 <= j < |eps| && FirstOf(eps, j) ==> Get(r, eps[j].name) == Some(eps[j]))
  }

  lemma RegisterStep(eps: seq<EntryPoint>, d: Dict<EntryPoint>)
    requires |eps| > 0 && Registers(eps[..|eps| - 1], d)
    ensures var e := eps[|eps| - 1];
            Registers(eps, if e.name in Keys(d) then d else Put(d, e.name, e))
  {
    var front := eps[..|eps| - 1];
    var e := eps[|eps| - 1];
    assert eps == front + [e];
    if e.name in Keys(d) {
      RegisterSkips(eps, front, e, d);
    } else {
      RegisterAdds(eps, front, e, d);
    }
  }

  lemma EarlierFirst(eps: seq<EntryPoint>, front: seq<EntryPoint>, e: EntryPoint, j: int)
    requires eps == front + [e] && 0 <= j < |front| && FirstOf(eps, j)
    ensures FirstOf(front, j)
  {
    forall k | 0 <= k < j ensures front[k].name != front[j].name {
      assert eps[k] == front[k];
    }
  }

  lemma RegisterSkips(eps: seq<EntryPoint>, front: seq<EntryPoint>, e: EntryPoint, d: Dict<EntryPoint>)
    requires eps == front + [e] && e.name in Keys(d) && Registers(front, d)
    ensures Registers(eps, d)
  {
    var i :| 0 <= i < |front| && front[i].name == e.name;
    assert eps[i].name == eps[|front|].name;
    assert !FirstOf(eps, |front|);
    forall j | 0 <= j < |front| && FirstOf(eps, j)
      ensures Get(d, eps[j].name) == Some(eps[j])
    {
      EarlierFirst(eps, front, e, j);
    }
  }

  lemma RegisterAdds(eps: seq<EntryPoint>, front: seq<EntryPoint>, e: EntryPoint, d: Dict<EntryPoint>)
    requires eps == front + [e] && e.name !in Keys(d) && Registers(front, d)
    ensures Registers(eps, Put(d, e.name, e))
  {
    var r := Put(d, e.name, e);
    assert r == d + [(e.name, e)];
    forall j | 0 <= j < |eps| && FirstOf(eps, j)
      ensures Get(r, eps[j].name) == Some(eps[j])
    {
      GetPut(d, e.name, e, eps[j].name);
      if j < |front| {
        EarlierFirst(eps, front, e, j);
        assert front[j].name in Names(front);
      }
    }
  }

  /** The name of an entry, the sort key of `sorted(d.items())` (names are distinct, so values are never compared). */
  function Name(item: (string, EntryPoint)): string {
    item.0
  }

  /** `get_locker_entry_points`: the registered entry points as a dict with sorted keys. */
  function EntryPoints(eps: seq<EntryPoint>): (r: Dict<EntryPoint>)
    ensures Distinct(r)
    ensures Keys(r) == Names(eps)
    ensures Ascending(r)
    ensures forall i :: 0 <= i < |r| ==> r[i].1.name == r[i].0
    ensures forall j :: 0 <= j < |eps| && FirstOf(eps, j) ==> Get(r, eps[j].name) == Some(eps[j])
  {
    var registered := Register(eps);
    var sorted := SortBy(registered, Name);
    Reordered(registered, sorted);
    SortedKeys(registered, sorted);
    sorted
  }

  lemma SortedKeys(registered: Dict<EntryPoint>, sorted: Dict<EntryPoint>)
    requires Distinct(registered) && multiset(sorted) == multiset(registered)
    requires SortedBy(sorted, Name)
    requires forall i :: 0 <= i < |registered| ==> registered[i].1.name == registered[i].0
    ensures Distinct(sorted)
    ensures Keys(sorted) == Keys(registered)
    ensures Ascending(sorted)
    ensures forall i :: 0 <= i < |sorted| ==> sorted[i].1.name == sorted[i].0
  {
    Reordered(registered, sorted);
    forall k ensures k in Keys(sorted) <==> k in Keys(registered) {
      assert Get(sorted, k) == Get(registered, k);
    }
    forall i, j | 0 <= i < j < |sorted| ensures Below(sorted[i].0, sorted[j].0) {
      SortedDistinctIsStrict(sorted, Name, i, j);
    }
    forall i | 0 <= i < |sorted| ensures sorted[i].1.name == sorted[i].0 {
      assert sorted[i] in multiset(registered);
    }
  }

  /**
    `get_locker_implementations`: the entries, in order, whose `load()`
    succeeds; a failing load is warned about and dropped.
   */
  function Loaded<I>(d: Dict<EntryPoint>, load: EntryPoint -> Result<I>): (r: Dict<I>)
    ensures Keys(r) <= Keys(d)
    ensures |r| <= |d|
    decreases |d|
  {
    if |d| == 0 then []
    else
      var rest := Loaded(d[1..], load);
      KeysCons(d[0], d[1..]);
      match load(d[0].1)
      case Ok(impl) => KeysCons((d[0].0, impl), rest); [(d[0].0, impl)] + rest
      case Err(_) => rest
  }

  /** Dropping the head of a dict keeps its keys distinct and sorted, and removes the head's key. */
  lemma Tail<V>(d: Dict<V>)
    requires |d| > 0
    ensures Distinct(d) ==> Distinct(d[1..]) && d[0].0 !in Keys(d[1..])
    ensures Ascending(d) ==> Ascending(d[1..])
  {
    forall a | 0 <= a < |d[1..]| ensures d[1..][a] == d[a + 1] { }
    if Distinct(d) {
      NotInKeys(d[1..], d[0].0);
    }
  }

  /** The keys are strictly ascending. */
  ghost predicate Ascending<V>(d: Dict<V>) {
    forall i, j :: 0 <= i < j < |d| ==> Below(d[i].0, d[j].0)
  }

  /** The loaded implementations keep the entry points' order. */
  lemma {:induction false} LoadedAscending<I>(d: Dict<EntryPoint>, load: EntryPoint -> Result<I>)
    requires Ascending(d)
    ensures Ascending(Loaded(d, load))
    decreases |d|
  {
    if |d| > 0 {
      Tail(d);
      LoadedAscending(d[1..], load);
      var rest := Loaded(d[1..], load);
      if load(d[0].1).Ok? {
        var r := Loaded(d, load);
        forall j | 0 < j < |r| ensures Below(r[0].0, r[j].0) {
          assert r[j] == rest[j - 1];
          KeysIn(d[1..], r[j].0);
          var m :| 0 <= m < |d[1..]| && d[1..][m].0 == r[j].0;
          assert d[m + 1].0 == r[j].0;
        }
        forall i, j | 0 < i < j < |r| ensures Below(r[i].0, r[j].0) {
          assert r[i] == rest[i - 1] && r[j] == rest[j - 1];
        }
      }
    }
  }

  /** Ascending keys are distinct. */
  lemma AscendingDistinct<V>(d: Dict<V>)
    requires Ascending(d)
    ensures Distinct(d)
  {
    forall i, j | 0 <= i < j < |d| ensures d[i].0 != d[j].0 {
      BelowIrreflexive(d[i].0);
    }
  }

  /** Each name has its loaded implementation exactly when its load succeeds. */
  lemma {:induction false} LoadedGet<I>(d: Dict<EntryPoint>, load: EntryPoint -> Result<I>, k: string)
    requires Distinct(d)
    ensures Get(Loaded(d, load), k) == if Get(d, k).Some? && load(Get(d, k).value).Ok?
                                       then Some(load(Get(d, k).value).value) else None
    decreases |d|
  {
    if |d| > 0 {
      Tail(d);
      LoadedGet(d[1..], load, k);
      if d[0].0 == k {
        var rest := Loaded(d[1..], load);
        assert k !in Keys(rest);
      }
    }
  }

  /** `get_locker_implementations` over what `get_locker_entry_points` discovers. */
  function Implementations<I>(eps: seq<EntryPoint>, load: EntryPoint -> Result<I>): (r: Dict<I>)
    ensures Distinct(r)
    ensures Keys(r) <= Names(eps)
    ensures Ascending(r)
    ensures forall j :: 0 <= j < |eps| && FirstOf(eps, j) ==>
              Get(r, eps[j].name) == if load(eps[j]).Ok? then Some(load(eps[j]).value) else None
  {
    var d := EntryPoints(eps);
    LoadedAscending(d, load);
    AscendingDistinct(Loaded(d, load));
    forall j | 0 <= j < |eps| && FirstOf(eps, j)
      ensures Get(Loaded(d, load), eps[j].name) == if load(eps[j]).Ok? then Some(load(eps[j]).value) else None
    {
      LoadedGet(d, load, eps[j].name);
    }
    Loaded(d, load)
  }

  /** A later registration under a taken name changes nothing. */
  lemma DuplicateIgnored(eps: seq<EntryPoint>, e: EntryPoint)
    requires e.name in Names(eps)
    ensures EntryPoints(eps + [e]) == EntryPoints(eps)
  {
    assert (eps + [e])[..|eps + [e]| - 1] == eps;
  }
}

=== FILE: routes.dfy ===
/**
  The route table of the browser locker's web application: which handler
  serves which URL pattern, with which initialisation arguments, and the
  proxy rules that cache remote CDNs.

  `MakeHandlers` is the table of src/.../handlers/__init__.py;
  `MakeHandlersOld` is the one of py/.../lockers/handlers.py.
 */
module Routes {
  import opened Py
  import opened Strings
  import opened Paths
  import opened Dicts
  import Cacher

  /** The URL prefix of the proxies. */
  const Proxy: string := "_proxy"

  /** The page the browser opens: `^/{LOCK_HTML}$`. */
  const LockPage: string := "^/lock.html$"

  /** The lockfile submission: `^/{PYODIDE_LOCK}$`. */
  const LockSubmission: string := "^/pyodide-lock.json$"

  const LogRoute: string := "^/log/(.*)$"

  /** The catch-all route, served from the site's output directory. */
  const Fallback: string := "^/(.*)$"

  const PyodideRoute: string := "^/static/pyodide/(.*)$"

  /** The keyword arguments a handler's `initialize` is given. */
  datatype Arg = Context | Log | LockerArg | Lockfile | PathArg | Remote | Rewrites | MimeMap | DefaultFilename

  /** The request handler classes. */
  datatype Handler =
    | SolverHtml
    | LockWriter
    | MicropipFreeze
    | LogRelay
    | CachingRemoteFiles
    | StaticFiles
    | ExtraMimeFiles

  /**
    A route: its URL pattern, its handler class, the names of the keyword
    arguments it passes to `initialize`, and the values of those the model
    inspects (the logger, the locker and the template context are objects
    it does not look into).
   */
  datatype Route = Route(
    pattern: string,
    handler: Handler,
    args: set<Arg>,
    path: Option<string>,
    remote: Option<string>,
    rewrites: Option<Cacher.Rewrites>,
    mimeMap: Option<Dict<string>>
  )

  /** A route whose arguments are objects or paths only. */
  function Plain(pattern: string, handler: Handler, args: set<Arg>, path: Option<string>): Route {
    Route(pattern, handler, args, path, None, None, None)
  }

  /** What the route table reads from the locker. */
  datatype Locker = Locker(
    baseUrl: string,
    cacheDir: string,
    outputDir: string,
    lockfileCache: string,
    pythonhostedCdnUrl: string,
    pypiApiUrl: string,
    pyodideCdnUrl: string,
    outputPyodideExists: bool,
    utf8: string -> Bytes
  )

  /** The default route of a proxy: `^/_proxy/<name>/(.*)$`. */
  function ProxyRoute(name: string): string {
    "^/" + Proxy + "/" + name + "/(.*)$"
  }

  /**
    `make_proxy`: a caching handler for `remote`, cached under
    `cache_dir/<name>`, on the given route or else the default one. The
    extra configuration callers pass is `rewrites` and `mime_map`, merged
    after the defaults.
   */
  function MakeProxy(locker: Locker, name: string, remote: string, route: Option<string>,
                     rewrites: Option<Cacher.Rewrites>, mimeMap: Option<Dict<string>>): (r: Route)
    ensures r.handler == CachingRemoteFiles
    ensures r.pattern == if Truthy(route) then route.value else ProxyRoute(name)
    ensures r.args == {PathArg, Remote, Log} + (if rewrites.Some? then {Rewrites} else {})
                      + (if mimeMap.Some? then {MimeMap} else {})
    ensures r.path == Some(Child(locker.cacheDir, name)) && r.remote == Some(remote)
    ensures r.rewrites == rewrites && r.mimeMap == mimeMap
  {
    var extra := (if rewrites.Some? then {Rewrites} else {}) + (if mimeMap.Some? then {MimeMap} else {});
    Route(if Truthy(route) then route.value else ProxyRoute(name), CachingRemoteFiles,
          {PathArg, Remote, Log} + extra, Some(Child(locker.cacheDir, name)), Some(remote), rewrites, mimeMap)
  }

  /** The CDN URL of the wheels and the local proxy that replaces it, as bytes. */
  function FilesCdn(locker: Locker): Bytes {
    locker.utf8(locker.pythonhostedCdnUrl)
  }

  function FilesLocal(locker: Locker): Bytes {
    locker.utf8(locker.baseUrl + "/" + Proxy + "/pythonhosted")
  }

  /** The rewrites of the PyPI proxy: in JSON responses the wheel CDN becomes the local proxy. */
  function PypiRewrites(locker: Locker): Cacher.Rewrites {
    [("/json$", [Cacher.Rule(FilesCdn(locker), Cacher.Literal(FilesLocal(locker)))])]
  }

  /** The MIME rule of the PyPI proxy. */
  const PypiMime: Dict<string> := [("/json$", "application/json")]

  /** The routes every version starts with: the page, the submission, the log. */
  function Front(lock: Route): seq<Route> {
    [
      Plain(LockPage, SolverHtml, {Context, Log}, None),
      lock,
      Plain(LogRoute, LogRelay, {Log}, None)
    ]
  }

  /** The two remote proxies. */
  function Proxies(locker: Locker): seq<Route> {
    [
      MakeProxy(locker, "pythonhosted", locker.pythonhostedCdnUrl, None, None, None),
      MakeProxy(locker, "pypi", locker.pypiApiUrl, None, Some(PypiRewrites(locker)), Some(PypiMime))
    ]
  }

  /** `make_handlers`: the fallback to `output_dir` comes last. */
  function MakeHandlers(locker: Locker): (r: seq<Route>)
    ensures |r| == 6
    ensures r[1] == Plain(LockSubmission, MicropipFreeze, {LockerArg}, None)
    ensures r[5] == Plain(Fallback, ExtraMimeFiles, {Log, PathArg}, Some(locker.outputDir))
  {
    Front(Plain(LockSubmission, MicropipFreeze, {LockerArg}, None)) + Proxies(locker)
    + [Plain(Fallback, ExtraMimeFiles, {Log, PathArg}, Some(locker.outputDir))]
  }

  /** The proxy of the pyodide distribution, used while the site has no copy of its own. */
  function PyodideProxies(locker: Locker): seq<Route> {
    if locker.outputPyodideExists then []
    else [MakeProxy(locker, "pyodide", locker.pyodideCdnUrl, Some(PyodideRoute), None, None)]
  }

  /** `make_handlers` of `handlers.py`, as written: the lock route is given only `lockfile`. */
  function MakeHandlersOld(locker: Locker): (r: seq<Route>)
    ensures |r| == 6 || |r| == 7
    ensures r[1] == Plain(LockSubmission, LockWriter, {Lockfile}, Some(locker.lockfileCache))
    ensures r[|r| - 1] == Plain(Fallback, StaticFiles, {PathArg}, Some(locker.outputDir))
  {
    Front(Plain(LockSubmission, LockWriter, {Lockfile}, Some(locker.lockfileCache))) + Proxies(locker)
    + PyodideProxies(locker) + [Plain(Fallback, StaticFiles, {PathArg}, Some(locker.outputDir))]
  }

  /** The patterns of a table, in order. */
  function Patterns(routes: seq<Route>): (r: seq<string>)
    ensures |r| == |routes| && forall i :: 0 <= i < |routes| ==> r[i] == routes[i].pattern
  {
    seq(|routes|, i requires 0 <= i < |routes| => routes[i].pattern)
  }

  /**
    The route order: the page, the submission, the log, the two proxies,
    the pyodide proxy exactly when the site has no pyodide of its own, and
    the catch-all last.
   */
  lemma OldRouteOrder(locker: Locker)
    ensures Patterns(MakeHandlersOld(locker))
            == [LockPage, LockSubmission, LogRoute, ProxyRoute("pythonhosted"), ProxyRoute("pypi")]
               + (if locker.outputPyodideExists then [] else [PyodideRoute])
               + [Fallback]
  {
    var front := Front(Plain(LockSubmission, LockWriter, {Lockfile}, Some(locker.lockfileCache)));
    var tail := [Plain(Fallback, StaticFiles, {PathArg}, Some(locker.outputDir))];
    PatternsAppend(front + Proxies(locker) + PyodideProxies(locker), tail);
    PatternsAppend(front + Proxies(locker), PyodideProxies(locker));
    PatternsAppend(front, Proxies(locker));
    FrontPatterns(Plain(LockSubmission, LockWriter, {Lockfile}, Some(locker.lockfileCache)));
    ProxyPatterns(locker);
    PyodidePatterns(locker);
    assert [LockPage, LockSubmission, LogRoute] + [ProxyRoute("pythonhosted"), ProxyRoute("pypi")]
        == [LockPage, LockSubmission, LogRoute, ProxyRoute("pythonhosted"), ProxyRoute("pypi")];
  }

  lemma FrontPatterns(lock: Route)
    requires lock.pattern == LockSubmission
    ensures Patterns(Front(lock)) == [LockPage, LockSubmission, LogRoute]
  {
  }

  lemma ProxyPatterns(locker: Locker)
    ensures Patterns(Proxies(locker)) == [ProxyRoute("pythonhosted"), ProxyRoute("pypi")]
  {
  }

  lemma PyodidePatterns(locker: Locker)
    ensures Patterns(PyodideProxies(locker)) == if locker.outputPyodideExists then [] else [PyodideRoute]
  {
  }

  lemma PatternsAppend(a: seq<Route>, b: seq<Route>)
    ensures Patterns(a + b) == Patterns(a) + Patterns(b)
  {
  }

  /** The same order in the newer table, which has no pyodide proxy. */
  lemma RouteOrder(locker: Locker)
    ensures Patterns(MakeHandlers(locker))
            == [LockPage, LockSubmission, LogRoute, ProxyRoute("pythonhosted"), ProxyRoute("pypi"), Fallback]
  {
  }

  /** The pyodide proxy is present exactly when the site's pyodide directory is not. */
  lemma PyodideProxyIff(locker: Locker)
    ensures (exists i :: 0 <= i < |MakeHandlersOld(locker)| && MakeHandlersOld(locker)[i].pattern == PyodideRoute)
            <==> !locker.outputPyodideExists
  {
    OldRouteOrder(locker);
    var p := Patterns(MakeHandlersOld(locker));
    if !locker.outputPyodideExists {
      assert p[5] == PyodideRoute;
    } else {
      assert forall i :: 0 <= i < |p| ==> p[i] != PyodideRoute;
    }
  }

  /**
    The PyPI proxy rewrites a JSON response: every occurrence of the wheel
    CDN becomes the local proxy; other paths are cached as fetched.
   */
  lemma PypiJsonRewrite(locker: Locker, path: string, body: Bytes, search: Regex, dialect: Cacher.Dialect)
    ensures Cacher.Rewrite(path, body, PypiRewrites(locker), search, dialect)
            == if search("/json$", path) && Contains(body, FilesCdn(locker))
               then Ok(ReplaceAll(body, FilesCdn(locker), FilesLocal(locker)))
               else Ok(body)
  {
    var rewrites := PypiRewrites(locker);
    var rule := Cacher.Rule(FilesCdn(locker), Cacher.Literal(FilesLocal(locker)));
    assert rewrites[1..] == [];
    assert rewrites[0].1[1..] == [];
    var out := Cacher.ApplyRule(body, rule, dialect);
    assert Cacher.ApplyRules(body, [rule], dialect) == out;
  }

  // ---------------------------------------------------------------------
  // Initialisation: whether a handler accepts the configuration it is given.

  /** The arguments `initialize` requires, through the base classes. */
  function Required(h: Handler): set<Arg> {
    match h
    case SolverHtml => {Context, Log}
    case LockWriter => {Lockfile, Log}
    case MicropipFreeze => {LockerArg}
    case LogRelay => {Log}
    case CachingRemoteFiles => {Remote, Log, PathArg}
    case StaticFiles => {PathArg}
    case ExtraMimeFiles => {Log, PathArg}
  }

  /** The optional arguments `initialize` accepts, through the base classes. */
  function Optional(h: Handler): set<Arg> {
    match h
    case CachingRemoteFiles => {Rewrites, MimeMap, DefaultFilename}
    case StaticFiles => {DefaultFilename}
    case ExtraMimeFiles => {MimeMap, DefaultFilename}
    case _ => {}
  }

  /** The required arguments `initialize` takes from `**kwargs` in its body rather than as parameters. */
  function Popped(h: Handler): set<Arg> {
    if h == SolverHtml then {Log} else {}
  }

  /**
    The error `initialize` raises for the arguments it is given: a missing
    parameter is a TypeError when the call binds its arguments, before the
    body runs; then `kwargs.pop("log")` fails with KeyError; an unexpected
    keyword is a TypeError.
   */
  function Initialize(h: Handler, args: set<Arg>): (r: Option<Exception>)
    ensures r.None? <==> Required(h) <= args <= Required(h) + Optional(h)
    ensures !(Required(h) - Popped(h) <= args) ==> r == Some(TypeError("initialize() missing a required argument"))
    ensures h == SolverHtml && Context in args && Log !in args ==> r == Some(KeyError("log"))
  {
    if !(Required(h) - Popped(h) <= args) then Some(TypeError("initialize() missing a required argument"))
    else if h == SolverHtml && Log !in args then Some(KeyError("log"))
    else if !(Required(h) <= args) then Some(TypeError("initialize() missing a required argument"))
    else if !(args <= Required(h) + Optional(h)) then Some(TypeError("initialize() got an unexpected keyword argument"))
    else None
  }

  /** The submission route of the newer table builds its handler. */
  lemma SubmissionInitializes(locker: Locker)
    ensures Initialize(MakeHandlers(locker)[1].handler, MakeHandlers(locker)[1].args).None?
  {
  }

  /** The proxies build their handlers, whatever their extra configuration. */
  lemma ProxyInitializes(locker: Locker, name: string, remote: string, route: Option<string>,
                         rewrites: Option<Cacher.Rewrites>, mimeMap: Option<Dict<string>>)
    ensures Initialize(CachingRemoteFiles, MakeProxy(locker, name, remote, route, rewrites, mimeMap).args).None?
  {
  }

  /** As written, the lock route of `handlers.py` lacks `log`: every submission fails with a TypeError. */
  lemma OldLockRouteFails(locker: Locker)
    ensures MakeHandlersOld(locker)[1].handler == LockWriter
    ensures Initialize(LockWriter, MakeHandlersOld(locker)[1].args) == Some(TypeError("initialize() missing a required argument"))
  {
  }

  /** The table of `handlers.py` with `log` passed to the lock route as well. */
  function MakeHandlersOldIntended(locker: Locker): (r: seq<Route>)
    ensures |r| == |MakeHandlersOld(locker)|
    ensures forall i :: 0 <= i < |r| && i != 1 ==> r[i] == MakeHandlersOld(locker)[i]
    ensures r[1] == Plain(LockSubmission, LockWriter, {Lockfile, Log}, Some(locker.lockfileCache))
  {
    var asWritten := MakeHandlersOld(locker);
    asWritten[1 := asWritten[1].(args := {Lockfile, Log})]
  }

  /** With `log` passed, the lock route of the older table builds its handler. */
  lemma OldLockRouteIntended(locker: Locker)
    ensures Initialize(LockWriter, MakeHandlersOldIntended(locker)[1].args).None?
  {
  }
}

=== FILE: splice.dfy ===
/**
  The marker splice of the development scripts: the text of a destination
  file between a pair of `### <name> ###` markers is replaced by the text
  between the same markers in a source file. `replace-between.py` does it for
  one source; the `replace_between` helper of `dodo.py` does it for several
  sources in turn.
 */
module Splice {
  import opened Py
  import opened Strings
  import opened Paths

  /** `### <name> ###`. */
  function Marker(name: string): (r: string)
    ensures |r| > 0 && StartsWith(r, "### ")
  {
    "### " + name + " ###"
  }

  /**
    The splice proper, once both texts hold the marker: the destination up to
    its first marker, the source between its first and second markers, and
    the destination between its second and third markers. A destination with
    a single marker has no third chunk, and Python raises `IndexError`.
   */
  function Splice(destText: string, srcText: string, marker: string): (r: Result<string>)
    requires |marker| > 0 && Contains(destText, marker) && Contains(srcText, marker)
    ensures r.Err? <==> |Split(destText, marker)| < 3
    ensures r.Err? ==> r.error == IndexError
    ensures r.Ok? ==> StartsWith(r.value, Split(destText, marker)[0] + marker)
    ensures r.Ok? ==> EndsWith(r.value, marker + Split(destText, marker)[2])
    ensures r.Ok? ==>
              && |Split(srcText, marker)| >= 2
              && r.value == Split(destText, marker)[0] + marker + Split(srcText, marker)[1] + marker + Split(destText, marker)[2]
  {
    ChunksOfContained(srcText, marker);
    ChunksOfContained(destText, marker);
    var src := Split(srcText, marker);
    var dest := Split(destText, marker);
    if |dest| < 3 then Err(IndexError)
    else
      var r := dest[0] + marker + src[1] + marker + dest[2];
      assert r[..|dest[0] + marker|] == dest[0] + marker;
      assert r[|r| - |marker + dest[2]|..] == marker + dest[2];
      Ok(r)
  }

  /** A text holding the separator splits into at least two chunks. */
  lemma ChunksOfContained(s: string, m: string)
    requires |m| > 0
    ensures Contains(s, m) <==> |Split(s, m)| >= 2
  {
    var f := Find(s, m);
    if f.None? {
      SplitNone(s, m);
    } else {
      SplitStep(s, m, f.value);
    }
  }

  /** The first chunk ends where the leftmost separator starts. */
  lemma FirstChunk(s: string, m: string, i: nat)
    requires |m| > 0 && Find(s, m) == Some(i)
    ensures FirstAt(s, m, i) && Split(s, m)[0] == s[..i] && |Split(s, m)[0]| == i
    ensures Split(s, m) == [s[..i]] + Split(s[i + |m|..], m)
  {
    SplitStep(s, m, i);
    FindFirstAt(s, m, i);
  }

  /** A text that starts with `a` followed by an occurrence of `m`. */
  lemma HeadThenSep(s: string, m: string, a: string)
    requires OccursAt(s, m, |a|) && s[..|a|] == a
    ensures StartsWith(s, a + m)
  {
    assert s[..|a| + |m|] == s[..|a|] + s[|a|..|a| + |m|];
  }

  /** The leftmost occurrence depends only on the text up to its end. */
  lemma FirstAtPrefix(s: string, t: string, m: string, i: nat)
    requires FirstAt(s, m, i) && StartsWith(t, s[..i + |m|])
    ensures FirstAt(t, m, i)
  {
    var p := s[..i + |m|];
    assert t[..|p|] == p;
    assert t[..|p|][i..i + |m|] == t[i..i + |m|];
    assert p[i..i + |m|] == s[i..i + |m|];
    forall j | 0 <= j < i ensures !OccursAt(t, m, j) {
      assert t[..|p|][j..j + |m|] == t[j..j + |m|];
      assert p[j..j + |m|] == s[j..j + |m|];
      assert !OccursAt(s, m, j);
    }
  }

  /** Splitting a text that starts with `a + m`, where `m` first occurs right after `a`. */
  lemma SplitAfter(s: string, t: string, m: string, a: string, rest: string)
    requires |m| > 0 && FirstAt(s, m, |a|) && StartsWith(s, a + m) && t == a + m + rest
    ensures Split(t, m) == [a] + Split(rest, m)
  {
    assert s[..|a| + |m|] == a + m;
    assert t[..|a| + |m|] == a + m;
    FirstAtPrefix(s, t, m, |a|);
    SplitAtFirstTo(t, m, |a|);
    assert t[..|a|] == a;
    assert t[|a| + |m|..] == rest;
  }

  /**
    When the destination holds the marker exactly twice and the source at
    least twice, the result holds it exactly twice too, with the source's
    middle chunk between the destination's outer chunks.
   */
  lemma SplicedChunks(destText: string, srcText: string, marker: string)
    requires |marker| > 0 && |Split(destText, marker)| == 3 && |Split(srcText, marker)| >= 3
    ensures Contains(destText, marker) && Contains(srcText, marker)
    ensures Splice(destText, srcText, marker).Ok?
    ensures Split(Splice(destText, srcText, marker).value, marker)
            == [Split(destText, marker)[0], Split(srcText, marker)[1], Split(destText, marker)[2]]
  {
    ChunksOfContained(srcText, marker);
    ChunksOfContained(destText, marker);
    var d := Split(destText, marker);
    var s := Split(srcText, marker);
    var srcRest := SecondChunkShape(srcText, marker);
    FirstChunkShape(destText, marker);
    LastChunkFree(destText, marker);
    ConcatChunks(d[0], s[1], d[2], marker, destText, srcRest);
  }

  /** Three chunks joined by the separator split back, when each of the first two is followed by the leftmost separator. */
  lemma ConcatChunks(a: string, b: string, c: string, m: string, s: string, u: string)
    requires |m| > 0
    requires FirstAt(s, m, |a|) && StartsWith(s, a + m)
    requires FirstAt(u, m, |b|) && StartsWith(u, b + m)
    requires Split(c, m) == [c]
    ensures Split(a + m + b + m + c, m) == [a, b, c]
  {
    var tail := b + m + c;
    assert a + m + b + m + c == a + m + tail;
    SplitAfter(s, a + m + tail, m, a, tail);
    SplitAfter(u, tail, m, b, c);
    assert [a] + ([b] + [c]) == [a, b, c];
  }

  /** A text with at least two chunks starts with its first chunk and the leftmost separator. */
  lemma FirstChunkShape(s: string, m: string)
    requires |m| > 0 && |Split(s, m)| >= 2
    ensures FirstAt(s, m, |Split(s, m)[0]|) && StartsWith(s, Split(s, m)[0] + m)
  {
    var c := Split(s, m);
    ChunksOfContained(s, m);
    FirstChunk(s, m, Find(s, m).value);
    HeadThenSep(s, m, c[0]);
  }

  /** Past the first separator, a text with at least three chunks starts with its second chunk and a separator. */
  lemma SecondChunkShape(s: string, m: string) returns (rest: string)
    requires |m| > 0 && |Split(s, m)| >= 3
    ensures |Split(s, m)[0]| + |m| <= |s| && rest == s[|Split(s, m)[0]| + |m|..]
    ensures FirstAt(rest, m, |Split(s, m)[1]|) && StartsWith(rest, Split(s, m)[1] + m)
  {
    var c := Split(s, m);
    ChunksOfContained(s, m);
    FirstChunk(s, m, Find(s, m).value);
    rest := s[|c[0]| + |m|..];
    assert Split(rest, m) == c[1..];
    FirstChunkShape(rest, m);
  }

  /** The last chunk of a text with exactly three chunks is free of the separator. */
  lemma LastChunkFree(s: string, m: string)
    requires |m| > 0 && |Split(s, m)| == 3
    ensures Split(Split(s, m)[2], m) == [Split(s, m)[2]]
  {
    SplitChunksFree(s, m);
    SplitFreeIsSingleton(Split(s, m)[2], m);
  }

  /** Splicing again from the same source changes nothing. */
  lemma SpliceIdempotent(destText: string, srcText: string, marker: string)
    requires |marker| > 0 && |Split(destText, marker)| == 3 && |Split(srcText, marker)| >= 3
    ensures Contains(destText, marker) && Contains(srcText, marker)
    ensures Splice(destText, srcText, marker).Ok?
    ensures Contains(Splice(destText, srcText, marker).value, marker)
    ensures Splice(Splice(destText, srcText, marker).value, srcText, marker) == Splice(destText, srcText, marker)
  {
    SplicedChunks(destText, srcText, marker);
    ChunksOfContained(Splice(destText, srcText, marker).value, marker);
  }

  /** What the script leaves behind: its return value and the text it writes, if any. */
  datatype Outcome = Outcome(returned: int, written: Option<string>)

  /** `pattern or f"### {source.name} ###"`: an absent or empty pattern means the default marker. */
  function PatternOr(pattern: Option<string>, sourcePath: string): (r: string)
    ensures |r| > 0
    ensures Truthy(pattern) ==> r == pattern.value
    ensures !Truthy(pattern) ==> r == Marker(Name(sourcePath))
  {
    if Truthy(pattern) then pattern.value else Marker(Name(sourcePath))
  }

  /**
    `replace-between.py`: a marker missing from the destination or the source
    returns 1 and writes nothing; otherwise the splice is written and `True`
    is returned, which is the integer 1 as well.
   */
  function ReplaceBetween(sourcePath: string, srcText: string, destText: string, pattern: Option<string>): (r: Result<Outcome>)
    ensures var m := PatternOr(pattern, sourcePath);
            r.Err? <==> Contains(destText, m) && Contains(srcText, m) && |Split(destText, m)| < 3
    ensures r.Ok? ==> r.value.returned == 1
    ensures r.Ok? ==> (r.value.written.Some? <==>
                         (Contains(destText, PatternOr(pattern, sourcePath)) && Contains(srcText, PatternOr(pattern, sourcePath))))
    ensures r.Ok? && r.value.written.Some? ==>
              Splice(destText, srcText, PatternOr(pattern, sourcePath)) == Ok(r.value.written.value)
  {
    var m := PatternOr(pattern, sourcePath);
    if !Contains(destText, m) then Ok(Outcome(1, None))
    else if !Contains(srcText, m) then Ok(Outcome(1, None))
    else
      var spliced :- Splice(destText, srcText, m);
      Ok(Outcome(1, Some(spliced)))
  }

  /** The script's return value is the same whether it wrote the file or found a marker missing. */
  lemma ReturnIndistinct(sourcePath: string, destText: string)
    requires Contains(destText, Marker(Name(sourcePath)))
    ensures ReplaceBetween(sourcePath, "", destText, None) == Ok(Outcome(1, None))
    ensures ReplaceBetween(sourcePath, destText, destText, None).Ok? ==>
              ReplaceBetween(sourcePath, destText, destText, None).value.returned == 1
              && ReplaceBetween(sourcePath, destText, destText, None).value.written.Some?
  {
    var m := Marker(Name(sourcePath));
    assert !OccursAt("", m, 0);
    assert Find("", m).None?;
  }

  /** The script as its `int` result type suggests: 0 once written, 1 when a marker is missing. */
  function ReplaceBetweenIntended(sourcePath: string, srcText: string, destText: string, pattern: Option<string>): (r: Result<Outcome>)
    ensures r.Ok? ==> (r.value.returned == 0 <==> r.value.written.Some?)
    ensures r.Ok? ==> r.value.returned in {0, 1}
    ensures ReplaceBetween(sourcePath, srcText, destText, pattern).Err? <==> r.Err?
    ensures r.Ok? ==> r.value.written == ReplaceBetween(sourcePath, srcText, destText, pattern).value.written
  {
    var asWritten :- ReplaceBetween(sourcePath, srcText, destText, pattern);
    Ok(Outcome(if asWritten.written.Some? then 0 else 1, asWritten.written))
  }

  // ---------------------------------------------------------------------
  // `dodo.py`: `U.replace_between(dest, srcs, src_names)`

  /** A source file: its path and its text. */
  datatype Source = Source(path: string, text: string)

  /** After one or more splices: whether all went through, and the destination's text. */
  datatype Spliced = Spliced(ok: bool, text: string)

  /** `src_names or [src.name for src in srcs]`. */
  function NamesOr(srcs: seq<Source>, names: Option<seq<string>>): (r: seq<string>)
    ensures names.Some? && |names.value| > 0 ==> r == names.value
    ensures !(names.Some? && |names.value| > 0) ==>
              |r| == |srcs| && forall i :: 0 <= i < |srcs| ==> r[i] == Name(srcs[i].path)
  {
    if names.Some? && |names.value| > 0 then names.value
    else seq(|srcs|, i requires 0 <= i < |srcs| => Name(srcs[i].path))
  }

  /** `zip(srcs, names, strict=False)`, as (source text, marker) pairs. */
  function Pairs(srcs: seq<Source>, names: seq<string>): (r: seq<(string, string)>)
    ensures |r| == if |srcs| < |names| then |srcs| else |names|
    ensures forall i :: 0 <= i < |r| ==> r[i] == (srcs[i].text, Marker(names[i]))
  {
    var n := if |srcs| < |names| then |srcs| else |names|;
    seq(n, i requires 0 <= i < n => (srcs[i].text, Marker(names[i])))
  }

  /** The splices applied in turn, each to the text the previous one wrote; a missing marker stops with `False`. */
  function SpliceEach(destText: string, pairs: seq<(string, string)>): (r: Result<Spliced>)
    requires forall i :: 0 <= i < |pairs| ==> |pairs[i].1| > 0
    ensures r.Ok? && r.value.ok ==> forall i :: 0 <= i < |pairs| ==> Contains(pairs[i].0, pairs[i].1)
    ensures r.Ok? && !r.value.ok ==> exists i :: 0 <= i < |pairs| && MissingAt(destText, pairs, i)
    decreases |pairs|
  {
    if |pairs| == 0 then Ok(Spliced(true, destText))
    else
      var (srcText, marker) := pairs[0];
      if !Contains(destText, marker) || !Contains(srcText, marker) then
        assert MissingAt(destText, pairs, 0);
        Ok(Spliced(false, destText))
      else
        var next :- Splice(destText, srcText, marker);
        var r := SpliceEach(next, pairs[1..]);
        SpliceEachTail(destText, next, pairs, r);
        r
  }

  /**
    The marker of pair `i` is missing from its source, or from the
    destination as the earlier pairs left it, and those earlier pairs all
    went through.
   */
  ghost predicate MissingAt(destText: string, pairs: seq<(string, string)>, i: int)
    requires forall k :: 0 <= k < |pairs| ==> |pairs[k].1| > 0
    decreases |pairs|
  {
    0 <= i < |pairs| &&
    var (srcText, marker) := pairs[0];
    if !Contains(destText, marker) || !Contains(srcText, marker) then i == 0
    else
      var next := Splice(destText, srcText, marker);
      i > 0 && next.Ok? && MissingAt(next.value, pairs[1..], i - 1)
  }

  lemma SpliceEachTail(destText: string, next: string, pairs: seq<(string, string)>, r: Result<Spliced>)
    requires forall i :: 0 <= i < |pairs| ==> |pairs[i].1| > 0
    requires |pairs| > 0 && Contains(destText, pairs[0].1) && Contains(pairs[0].0, pairs[0].1)
    requires Splice(destText, pairs[0].0, pairs[0].1) == Ok(next)
    requires r.Ok? && r.value.ok ==> forall i :: 0 <= i < |pairs[1..]| ==> Contains(pairs[1..][i].0, pairs[1..][i].1)
    requires r.Ok? && !r.value.ok ==> exists i :: 0 <= i < |pairs[1..]| && MissingAt(next, pairs[1..], i)
    ensures r.Ok? && r.value.ok ==> forall i :: 0 <= i < |pairs| ==> Contains(pairs[i].0, pairs[i].1)
    ensures r.Ok? && !r.value.ok ==> exists i :: 0 <= i < |pairs| && MissingAt(destText, pairs, i)
  {
    if r.Ok? && r.value.ok {
      forall i | 0 < i < |pairs| ensures Contains(pairs[i].0, pairs[i].1) {
        assert pairs[1..][i - 1] == pairs[i];
      }
    }
    if r.Ok? && !r.value.ok {
      var i :| 0 <= i < |pairs[1..]| && MissingAt(next, pairs[1..], i);
      assert MissingAt(destText, pairs, i + 1);
    }
  }

  /** `U.replace_between`: the names (or the sources' file names) make the markers; see `SpliceEach`. */
  function ReplaceBetweenAll(destText: string, srcs: seq<Source>, names: Option<seq<string>>): (r: Result<Spliced>)
    ensures r.Ok? && r.value.ok ==>
              forall i :: 0 <= i < |Pairs(srcs, NamesOr(srcs, names))| ==>
                Contains(srcs[i].text, Marker(NamesOr(srcs, names)[i]))
    ensures |srcs| == 0 ==> r == Ok(Spliced(true, destText))
  {
    SpliceEach(destText, Pairs(srcs, NamesOr(srcs, names)))
  }

  /**
    For a single source whose name is the marker's, the helper and the
    script splice the same text, and the helper's `False` is the script's
    writing nothing.
   */
  lemma HelperAgreesWithScript(destText: string, src: Source)
    ensures var helper := ReplaceBetweenAll(destText, [src], None);
            var script := ReplaceBetween(src.path, src.text, destText, None);
            (helper.Err? <==> script.Err?) &&
            (helper.Ok? ==> (helper.value.ok <==> script.value.written.Some?)) &&
            (helper.Ok? && helper.value.ok ==> helper.value.text == script.value.written.value)
  {
    var m := Marker(Name(src.path));
    var pairs := Pairs([src], NamesOr([src], None));
    assert pairs == [(src.text, m)];
    assert PatternOr(None, src.path) == m;
    if Contains(destText, m) && Contains(src.text, m) {
      var next := Splice(destText, src.text, m);
      if next.Ok? {
        assert pairs[1..] == [];
        assert SpliceEach(next.value, pairs[1..]) == Ok(Spliced(true, next.value));
      }
    }
  }

  /** Given more names than sources, or more sources than names, only the first of the longer list are used. */
  lemma ZipTruncates(destText: string, srcs: seq<Source>, names: seq<string>)
    requires |names| > 0
    ensures ReplaceBetweenAll(destText, srcs, Some(names))
            == ReplaceBetweenAll(destText, srcs[..if |srcs| < |names| then |srcs| else |names|], Some(names))
  {
    var n := if |srcs| < |names| then |srcs| else |names|;
    assert Pairs(srcs, names) == Pairs(srcs[..n], names);
  }
}

=== FILE: strings.dfy ===
/**
  Python's sequence operations on `str` and `bytes`, stated once over `seq<T>`:
  `in`, `find`, `startswith`, `endswith`, `split(sep)`, `sep.join`, and
  `replace` (all occurrences, or the first one when `count=1`).
 */
module Strings {
  import opened Py

  /** `m` occurs in `s` starting at index `i`. */
  predicate OccursAt<T(==)>(s: seq<T>, m: seq<T>, i: int) {
    0 <= i && i + |m| <= |s| && s[i..i + |m|] == m
  }

  /** No occurrence of `m` anywhere in `s`. */
  ghost predicate Free<T>(s: seq<T>, m: seq<T>) {
    forall j :: !OccursAt(s, m, j)
  }

  predicate StartsWith<T(==)>(s: seq<T>, p: seq<T>) {
    |p| <= |s| && s[..|p|] == p
  }

  predicate EndsWith<T(==)>(s: seq<T>, p: seq<T>) {
    |p| <= |s| && s[|s| - |p|..] == p
  }

  lemma OccursInTail<T>(s: seq<T>, m: seq<T>, j: int)
    requires |s| > 0 && j >= 0
    ensures OccursAt(s[1..], m, j) <==> OccursAt(s, m, j + 1)
  {
    if 0 <= j && j + |m| <= |s| - 1 {
      assert s[1..][j..j + |m|] == s[j + 1..j + 1 + |m|];
    }
  }

  /** A one-element pattern occurs exactly where that element stands. */
  lemma OccursAtSingle<T>(s: seq<T>, c: T, j: int)
    ensures OccursAt(s, [c], j) <==> 0 <= j < |s| && s[j] == c
  {
    if 0 <= j < |s| {
      assert s[j..j + 1] == [s[j]];
    }
  }

  /** A sequence is free of a one-element pattern exactly when it lacks the element. */
  lemma FreeSingle<T>(s: seq<T>, c: T)
    ensures Free(s, [c]) <==> c !in s
  {
    forall j ensures OccursAt(s, [c], j) <==> 0 <= j < |s| && s[j] == c {
      OccursAtSingle(s, c, j);
    }
  }

  /** `s.find(m)`: the index of the leftmost occurrence, if there is one. */
  function Find<T(==)>(s: seq<T>, m: seq<T>): (r: Option<nat>)
    ensures r.Some? ==> OccursAt(s, m, r.value)
    ensures r.Some? ==> forall j :: 0 <= j < r.value ==> !OccursAt(s, m, j)
    ensures r.None? ==> Free(s, m)
    decreases |s|
  {
    if OccursAt(s, m, 0) then Some(0)
    else if |s| == 0 then None
    else
      var t := Find(s[1..], m);
      assert forall j :: 1 <= j ==> (OccursAt(s, m, j) <==> OccursAt(s[1..], m, j - 1)) by {
        forall j | 1 <= j ensures OccursAt(s, m, j) <==> OccursAt(s[1..], m, j - 1) {
          OccursInTail(s, m, j - 1);
        }
      }
      match t
      case None => None
      case Some(j) => Some(j + 1)
  }

  /** The leftmost occurrence is what `find` reports. */
  lemma FindAt<T>(s: seq<T>, m: seq<T>, i: nat)
    requires OccursAt(s, m, i)
    requires forall j :: 0 <= j < i ==> !OccursAt(s, m, j)
    ensures Find(s, m) == Some(i)
  {

  }

  /** Python's `m in s`. */
  predicate Contains<T(==)>(s: seq<T>, m: seq<T>) {
    Find(s, m).Some?
  }

  /** The empty pattern occurs in everything, as in Python. */
  lemma EmptyContained<T>(s: seq<T>)
    ensures Contains(s, [])
  {
    assert OccursAt(s, [], 0);
  }

  /** An occurrence inside a prefix is an occurrence in the whole sequence. */
  lemma OccursInPrefix<T>(s: seq<T>, m: seq<T>, k: int, j: int)
    requires 0 <= k <= |s|
    requires OccursAt(s[..k], m, j)
    ensures OccursAt(s, m, j)
  {
    assert s[..k][j..j + |m|] == s[j..j + |m|];
  }

  /** The text before the leftmost occurrence holds no occurrence. */
  lemma PrefixBeforeFindFree<T>(s: seq<T>, m: seq<T>, i: nat)
    requires |m| > 0 && Find(s, m) == Some(i)
    ensures Free(s[..i], m)
  {
    forall j ensures !OccursAt(s[..i], m, j) {
      if OccursAt(s[..i], m, j) {
        OccursInPrefix(s, m, i, j);
      }
    }
  }

  /** Python's `s.split(m)` for a non-empty separator, scanning left to right. */
  function Split<T(==)>(s: seq<T>, m: seq<T>): (r: seq<seq<T>>)
    requires |m| > 0
    ensures |r| >= 1
    decreases |s|
  {
    if StartsWith(s, m) then [[]] + Split(s[|m|..], m)
    else if |s| == 0 then [[]]
    else
      var t := Split(s[1..], m);
      [[s[0]] + t[0]] + t[1..]
  }

  /** `i` is the leftmost occurrence of `m` in `s`. */
  ghost predicate FirstAt<T>(s: seq<T>, m: seq<T>, i: nat) {
    OccursAt(s, m, i) && forall j :: 0 <= j < i ==> !OccursAt(s, m, j)
  }

  lemma FindFirstAt<T>(s: seq<T>, m: seq<T>, i: nat)
    requires Find(s, m) == Some(i)
    ensures FirstAt(s, m, i)
  {
  }

  /** Past an element that starts no occurrence, the leftmost one is one place nearer. */
  lemma FirstAtTail<T>(s: seq<T>, m: seq<T>, i: nat)
    requires FirstAt(s, m, i) && i > 0
    ensures FirstAt(s[1..], m, i - 1)
  {
    OccursInTail(s, m, i - 1);
    forall j | 0 <= j < i - 1
      ensures !OccursAt(s[1..], m, j)
    {
      OccursInTail(s, m, j);
    }
  }

  /** A text with no occurrence keeps none once its first element is dropped. */
  lemma FreeTail<T>(s: seq<T>, m: seq<T>)
    requires |s| > 0 && Free(s, m)
    ensures Free(s[1..], m)
  {
    forall j ensures !OccursAt(s[1..], m, j) {
      if j >= 0 {
        OccursInTail(s, m, j);
      }
    }
  }

  /** How the slices of `s[1..]` sit inside `s`. */
  lemma TailSlices<T>(s: seq<T>, i: nat, k: nat)
    requires 0 < i <= k <= |s|
    ensures s[1..][k - 1..] == s[k..]
    ensures [s[0]] + s[1..][..i - 1] == s[..i]
  {
  }

  lemma ConsChunk<T>(c: T, x: seq<T>, rest: seq<seq<T>>)
    ensures [[c] + ([x] + rest)[0]] + ([x] + rest)[1..] == [[c] + x] + rest
  {
    assert ([x] + rest)[1..] == rest;
  }

  lemma Regroup<T>(c: T, x: seq<T>, y: seq<T>, z: seq<T>)
    ensures [c] + (x + y + z) == [c] + x + y + z
  {
  }

  /** `StartsWith` is an occurrence at index 0. */
  lemma StartsWithAtZero<T>(s: seq<T>, m: seq<T>)
    ensures StartsWith(s, m) <==> OccursAt(s, m, 0)
  {
    if |m| <= |s| {
      assert s[..|m|] == s[0..|m|];
    }
  }

  lemma SplitAtSep<T>(s: seq<T>, m: seq<T>)
    requires |m| > 0 && StartsWith(s, m)
    ensures Split(s, m) == [[]] + Split(s[|m|..], m)
  {
  }

  lemma SplitPast<T>(s: seq<T>, m: seq<T>)
    requires |m| > 0 && |s| > 0 && !StartsWith(s, m)
    ensures Split(s, m) == [[s[0]] + Split(s[1..], m)[0]] + Split(s[1..], m)[1..]
  {
  }

  lemma SplitAtStart<T>(s: seq<T>, m: seq<T>, k: nat)
    requires |m| > 0 && OccursAt(s, m, 0) && k == |m|
    ensures Split(s, m) == [s[..0]] + Split(s[k..], m)
  {
    StartsWithAtZero(s, m);
    SplitAtSep(s, m);
    assert s[..0] == [];
  }

  lemma SplitPastStep<T>(s: seq<T>, m: seq<T>, i: nat, k: nat)
    requires |m| > 0 && 0 < i && k == i + |m| && k <= |s| && !OccursAt(s, m, 0)
    requires Split(s[1..], m) == [s[1..][..i - 1]] + Split(s[1..][k - 1..], m)
    ensures Split(s, m) == [s[..i]] + Split(s[k..], m)
  {
    StartsWithAtZero(s, m);
    SplitPast(s, m);
    TailSlices(s, i, k);
    ConsChunk(s[0], s[1..][..i - 1], Split(s[k..], m));
  }

  /** Splitting at the leftmost separator, then splitting the rest. */
  lemma {:induction false} SplitAtFirst<T>(s: seq<T>, m: seq<T>, i: nat, k: nat)
    requires |m| > 0 && FirstAt(s, m, i) && k == i + |m|
    ensures Split(s, m) == [s[..i]] + Split(s[k..], m)
    decreases i
  {
    if i == 0 {
      SplitAtStart(s, m, k);
    } else {
      FirstAtTail(s, m, i);
      SplitAtFirst(s[1..], m, i - 1, k - 1);
      SplitPastStep(s, m, i, k);
    }
  }

  /** A text without the separator is one chunk. */
  lemma {:induction false} SplitFreeIsSingleton<T>(s: seq<T>, m: seq<T>)
    requires |m| > 0 && Free(s, m)
    ensures Split(s, m) == [s]
    decreases |s|
  {
    StartsWithAtZero(s, m);
    if |s| > 0 {
      SplitPast(s, m);
      FreeTail(s, m);
      SplitFreeIsSingleton(s[1..], m);
      assert [s[0]] + s[1..] == s;
    }
  }

  /** Splitting at the first separator found, then splitting the rest. */
  lemma SplitStep<T>(s: seq<T>, m: seq<T>, i: nat)
    requires |m| > 0 && Find(s, m) == Some(i)
    ensures Split(s, m) == [s[..i]] + Split(s[i + |m|..], m)
  {
    FindFirstAt(s, m, i);
    SplitAtFirstTo(s, m, i);
  }

  lemma SplitAtFirstTo<T>(s: seq<T>, m: seq<T>, i: nat)
    requires |m| > 0 && FirstAt(s, m, i)
    ensures Split(s, m) == [s[..i]] + Split(s[i + |m|..], m)
  {
    SplitAtFirst(s, m, i, i + |m|);
  }

  lemma SplitNone<T>(s: seq<T>, m: seq<T>)
    requires |m| > 0 && Find(s, m).None?
    ensures Split(s, m) == [s] && Free(s, m)
  {
    SplitFreeIsSingleton(s, m);
  }

  /** Python's `sep.join(parts)`. */
  function Join<T>(parts: seq<seq<T>>, sep: seq<T>): seq<T> {
    if |parts| == 0 then []
    else if |parts| == 1 then parts[0]
    else parts[0] + sep + Join(parts[1..], sep)
  }

  /** Every chunk of a split is free of the separator. */
  lemma {:induction false} SplitChunksFree<T>(s: seq<T>, m: seq<T>)
    requires |m| > 0
    ensures forall k :: 0 <= k < |Split(s, m)| ==> Free(Split(s, m)[k], m)
    decreases |s|
  {
    match Find(s, m)
    case None =>
      SplitNone(s, m);
    case Some(i) =>
      SplitStep(s, m, i);
      PrefixBeforeFindFree(s, m, i);
      SplitChunksFree(s[i + |m|..], m);
  }

  lemma JoinCons<T>(a: seq<T>, b: seq<seq<T>>, sep: seq<T>)
    requires |b| > 0
    ensures Join([a] + b, sep) == a + sep + Join(b, sep)
  {
    assert ([a] + b)[1..] == b;
  }

  /** Joining the chunks of a split with the separator restores the text. */
  lemma {:induction false} JoinSplit<T>(s: seq<T>, m: seq<T>)
    requires |m| > 0
    ensures Join(Split(s, m), m) == s
    decreases |s|
  {
    match Find(s, m)
    case None =>
      SplitNone(s, m);
    case Some(i) =>
      SplitStep(s, m, i);
      JoinSplit(s[i + |m|..], m);
      FindFirstAt(s, m, i);
      JoinSplitStep(s, m, i);
  }

  lemma JoinSplitStep<T>(s: seq<T>, m: seq<T>, i: nat)
    requires |m| > 0 && OccursAt(s, m, i)
    requires Split(s, m) == [s[..i]] + Split(s[i + |m|..], m)
    requires Join(Split(s[i + |m|..], m), m) == s[i + |m|..]
    ensures Join(Split(s, m), m) == s
  {
    JoinCons(s[..i], Split(s[i + |m|..], m), m);
    SplitThree(s, i, i + |m|);
  }

  lemma SplitThree<T>(s: seq<T>, i: int, k: int)
    requires 0 <= i <= k <= |s|
    ensures s == s[..i] + s[i..k] + s[k..]
  {
  }

  /**
    Python's `s.replace(pat, repl)`: every occurrence found scanning left to
    right is replaced; an empty `pat` inserts `repl` around every element.
   */
  function ReplaceAll<T(==)>(s: seq<T>, pat: seq<T>, repl: seq<T>): (r: seq<T>)
  {
    if |pat| == 0 then ReplaceEmpty(s, repl) else ReplaceFound(s, pat, repl)
  }

  /** Replacing a non-empty pattern by itself changes nothing. */
  lemma ReplaceSelf<T>(s: seq<T>, pat: seq<T>)
    requires |pat| > 0
    ensures ReplaceAll(s, pat, pat) == s
  {
    ReplaceAllIsJoinSplit(s, pat, pat);
    JoinSplit(s, pat);
  }

  /** `replace` with an empty pattern: `repl` before every element and at the end. */
  function ReplaceEmpty<T>(s: seq<T>, repl: seq<T>): (r: seq<T>)
  {
    if |s| == 0 then repl else repl + [s[0]] + ReplaceEmpty(s[1..], repl)
  }

  /** `replace` with a non-empty pattern, scanning left to right. */
  function ReplaceFound<T(==)>(s: seq<T>, pat: seq<T>, repl: seq<T>): (r: seq<T>)
    requires |pat| > 0
    decreases |s|
  {
    if StartsWith(s, pat) then repl + ReplaceFound(s[|pat|..], pat, repl)
    else if |s| == 0 then []
    else [s[0]] + ReplaceFound(s[1..], pat, repl)
  }

  /** Replacing all occurrences is joining the split chunks with the replacement. */
  lemma {:induction false} ReplaceAllIsJoinSplit<T>(s: seq<T>, pat: seq<T>, repl: seq<T>)
    requires |pat| > 0
    ensures ReplaceAll(s, pat, repl) == Join(Split(s, pat), repl)
    decreases |s|
  {
    var f := Find(s, pat);
    if f.None? {
      SplitNone(s, pat);
      ReplaceAllFree(s, pat, repl);
    } else {
      var i := f.value;
      var rest := s[i + |pat|..];
      ReplaceAllIsJoinSplit(rest, pat, repl);
      ReplaceStep(s, pat, repl, i);
      SplitStep(s, pat, i);
      JoinCons(s[..i], Split(rest, pat), repl);
    }
  }

  /** Replacing at the first occurrence found, then replacing in the rest. */
  lemma ReplaceStep<T>(s: seq<T>, pat: seq<T>, repl: seq<T>, i: nat)
    requires |pat| > 0 && Find(s, pat) == Some(i)
    ensures ReplaceAll(s, pat, repl) == s[..i] + repl + ReplaceAll(s[i + |pat|..], pat, repl)
  {
    FindFirstAt(s, pat, i);
    ReplaceAtFirstTo(s, pat, repl, i);
  }

  lemma ReplaceAtFirstTo<T>(s: seq<T>, pat: seq<T>, repl: seq<T>, i: nat)
    requires |pat| > 0 && FirstAt(s, pat, i)
    ensures ReplaceAll(s, pat, repl) == s[..i] + repl + ReplaceAll(s[i + |pat|..], pat, repl)
  {
    ReplaceAtFirst(s, pat, repl, i, i + |pat|);
  }

  lemma ReplaceFoundAt<T>(s: seq<T>, pat: seq<T>, repl: seq<T>)
    requires |pat| > 0 && StartsWith(s, pat)
    ensures ReplaceFound(s, pat, repl) == repl + ReplaceFound(s[|pat|..], pat, repl)
  {
  }

  lemma ReplaceFoundPast<T>(s: seq<T>, pat: seq<T>, repl: seq<T>)
    requires |pat| > 0 && |s| > 0 && !StartsWith(s, pat)
    ensures ReplaceFound(s, pat, repl) == [s[0]] + ReplaceFound(s[1..], pat, repl)
  {
  }

  lemma ReplaceAtStart<T>(s: seq<T>, pat: seq<T>, repl: seq<T>, k: nat)
    requires |pat| > 0 && OccursAt(s, pat, 0) && k == |pat|
    ensures ReplaceFound(s, pat, repl) == s[..0] + repl + ReplaceFound(s[k..], pat, repl)
  {
    StartsWithAtZero(s, pat);
    ReplaceFoundAt(s, pat, repl);
    assert s[..0] + repl == repl;
  }

  lemma ReplacePastStep<T>(s: seq<T>, pat: seq<T>, repl: seq<T>, i: nat, k: nat)
    requires |pat| > 0 && 0 < i && k == i + |pat| && k <= |s| && !OccursAt(s, pat, 0)
    requires ReplaceFound(s[1..], pat, repl) == s[1..][..i - 1] + repl + ReplaceFound(s[1..][k - 1..], pat, repl)
    ensures ReplaceFound(s, pat, repl) == s[..i] + repl + ReplaceFound(s[k..], pat, repl)
  {
    StartsWithAtZero(s, pat);
    ReplaceFoundPast(s, pat, repl);
    TailSlices(s, i, k);
    Regroup(s[0], s[1..][..i - 1], repl, ReplaceFound(s[k..], pat, repl));
  }

  lemma {:induction false} ReplaceAtFirst<T>(s: seq<T>, pat: seq<T>, repl: seq<T>, i: nat, k: nat)
    requires |pat| > 0 && FirstAt(s, pat, i) && k == i + |pat|
    ensures ReplaceFound(s, pat, repl) == s[..i] + repl + ReplaceFound(s[k..], pat, repl)
    decreases i
  {
    if i == 0 {
      ReplaceAtStart(s, pat, repl, k);
    } else {
      FirstAtTail(s, pat, i);
      ReplaceAtFirst(s[1..], pat, repl, i - 1, k - 1);
      ReplacePastStep(s, pat, repl, i, k);
    }
  }

  /** A text without the pattern is left untouched by `replace`. */
  lemma {:induction false} ReplaceAllFree<T>(s: seq<T>, pat: seq<T>, repl: seq<T>)
    requires |pat| > 0 && Free(s, pat)
    ensures ReplaceAll(s, pat, repl) == s
    decreases |s|
  {
    StartsWithAtZero(s, pat);
    if |s| > 0 {
      ReplaceFoundPast(s, pat, repl);
      FreeTail(s, pat);
      ReplaceAllFree(s[1..], pat, repl);
      assert [s[0]] + s[1..] == s;
    }
  }

  /** A text that lacks the pattern's first element holds no occurrence of it. */
  lemma FreeOfHead<T>(s: seq<T>, pat: seq<T>)
    requires |pat| > 0 && pat[0] !in s
    ensures Free(s, pat)
  {
    forall j ensures !OccursAt(s, pat, j) {
      if 0 <= j && j + |pat| <= |s| {
        assert s[j..j + |pat|][0] == s[j];
      }
    }
  }

  /** In `a + pat`, where `a` lacks the pattern's first element, the one occurrence is the final one. */
  lemma ReplaceAtEnd<T>(a: seq<T>, pat: seq<T>, repl: seq<T>)
    requires |pat| > 0 && pat[0] !in a
    ensures ReplaceAll(a + pat, pat, repl) == a + repl
  {
    var s := a + pat;
    forall j | 0 <= j < |a|
      ensures !OccursAt(s, pat, j)
    {
      assert s[j] == a[j];
      if j + |pat| <= |s| {
        assert s[j..j + |pat|][0] == s[j];
      }
    }
    assert s[|a|..|a| + |pat|] == pat;
    ReplaceAtFirst(s, pat, repl, |a|, |a| + |pat|);
    assert s[|a| + |pat|..] == [];
    assert s[..|a|] == a;
  }

  /** Python's `s.replace(pat, repl, 1)`. */
  function ReplaceFirst<T(==)>(s: seq<T>, pat: seq<T>, repl: seq<T>): (r: seq<T>)
    ensures Find(s, pat).None? ==> r == s
    ensures Find(s, pat).Some? ==>
              var i := Find(s, pat).value;
              r == s[..i] + repl + s[i + |pat|..]
  {
    match Find(s, pat)
    case None => s
    case Some(i) => s[..i] + repl + s[i + |pat|..]
  }

  function Last<T>(s: seq<T>): T
    requires |s| > 0
  {
    s[|s| - 1]
  }

  /** Python's `s.split(sep)[-1]`: the text after the last separator. */
  function LastSegment<T(==)>(s: seq<T>, sep: seq<T>): (r: seq<T>)
    requires |sep| > 0
  {
    Last(Split(s, sep))
  }

  /**
    The last segment is a suffix free of the separator, and unless it is the
    whole text, a separator stands right before it.
   */
  lemma LastSegmentIsSuffix<T>(s: seq<T>, sep: seq<T>)
    requires |sep| > 0
    ensures EndsWith(s, LastSegment(s, sep))
    ensures Free(LastSegment(s, sep), sep)
    ensures |LastSegment(s, sep)| < |s| ==>
              OccursAt(s, sep, |s| - |LastSegment(s, sep)| - |sep|)
  {
    LastSegmentShape(s, sep);
    LastSegmentFree(s, sep);
    var n := |LastSegment(s, sep)|;
    if n < |s| {
      SepBeforeOccurs(s, sep, n);
    }
  }

  lemma LastSegmentFree<T>(s: seq<T>, sep: seq<T>)
    requires |sep| > 0
    ensures Free(LastSegment(s, sep), sep)
  {
    SplitChunksFree(s, sep);
    var parts := Split(s, sep);
    assert LastSegment(s, sep) == parts[|parts| - 1];
  }

  lemma SepBeforeOccurs<T>(s: seq<T>, sep: seq<T>, n: nat)
    requires SepBefore(s, sep, n)
    ensures OccursAt(s, sep, |s| - n - |sep|)
  {
  }

  /** A separator stands right before the last `n` elements of `s`. */
  predicate SepBefore<T(==)>(s: seq<T>, sep: seq<T>, n: nat) {
    n + |sep| <= |s| && s[|s| - n - |sep|..|s| - n] == sep
  }

  lemma {:induction false} LastSegmentShape<T>(s: seq<T>, sep: seq<T>)
    requires |sep| > 0
    ensures EndsWith(s, LastSegment(s, sep))
    ensures |LastSegment(s, sep)| < |s| ==> SepBefore(s, sep, |LastSegment(s, sep)|)
    decreases |s|
  {
    var f := Find(s, sep);
    if f.None? {
      SplitNone(s, sep);
    } else {
      var i := f.value;
      var rest := s[i + |sep|..];
      LastSegmentShape(rest, sep);
      LastSegmentStep(s, sep, i);
      SuffixOfRest(s, sep, i, LastSegment(rest, sep));
    }
  }

  /** After the first separator, the last segment is the last segment of the rest. */
  lemma LastSegmentStep<T>(s: seq<T>, sep: seq<T>, i: nat)
    requires |sep| > 0 && Find(s, sep) == Some(i)
    ensures LastSegment(s, sep) == LastSegment(s[i + |sep|..], sep)
  {
    SplitStep(s, sep, i);
    LastCons(s[..i], Split(s[i + |sep|..], sep));
  }

  lemma LastCons<T>(a: T, tail: seq<T>)
    requires |tail| > 0
    ensures Last([a] + tail) == Last(tail)
  {
  }

  lemma SuffixOfRest<T>(s: seq<T>, sep: seq<T>, i: nat, r: seq<T>)
    requires OccursAt(s, sep, i)
    requires EndsWith(s[i + |sep|..], r)
    requires |r| < |s| - i - |sep| ==> SepBefore(s[i + |sep|..], sep, |r|)
    ensures EndsWith(s, r)
    ensures |r| < |s| ==> SepBefore(s, sep, |r|)
  {
    EndsWithOfSuffix(s, i + |sep|, r);
    if |r| < |s| - i - |sep| {
      SepBeforeOfSuffix(s, sep, i + |sep|, r);
    } else if |r| < |s| {
      SepBeforeAt(s, sep, i, r);
    }
  }

  lemma EndsWithOfSuffix<T>(s: seq<T>, k: nat, r: seq<T>)
    requires k <= |s|
    requires EndsWith(s[k..], r)
    ensures EndsWith(s, r)
  {
    assert s[|s| - |r|..] == s[k..][|s| - k - |r|..];
  }

  lemma SepBeforeOfSuffix<T>(s: seq<T>, sep: seq<T>, k: nat, r: seq<T>)
    requires k <= |s| && |r| < |s| - k
    requires SepBefore(s[k..], sep, |r|)
    ensures SepBefore(s, sep, |r|)
  {
    assert s[k..][|s| - k - |r| - |sep|..|s| - k - |r|] == s[|s| - |r| - |sep|..|s| - |r|];
  }

  lemma SepBeforeAt<T>(s: seq<T>, sep: seq<T>, i: nat, r: seq<T>)
    requires OccursAt(s, sep, i) && |r| == |s| - i - |sep|
    ensures SepBefore(s, sep, |r|)
  {
  }

  // ---------------------------------------------------------------------
  // Python's ordering of `str` values: code-point lexicographic order.

  /** `a < b` for Python strings. */
  predicate Below(a: string, b: string)
    decreases |a|
  {
    if |a| == 0 then |b| > 0
    else if |b| == 0 then false
    else if a[0] != b[0] then a[0] < b[0]
    else Below(a[1..], b[1..])
  }

  lemma {:induction false} BelowIrreflexive(a: string)
    ensures !Below(a, a)
    decreases |a|
  {
    if |a| > 0 {
      BelowIrreflexive(a[1..]);
    }
  }

  lemma {:induction false} BelowTransitive(a: string, b: string, c: string)
    requires Below(a, b) && Below(b, c)
    ensures Below(a, c)
    decreases |a|
  {
    if |a| > 0 && |b| > 0 && |c| > 0 && a[0] == b[0] && b[0] == c[0] {
      BelowTransitive(a[1..], b[1..], c[1..]);
    }
  }

  lemma {:induction false} BelowTotal(a: string, b: string)
    ensures a == b || Below(a, b) || Below(b, a)
    decreases |a|
  {
    if |a| > 0 && |b| > 0 && a[0] == b[0] {
      BelowTotal(a[1..], b[1..]);
      if a[1..] == b[1..] {
        assert a == [a[0]] + a[1..] && b == [b[0]] + b[1..];
      }
    }
  }

  lemma BelowAsymmetric(a: string, b: string)
    requires Below(a, b)
    ensures !Below(b, a)
  {
    if Below(b, a) {
      BelowTransitive(a, b, a);
      BelowIrreflexive(a);
    }
  }

  /** Python's `a <= b` for strings. */
  predicate AtMost(a: string, b: string) {
    !Below(b, a)
  }

  /** Ascending and duplicate-free, as `sorted(set(...))` produces. */
  ghost predicate StrictlySorted(s: seq<string>) {
    forall i, j :: 0 <= i < j < |s| ==> Below(s[i], s[j])
  }

  /** Ascending by a string key, as `sorted(..., key=...)` produces. */
  ghost predicate SortedBy<T>(s: seq<T>, key: T -> string) {
    forall i, j :: 0 <= i < j < |s| ==> AtMost(key(s[i]), key(s[j]))
  }

  lemma StrictlySortedDistinct(s: seq<string>, i: int, j: int)
    requires StrictlySorted(s) && 0 <= i < j < |s|
    ensures s[i] != s[j]
  {
    BelowIrreflexive(s[j]);
  }

  /** Insert into an ascending, duplicate-free sequence, keeping it so. */
  function InsertUnique(x: string, s: seq<string>): (r: seq<string>)
    requires StrictlySorted(s)
    ensures StrictlySorted(r)
    ensures forall y :: y in r <==> y == x || y in s
    ensures |r| <= |s| + 1
  {
    if |s| == 0 then [x]
    else if x == s[0] then s
    else if Below(x, s[0]) then
      assert forall j :: 0 < j < |s| ==> Below(x, s[j]) by {
        forall j | 0 < j < |s| ensures Below(x, s[j]) {
          BelowTransitive(x, s[0], s[j]);
        }
      }
      [x] + s
    else
      BelowTotal(x, s[0]);
      var t := InsertUnique(x, s[1..]);
      assert forall j :: 0 <= j < |t| ==> Below(s[0], t[j]) by {
        forall j | 0 <= j < |t| ensures Below(s[0], t[j]) {
          assert t[j] == x || t[j] in s[1..];
        }
      }
      [s[0]] + t
  }

  /** Python's `sorted(set(xs))`. */
  function SortedUnique(xs: seq<string>): (r: seq<string>)
    ensures StrictlySorted(r)
    ensures forall y :: y in r <==> y in xs
    decreases |xs|
  {
    if |xs| == 0 then []
    else
      var t := SortedUnique(xs[..|xs| - 1]);
      assert forall y :: y in xs <==> y in xs[..|xs| - 1] || y == xs[|xs| - 1] by {
        assert xs == xs[..|xs| - 1] + [xs[|xs| - 1]];
      }
      InsertUnique(xs[|xs| - 1], t)
  }

  /** Insert after every element whose key is not greater: the step of a stable sort. */
  function InsertBy<T>(x: T, s: seq<T>, key: T -> string): (r: seq<T>)
    requires SortedBy(s, key)
    ensures SortedBy(r, key)
    ensures multiset(r) == multiset(s) + multiset{x}
    ensures |r| == |s| + 1
  {
    if |s| == 0 then [x]
    else if Below(key(x), key(s[0])) then
      InsertFront(x, s, key);
      [x] + s
    else
      var t := InsertBy(x, s[1..], key);
      InsertBehind(x, s, key, t);
      assert s == [s[0]] + s[1..];
      [s[0]] + t
  }

  lemma InsertFront<T>(x: T, s: seq<T>, key: T -> string)
    requires SortedBy(s, key) && |s| > 0 && Below(key(x), key(s[0]))
    ensures SortedBy([x] + s, key)
  {
    forall j | 0 <= j < |s| ensures AtMost(key(x), key(s[j])) {
      if j > 0 && Below(key(s[j]), key(x)) {
        BelowTransitive(key(s[j]), key(x), key(s[0]));
      }
      if j == 0 { BelowAsymmetric(key(x), key(s[0])); }
    }
    forall i, j | 0 <= i < j < |[x] + s| ensures AtMost(key(([x] + s)[i]), key(([x] + s)[j])) {
      if i > 0 {
        assert ([x] + s)[i] == s[i - 1];
      }
    }
  }

  lemma InsertBehind<T>(x: T, s: seq<T>, key: T -> string, t: seq<T>)
    requires SortedBy(s, key) && |s| > 0 && !Below(key(x), key(s[0]))
    requires SortedBy(t, key) && multiset(t) == multiset(s[1..]) + multiset{x}
    ensures SortedBy([s[0]] + t, key)
  {
    forall j | 0 <= j < |t| ensures AtMost(key(s[0]), key(t[j])) {
      assert t[j] in multiset(t);
      if t[j] in multiset(s[1..]) {
        var k :| 0 <= k < |s[1..]| && s[1..][k] == t[j];
        assert s[k + 1] == t[j];
      }
    }
    forall i, j | 0 <= i < j < |[s[0]] + t| ensures AtMost(key(([s[0]] + t)[i]), key(([s[0]] + t)[j])) {
      if i > 0 {
        assert ([s[0]] + t)[i] == t[i - 1];
      }
    }
  }

  /** Python's stable `sorted(s, key=key)`. */
  function SortBy<T>(s: seq<T>, key: T -> string): (r: seq<T>)
    ensures SortedBy(r, key)
    ensures multiset(r) == multiset(s)
    ensures |r| == |s|
    decreases |s|
  {
    if |s| == 0 then []
    else
      assert s == s[..|s| - 1] + [s[|s| - 1]];
      InsertBy(s[|s| - 1], SortBy(s[..|s| - 1], key), key)
  }

  /** Sorting by a key that takes distinct values yields a strictly ascending key order. */
  lemma SortedDistinctIsStrict<T>(s: seq<T>, key: T -> string, i: int, j: int)
    requires SortedBy(s, key)
    requires 0 <= i < j < |s| && key(s[i]) != key(s[j])
    ensures Below(key(s[i]), key(s[j]))
  {
    BelowTotal(key(s[i]), key(s[j]));
  }

  /** Python's `sorted(s)` for a set of strings. */
  method SortedSet(s: set<string>) returns (r: seq<string>)
    ensures StrictlySorted(r)
    ensures forall y :: y in r <==> y in s
  {
    r := [];
    var rest := s;
    while rest != {}
      invariant rest <= s
      invariant StrictlySorted(r)
      invariant forall y :: y in r <==> y in s && y !in rest
      decreases |rest|
    {
      var x :| x in rest;
      r := InsertUnique(x, r);
      rest := rest - {x};
    }
  }
}

=== FILE: tasks.dfy ===
/**
  `one_task` of `fix-tasks.py`: a task of the `tasks-test-max` feature of
  `pixi.toml` copied for another dependency epoch (`test-min`, `test-next`),
  with the epoch's name written into each task's name, description, command,
  dependencies, inputs and outputs.
 */
module Tasks {
  import opened Py
  import opened Strings
  import opened Dicts

  /** A TOML value as `tomlkit` hands it over: a string, an array, a table, or anything else. */
  datatype Toml = TStr(s: string) | TList(items: seq<Toml>) | TTable(fields: seq<(string, Toml)>) | TOther(id: int)

  const BaseEpoch := "test-max"
  const KeyDescription := "description"
  const KeyCmd := "cmd"
  const KeyDependsOn := "depends-on"
  const KeyInputs := "inputs"
  const KeyOutputs := "outputs"

  const NoReplace := AttributeError("object has no attribute 'replace'")
  const NotIterable := TypeError("object is not iterable")

  /** The keys `one_task` writes; every other key is copied as it is. */
  predicate Rewritten(k: string) {
    k in {KeyDescription, KeyCmd, KeyDependsOn, KeyInputs, KeyOutputs}
  }

  /** `v.replace(...)`: only a string has it. */
  function Text(v: Toml): (r: Result<string>)
    ensures r.Ok? <==> v.TStr?
    ensures r.Ok? ==> r.value == v.s
    ensures r.Err? ==> r.error == NoReplace
  {
    if v.TStr? then Ok(v.s) else Err(NoReplace)
  }

  /** What `for x in v` visits: an array's items, a string's characters, a table's keys. */
  function Elements(v: Toml): (r: Result<seq<Toml>>)
    ensures r.Err? <==> v.TOther?
    ensures v.TList? ==> r == Ok(v.items)
    ensures v.TStr? ==> r.Ok? && |r.value| == |v.s| && forall i :: 0 <= i < |v.s| ==> r.value[i] == TStr([v.s[i]])
    ensures v.TTable? ==> r.Ok? && |r.value| == |v.fields| && forall i :: 0 <= i < |v.fields| ==> r.value[i] == TStr(v.fields[i].0)
  {
    match v
    case TList(items) => Ok(items)
    case TStr(s) => Ok(seq(|s|, i requires 0 <= i < |s| => TStr([s[i]])))
    case TTable(fields) => Ok(seq(|fields|, i requires 0 <= i < |fields| => TStr(fields[i].0)))
    case TOther(_) => Err(NotIterable)
  }

  /** `[f(x) for x in items]` where `f` calls `replace` on each item. */
  function MapText(items: seq<Toml>, f: Rewrite): (r: Result<seq<Toml>>)
    ensures r.Ok? <==> forall i :: 0 <= i < |items| ==> items[i].TStr?
    ensures r.Ok? ==> |r.value| == |items| && forall i :: 0 <= i < |items| ==> r.value[i] == TStr(f.Apply(items[i].s))
    ensures r.Err? ==> r.error == NoReplace
    decreases |items|
  {
    if |items| == 0 then Ok([])
    else
      var head :- Text(items[0]);
      var tail :- MapText(items[1..], f);
      Ok([TStr(f.Apply(head))] + tail)
  }

  /** The rewrite applied to each element of a list: dependencies, or input and output paths. */
  datatype Rewrite = DependencyFor(epoch: string) | PathFor(epoch: string) {
    /** `test-max-` becomes `<epoch>-`; in a path `/test-max/` and then `/test-max.` become the epoch's. */
    function Apply(x: string): string {
      match this
      case DependencyFor(epoch) => ReplaceAll(x, BaseEpoch + "-", epoch + "-")
      case PathFor(epoch) =>
        ReplaceAll(ReplaceAll(x, "/" + BaseEpoch + "/", "/" + epoch + "/"), "/" + BaseEpoch + ".", "/" + epoch + ".")
    }
  }

  /** The same keys in the same order. */
  ghost predicate SameKeys<V>(a: Dict<V>, b: Dict<V>) {
    |a| == |b| && forall i :: 0 <= i < |a| ==> a[i].0 == b[i].0
  }

  /** The description's `default` becomes the epoch without its `test-` prefix. */
  function DescriptionFor(epoch: string, d: string): string {
    ReplaceAll(d, "default", ReplaceAll(epoch, "test-", ""))
  }

  /** The command's `-e test-max` becomes `-e <epoch>`. */
  function CmdFor(epoch: string, c: string): string {
    ReplaceAll(c, "-e " + BaseEpoch, "-e " + epoch)
  }

  /** Python's `old_task[key].replace`: a missing key raises `KeyError`, a non-string `AttributeError`. */
  function Lookup(task: Dict<Toml>, key: string): (r: Result<string>)
    ensures Get(task, key).None? ==> r == Err(KeyError(key))
    ensures Get(task, key).Some? ==> r == Text(Get(task, key).value)
  {
    match Get(task, key)
    case None => Err(KeyError(key))
    case Some(v) => Text(v)
  }

  /** `[f(x) for x in old_task.get(key, [])]` when `key in old_task`, and nothing otherwise. */
  function ListFor(task: Dict<Toml>, key: string, f: Rewrite): (r: Result<Option<seq<Toml>>>)
    ensures Get(task, key).None? ==> r == Ok(None)
    ensures Get(task, key).Some? ==> r.Ok? ==> r.value.Some?
  {
    match Get(task, key)
    case None => Ok(None)
    case Some(v) =>
      var items :- Elements(v);
      var mapped :- MapText(items, f);
      Ok(Some(mapped))
  }

  /** The values `one_task` assigns: the two strings, and each list when its key is present. */
  datatype Rewrites = Rewrites(description: string, cmd: string, dependsOn: Option<seq<Toml>>,
                               inputs: Option<seq<Toml>>, outputs: Option<seq<Toml>>)

  /** The value a key holds after the assignments. */
  function Revalue(k: string, v: Toml, w: Rewrites): Toml {
    if k == KeyDescription then TStr(w.description)
    else if k == KeyCmd then TStr(w.cmd)
    else if k == KeyDependsOn && w.dependsOn.Some? then TList(w.dependsOn.value)
    else if k == KeyInputs && w.inputs.Some? then TList(w.inputs.value)
    else if k == KeyOutputs && w.outputs.Some? then TList(w.outputs.value)
    else v
  }

  /**
    `new_task = dict(old_task)` followed by the assignments: a key already
    present keeps its place, so every entry keeps its key and gets its new value.
   */
  function Assign(before: Dict<Toml>, w: Rewrites): (r: Dict<Toml>)
    ensures SameKeys(r, before)
    ensures forall k :: Get(before, k).None? ==> Get(r, k).None?
    ensures forall k :: Get(before, k).Some? ==> Get(r, k) == Some(Revalue(k, Get(before, k).value, w))
    decreases |before|
  {
    if |before| == 0 then []
    else [(before[0].0, Revalue(before[0].0, before[0].1, w))] + Assign(before[1..], w)
  }

  /**
    `one_task`: the new name and the new task, which keeps its keys in
    their order; the description, the command and, where present, the
    dependencies, inputs and outputs are rewritten for the epoch; every
    other value is copied. The lookups fail in the order the code makes them.
   */
  function OneTask(epoch: string, oldName: string, before: Dict<Toml>): (r: Result<(string, Dict<Toml>)>)
    ensures Get(before, KeyDescription).None? ==> r == Err(KeyError(KeyDescription))
    ensures Get(before, KeyDescription).Some? && !Get(before, KeyDescription).value.TStr? ==> r == Err(NoReplace)
    ensures Lookup(before, KeyDescription).Ok? && Get(before, KeyCmd).None? ==> r == Err(KeyError(KeyCmd))
    ensures r.Ok? ==> Lookup(before, KeyDescription).Ok? && Lookup(before, KeyCmd).Ok?
    ensures r.Ok? ==> r.value.0 == ReplaceAll(oldName, BaseEpoch, epoch)
    ensures r.Ok? ==> SameKeys(r.value.1, before)
    ensures r.Ok? ==> Get(r.value.1, KeyDescription) == Some(TStr(DescriptionFor(epoch, Lookup(before, KeyDescription).value)))
    ensures r.Ok? ==> Get(r.value.1, KeyCmd) == Some(TStr(CmdFor(epoch, Lookup(before, KeyCmd).value)))
    ensures r.Ok? ==> forall k :: !Rewritten(k) ==> Get(r.value.1, k) == Get(before, k)
    ensures r.Ok? ==> ListRewritten(before, r.value.1, KeyDependsOn, DependencyFor(epoch))
    ensures r.Ok? ==> ListRewritten(before, r.value.1, KeyInputs, PathFor(epoch))
    ensures r.Ok? ==> ListRewritten(before, r.value.1, KeyOutputs, PathFor(epoch))
  {
    var name := ReplaceAll(oldName, BaseEpoch, epoch);
    var description :- Lookup(before, KeyDescription);
    var cmd :- Lookup(before, KeyCmd);
    var dependsOn :- ListFor(before, KeyDependsOn, DependencyFor(epoch));
    var inputs :- ListFor(before, KeyInputs, PathFor(epoch));
    var outputs :- ListFor(before, KeyOutputs, PathFor(epoch));
    var w := Rewrites(DescriptionFor(epoch, description), CmdFor(epoch, cmd), dependsOn, inputs, outputs);
    Ok((name, Assign(before, w)))
  }

  /**
    The list under `key` is present afterwards exactly when it was before,
    and then holds the rewrite of each element, as many as there were.
   */
  ghost predicate ListRewritten(before: Dict<Toml>, after: Dict<Toml>, key: string, f: Rewrite) {
    (Get(after, key).Some? <==> Get(before, key).Some?) &&
    (Get(before, key).Some? ==>
       var items := Elements(Get(before, key).value);
       items.Ok? && MapText(items.value, f).Ok? &&
       Get(after, key) == Some(TList(MapText(items.value, f).value)) &&
       |MapText(items.value, f).value| == |items.value|)
  }

  /** Rewriting strings that the rewrite leaves alone gives the list back. */
  lemma {:induction false} MapTextSame(items: seq<Toml>, f: Rewrite)
    requires forall i :: 0 <= i < |items| ==> items[i].TStr? && f.Apply(items[i].s) == items[i].s
    ensures MapText(items, f) == Ok(items)
    decreases |items|
  {
    if |items| > 0 {
      MapTextSame(items[1..], f);
      assert [TStr(f.Apply(items[0].s))] + items[1..] == items;
    }
  }

  /** For the base epoch itself every rewrite but the description's is the identity. */
  lemma BaseRewritesSame(x: string)
    ensures DependencyFor(BaseEpoch).Apply(x) == x
    ensures PathFor(BaseEpoch).Apply(x) == x
    ensures CmdFor(BaseEpoch, x) == x
  {
    ReplaceSelf(x, BaseEpoch + "-");
    ReplaceSelf(x, "/" + BaseEpoch + "/");
    ReplaceSelf(x, "/" + BaseEpoch + ".");
    ReplaceSelf(x, "-e " + BaseEpoch);
  }

  /**
    Copying a task for the base epoch keeps its name, command and lists of
    strings; only `default` in the description is rewritten (to `max`).
   */
  lemma BaseEpochKeepsTask(name: string, before: Dict<Toml>, key: string)
    requires OneTask(BaseEpoch, name, before).Ok?
    requires key in {KeyDependsOn, KeyInputs, KeyOutputs}
    requires Get(before, key).Some? && Get(before, key).value.TList?
    ensures OneTask(BaseEpoch, name, before).value.0 == name
    ensures Get(OneTask(BaseEpoch, name, before).value.1, KeyCmd) == Get(before, KeyCmd)
    ensures Get(OneTask(BaseEpoch, name, before).value.1, key) == Get(before, key)
  {
    var after := OneTask(BaseEpoch, name, before).value.1;
    ReplaceSelf(name, BaseEpoch);
    BaseRewritesSame(Lookup(before, KeyCmd).value);
    var items := Get(before, key).value.items;
    var f := if key == KeyDependsOn then DependencyFor(BaseEpoch) else PathFor(BaseEpoch);
    assert ListRewritten(before, after, key, f);
    forall i | 0 <= i < |items| ensures items[i].TStr? && f.Apply(items[i].s) == items[i].s {
      assert MapText(items, f).Ok?;
      BaseRewritesSame(items[i].s);
    }
    MapTextSame(items, f);
  }
}

=== FILE: urls.dfy ===
/**
  The part of Python's `urllib.parse.urlparse` the lock pipeline relies on:
  the generic syntax of section 3 of RFC 3986 read the way `urlsplit` reads it
  (scheme, then `//` authority, then `#` fragment, then `?` query), with the
  `;` parameters of the last path segment split off as `urlparse` does.
 */
module Urls {
  import opened Py
  import opened Strings
  import Names
  import opened Paths

  datatype ParsedUrl = ParsedUrl(
    scheme: string,
    netloc: string,
    path: string,
    params: string,
    query: string,
    fragment: string
  )

  predicate IsAsciiAlpha(c: char) {
    'a' <= c <= 'z' || 'A' <= c <= 'Z'
  }

  /** `urllib.parse.scheme_chars`. */
  predicate IsSchemeChar(c: char) {
    IsAsciiAlpha(c) || '0' <= c <= '9' || c == '+' || c == '-' || c == '.'
  }

  /** `urllib.parse.uses_params`: schemes whose last path segment may carry `;` parameters. */
  const UsesParams: set<string> := {
    "", "ftp", "hdl", "prospero", "http", "imap", "https", "shttp", "rtsp",
    "rtsps", "rtspu", "sip", "sips", "mms", "sftp", "tel"
  }

  function LowerAll(s: string): (r: string)
    ensures |r| == |s|
  {
    seq(|s|, k requires 0 <= k < |s| => Names.Lower(s[k]))
  }

  /** A single character occurs in `s` exactly when Python's `c in s` holds. */
  lemma ContainsChar(s: string, c: char)
    ensures Contains(s, [c]) <==> c in s
  {
    if c in s {
      var k :| 0 <= k < |s| && s[k] == c;
      assert OccursAt(s, [c], k);
    }
    if Contains(s, [c]) {
      var k := Find(s, [c]).value;
      assert s[k..k + 1] == [c];
      assert s[k] == c;
    }
  }

  /** Everything before the first occurrence of `c`, and what follows it. */
  function Partition(s: string, c: char): (r: (string, string))
    ensures c !in r.0
    ensures forall x :: x in r.0 ==> x in s
    ensures c in s ==> s == r.0 + [c] + r.1
    ensures c !in s ==> r == (s, "")
  {
    ContainsChar(s, c);
    match Find(s, [c])
    case None => (s, "")
    case Some(k) =>
      assert s[k..k + 1] == [c];
      assert c !in s[..k] by {
        PrefixBeforeFindFree(s, [c], k);
        ContainsChar(s[..k], c);
      }
      assert s == s[..k] + s[k..k + 1] + s[k + 1..];
      (s[..k], s[k + 1..])
  }

  /** The index of the first character of `s` in `stops`, or `|s|` if there is none. */
  function FirstOf(s: string, stops: set<char>): (r: nat)
    ensures r <= |s|
    ensures forall k :: 0 <= k < r ==> s[k] !in stops
    ensures r < |s| ==> s[r] in stops
  {
    if |s| == 0 || s[0] in stops then 0 else 1 + FirstOf(s[1..], stops)
  }

  /** The scheme step of `urlsplit`: a leading run of scheme characters before `:`. */
  function SplitScheme(url: string): (r: (string, string))
    ensures r.0 == "" ==> r.1 == url
    ensures r.0 != "" ==> exists i :: 0 < i < |url| && url[i] == ':' && r.1 == url[i + 1..]
  {
    match Find(url, ":")
    case Some(i) =>
      if i > 0 && IsAsciiAlpha(url[0]) && (forall k :: 0 <= k < i ==> IsSchemeChar(url[k])) then
        assert url[i..i + 1] == ":";
        (LowerAll(url[..i]), url[i + 1..])
      else ("", url)
    case None => ("", url)
  }

  /** `urlparse(url)`: a bracket left unbalanced in the authority is a ValueError. */
  function UrlParse(url: string): (r: Result<ParsedUrl>)
    ensures r.Err? ==> r.error.ValueError?
    ensures r.Ok? ==> '#' !in r.value.path && '?' !in r.value.path
    ensures r.Ok? ==> ';' !in LastSegment(r.value.path, "/") || r.value.scheme !in UsesParams
  {
    var (scheme, afterScheme) := SplitScheme(url);
    var hasNetloc := StartsWith(afterScheme, "//");
    var rest0 := if hasNetloc then afterScheme[2..] else afterScheme;
    var cut := if hasNetloc then FirstOf(rest0, {'/', '?', '#'}) else 0;
    var netloc := rest0[..cut];
    if hasNetloc && (('[' in netloc) != (']' in netloc)) then
      Err(ValueError("Invalid IPv6 URL"))
    else
      var (path, params, query, fragment) := SplitTail(scheme, rest0[cut..]);
      Ok(ParsedUrl(scheme, netloc, path, params, query, fragment))
  }

  /**
    What follows the authority: the fragment after the first `#`, then the
    query after the first `?`, then the parameters of the last segment.
   */
  function SplitTail(scheme: string, rest: string): (r: (string, string, string, string))
    ensures '#' !in r.0 && '?' !in r.0
    ensures ';' !in LastSegment(r.0, "/") || scheme !in UsesParams
  {
    var (beforeFragment, fragment) := Partition(rest, '#');
    var (whole, query) := Partition(beforeFragment, '?');
    var (path, params) := if scheme in UsesParams then SplitParams(whole) else (whole, "");
    (path, params, query, fragment)
  }

  /**
    `_splitparams`: parameters start at the first `;` of the last path segment;
    without `;` there the path is kept whole.
   */
  function SplitParams(path: string): (r: (string, string))
    ensures ';' !in LastSegment(r.0, "/")
    ensures r.0 == path || (exists k :: 0 <= k < |path| && path[k] == ';' && r.0 == path[..k])
    ensures forall x :: x in r.0 ==> x in path
  {
    var last := LastSegment(path, "/");
    LastSegmentIsSuffix(path, "/");
    var dir := path[..|path| - |last|];
    assert path == dir + last;
    if ';' in last then
      var (keep, params) := Partition(last, ';');
      KeepBeforeParams(path, dir, last, keep, params);
      (dir + keep, params)
    else
      (path, "")
  }

  lemma KeepBeforeParams(path: string, dir: string, last: string, keep: string, params: string)
    requires last == LastSegment(path, "/") && path == dir + last
    requires last == keep + ";" + params && ';' !in keep
    ensures ';' !in LastSegment(dir + keep, "/")
    ensures path[|dir| + |keep|] == ';' && dir + keep == path[..|dir| + |keep|]
  {
    assert keep == last[..|keep|];
    LastSegmentOfKeep(path, dir, last, keep);
    assert path[|dir| + |keep|] == last[|keep|];
  }

  /** Cutting the last segment short leaves it the last segment. */
  lemma LastSegmentOfKeep(path: string, dir: string, last: string, keep: string)
    requires last == LastSegment(path, "/") && path == dir + last
    requires |keep| <= |last| && keep == last[..|keep|]
    ensures LastSegment(dir + keep, "/") == keep
  {
    LastSegmentIsSuffix(path, "/");
    FreeSingle(last, '/');
    FreeSingle(keep, '/');
    if |last| < |path| {
      OccursAtSingle(path, '/', |path| - |last| - 1);
      assert EndsWith(dir, "/");
    }
    LastSegmentAfterSep(dir, keep);
  }

  /**
    `url_wheel_filename`: the file name of a URL whose path ends with `.whl`,
    nothing for any other URL.
   */
  function UrlWheelFilename(url: string): (r: Result<Option<string>>)
    ensures r.Err? <==> UrlParse(url).Err?
    ensures r.Ok? ==> (r.value.None? <==> !EndsWith(UrlParse(url).value.path, ".whl"))
    ensures r.Ok? && r.value.Some? ==>
              var name := r.value.value;
              Free(name, "/") && EndsWith(name, ".whl")
              && EndsWith(UrlParse(url).value.path, name)
  {
    match UrlParse(url)
    case Err(e) => Err(e)
    case Ok(parsed) => Ok(WheelName(parsed.path))
  }

  /** The wheel file name at the end of a URL path, if the path names a wheel. */
  function WheelName(path: string): (r: Option<string>)
    ensures r.None? <==> !EndsWith(path, ".whl")
    ensures r.Some? ==> Free(r.value, "/") && EndsWith(r.value, ".whl") && EndsWith(path, r.value)
  {
    if EndsWith(path, ".whl") then
      WheelSegment(path);
      LastSegmentIsSuffix(path, "/");
      Some(LastSegment(path, "/"))
    else
      None
  }

  /** A path ending with `.whl` has a last `/`-segment that ends with `.whl`. */
  lemma WheelSegment(path: string)
    requires EndsWith(path, ".whl")
    ensures EndsWith(LastSegment(path, "/"), ".whl")
  {
    LastSegmentIsSuffix(path, "/");
    var r := LastSegment(path, "/");
    assert forall k :: |path| - 4 <= k ==> !OccursAt(path, "/", k) by {
      forall k | |path| - 4 <= k ensures !OccursAt(path, "/", k) {
        if 0 <= k < |path| {
          assert path[k] == path[|path| - 4..][k - (|path| - 4)];
          assert path[k..k + 1] == [path[k]];
        }
      }
    }
    assert |r| >= 4;
    assert r == path[|path| - |r|..];
  }
}
